=== FILE: README.md ===
# A Dafny model of the SGG Mod Importer

The Mod Importer is a Python tool for Supergiant Games titles. Each mod ships a
`modfile.txt` of commands. The importer reads every modfile, schedules edits
against the game's data files, and applies them in priority order. The edits
are Lua imports, whole-file replacements, and XML, SJSON and CSV merges. The
importer keeps a backup of each base file and stamps every edited file, so the
next run can restore the base before editing again.

This project models the decision logic of that tool as pure Dafny functions
and proves properties about it. The model follows the repository's several
copies of the code:

- `ModImporter/modimporter.py`, the main one;
- the top-level `modimporter.py` and `SGGMI.py`;
- the `SGGMI/` package.

Where the copies differ, the model has a parameter or a separate member for
each variant.

The model has four parts.

- **Reading modfiles.**
  - `Lexer`: `splitlines` turns a modfile body into logical lines. It handles
    `;` line breaks, `::` line comments, `-: … :-` block comments and quoted
    runs.
  - `Tokens`: `tokenise` cuts a line into tokens. `Dialect` says whether
    commas separate tokens as well as spaces.
  - `PyInt`: Python's `int(str)`, as used by `Load Priority`.
- **Scheduling and editing.**
  - `Scheduler`: the `To` and `Load Priority` settings, keyword dispatch, the
    expansion of a command's sources into queued commands (`loadcommand`),
    and the queues themselves.
  - `SortMods`: the priority sort.
  - `EditMarker`: the restore-or-backup decision, the patch each mode applies,
    and the stamp appended after editing.
  - `ModControl`: the `Signal` and `Mod` value classes.
- **Tree merges.**
  - `Nodes`: the JSON-like values and their ordered mappings.
  - `SjsonMerge`: `sjsonmap`.
  - `ClearDne`, `Pruning` and `Prune`: the `clearDNE`, `sjson_clearDNE` and
    `prune` clean-ups.
  - `DictUtil`: `safeget`, `safeset`, `dictmap`, `get_attribute` and
    `set_attribute`.
  - `MergeDict`: `merge_dict`.
  - `MergeData`: `merge_data`.
  - `XmlMerge`: `xmlmap` / `xml_map` and the XML `get`.
  - `CsvMap`: `csvmap` and `mergecsv`.
- **Search.**
  - `Search`: `traverse` of `sjson_search.py`, which lists the paths to every
    occurrence of a key/value pair in a tree.

Three shared modules support the rest:

- `Wrappers` holds `Option` and `Result`. A `Fail` carries the name of the
  Python exception the code would raise.
- `PyStr` holds `str.split`, `strip`, `replace` and `in`.
- `Nodes` holds the value type used by every merge.

## Model

| member | source | states |
|---|---|---|
| Lexer.SplitLines | ModImporter/modimporter.py:401-437 | every body yields at least one logical line, and at least one per physical line |
| Lexer.SplitLinesEmpty | SGGMI/SGGMI.py:65-103 | an empty modfile body is a single empty logical line |
| Lexer.PhysicalLine | ModImporter/modimporter.py:430-436 | each physical line opens a fresh logical line and never alters the lines before it |
| Lexer.EmitFresh | ModImporter/modimporter.py:419-425 | in a fresh logical line, uncommented text becomes its `;`-separated pieces, one logical line each |
| Lexer.EmitAppend | ModImporter/modimporter.py:421-425 | emitting two texts one after the other is the same as emitting their concatenation |
| Lexer.BlockSwallowsLine | ModImporter/modimporter.py:407-411 | inside a block comment, a physical line without `:-` adds only its empty logical line, and the comment stays open |
| Lexer.BlockSwallowsGroups | ModImporter/modimporter.py:407-411 | while a block comment is open, groups without `:-` change nothing |
| Lexer.LineCommentDropsRest | ModImporter/modimporter.py:419 | in an unquoted group, everything after `::` is ignored |
| Lexer.TextCut | ModImporter/modimporter.py:419-420 | processing unquoted text equals processing its part before the first `::` |
| Lexer.BlockCommentVanishes | ModImporter/modimporter.py:407-428 | a block comment `-: c :-` inside an unquoted group leaves the same result as if it were absent |
| Lexer.QuotedRunVerbatim | ModImporter/modimporter.py:416-417 | a quoted run is kept verbatim, quotes included, whatever `;`, `::` or `-:` it contains |
| Lexer.PlainBody | ModImporter/modimporter.py:401-437 | on a body with no quote and no colon, the logical lines are the stripped physical lines cut at every `;` (an independent reference definition) |
| Tokens.Tokenise | ModImporter/modimporter.py:439-451 | no token is empty |
| Tokens.NonEmpty | ModImporter/modimporter.py:447-450 | keeps only nonempty strings, each drawn from the input, and is the identity when none is empty |
| Tokens.UnquotedTokens | ModImporter/modimporter.py:444-445 | outside quotes no token holds a space, nor a comma in the comma dialect |
| Tokens.UnquotedPiece | modimporter.py:366-380 | the space-only dialect of the top-level copy splits unquoted text into space-free pieces |
| Tokens.TokeniseOneGroup | modimporter.py:366-380 | a line without quotes is tokenised as one unquoted group |
| Tokens.TokeniseWords | ModImporter/modimporter.py:439-451 | words joined by single spaces tokenise back into exactly those words (round trip) |
| Tokens.TokeniseQuoted | ModImporter/modimporter.py:440-443 | each nonempty quoted run becomes exactly one token, spaces and commas included (round trip) |
| Tokens.Evens | modimporter.py:431 | `xs[::2]` holds the even-indexed elements, and only those |
| Tokens.StripColonsFree | modimporter.py:431 | no colon survives the colon strip |
| Tokens.StripColonsPlain | modimporter.py:431 | the colon strip leaves a colon-free line unchanged |
| Tokens.StripColonsPair | modimporter.py:431 | text between a pair of colons is removed, and the text before and after is kept |
| PyInt.ParseInt | ModImporter/modimporter.py:519 | a parsed value comes from nonempty stripped text, and a negative value from text that starts with `-` |
| PyInt.ParseShow | ModImporter/modimporter.py:519 | `int(str(n)) == n` for every integer (round trip) |
| PyInt.ParseIntChars | ModImporter/modimporter.py:519-521 | accepted text consists only of sign, digit and underscore characters |
| PyInt.ParseRejects | ModImporter/modimporter.py:519-521 | text holding any other non-space ASCII character raises ValueError, so the priority is kept |
| Scheduler.StartsWithIff | ModImporter/modimporter.py:455-456 | a token list starts with a keyword iff the keyword is its prefix and at least one token follows |
| Scheduler.LoadPriority | ModImporter/modimporter.py:514-523 | a line that is not `Load Priority` keeps the priority; a bare one resets it to 100; one with a value sets it when the value parses |
| Scheduler.Targets | ModImporter/modimporter.py:511 | one target per argument, with every backslash turned into a slash |
| Scheduler.Update | ModImporter/modimporter.py:510-523 | `To` sets only the targets, `Load` only the priority, and every other line neither |
| Scheduler.LoadPriorityShow | ModImporter/modimporter.py:514-519 | `Load Priority n` sets the priority to n for every integer n |
| Scheduler.LoadPriorityReset | ModImporter/modimporter.py:522-523 | a bare `Load Priority` restores the default priority |
| Scheduler.UpdateAllKeepsEp | ModImporter/modimporter.py:510-523 | a run of lines with no `Load` line leaves the priority as it was |
| Scheduler.Dispatch | ModImporter/modimporter.py:524-543 | Include takes the remaining tokens as paths; a load takes a nonempty suffix of the tokens; only Top Import reverses; SJSON needs the SJSON module |
| Scheduler.DispatchKeyword | ModImporter/modimporter.py:532-543 | with SJSON support present, each of the six load keywords followed by arguments dispatches to its own mode with exactly those arguments, and every bare keyword, `SJSON` and `Top Import` included, does nothing |
| Scheduler.InScope | ModImporter/modimporter.py:470-473 | keeps exactly the paths inside the game directory, in order |
| Scheduler.Scan | ModImporter/modimporter.py:467-478 | never yields more entries than there are sources |
| Scheduler.NumIsMin | ModImporter/modimporter.py:466-476 | the row count is -1 with no directory source, and otherwise the smallest directory's file count |
| Scheduler.Count | ModImporter/modimporter.py:479-480 | no sources give no commands, only files give one, and directories give the smallest directory's count |
| Scheduler.Rows | ModImporter/modimporter.py:479-481 | one row per command, each with one source per argument |
| Scheduler.RowsContent | ModImporter/modimporter.py:481 | row j takes file j of each directory and the file itself otherwise |
| Scheduler.Group | ModImporter/modimporter.py:461-463 | argument group i holds n source paths relative to the modfile's directory |
| Scheduler.ExpandTargets | ModImporter/modimporter.py:459-460 | every queued command targets a `To` path inside the game directory |
| Scheduler.ExpandFromKey | ModImporter/modimporter.py:459-488 | every command expanded for a target is queued under that target |
| Scheduler.SingleArgument | ModImporter/modimporter.py:461-481 | a single file argument queues exactly one command for it |
| Scheduler.EnqueueQueues | ModImporter/modimporter.py:483-488 | a target's queue gains the commands at its back, or reversed at its front for Top Import; other queues are unchanged |
| Scheduler.EnqueueIssued | ModImporter/modimporter.py:483-488 | for any emitted sequence, starting from the line's priority, a target's queue gains its issued commands at the back, or reversed at the front for Top Import |
| Scheduler.LoadCommandQueues | ModImporter/modimporter.py:458-488 | one `loadcommand` call (the commands `Expand` emits, queued by `Enqueue`): a target's queue gains the commands expanded for it, at the back or reversed at the front; a target not named by `To` or not in scope keeps its queue |
| Scheduler.IssuedContents | ModImporter/modimporter.py:481-488 | each issued command carries the mode, the key and no id; its priority is the given one, or its negation for Top Import; there are no more commands than rows |
| Scheduler.TopImportAlternates | ModImporter/modimporter.py:483-486 | two Top Import rows land at the queue front, the second ahead of the first, with priorities of opposite signs because the shared `load` is negated in place |
| Scheduler.EnqueueNumberedQueues | modimporter.py:389-413 | the numbering copy appends commands whose ids continue from the queue length |
| Scheduler.EnqueueKeepsNumbered | modimporter.py:413 | a queue whose ids are its positions keeps that property after enqueueing |
| Scheduler.NumberingExtends | modimporter.py:413 | numbering from the queue length extends a well-numbered queue |
| SortMods.Insert | SGGMI.py:646-647 | insertion adds exactly one command (a multiset statement) |
| SortMods.InsertSorted | SGGMI.py:646-647 | insertion into a queue sorted by priority keeps it sorted |
| SortMods.Sort | ModImporter/modimporter.py:555 | the sorted queue is a permutation of the queue |
| SortMods.SortSorted | ModImporter/modimporter.py:555 | the sorted queue is ordered by priority |
| SortMods.SortStable | ModImporter/modimporter.py:555 | commands of equal priority keep their queue order (stability) |
| SortMods.Renumber | SGGMI.py:648-649 | every command's id becomes its position, and nothing else changes |
| SortMods.SortModsSpec | modimporter.py:467-470 | after `sortmods` the queue is sorted, stable, a permutation, and numbered by position |
| SortMods.AppliedAsWritten | ModImporter/modimporter.py:645-647 | the edit loop applies the unsorted queue, while the stored queue holds the same commands sorted |
| SortMods.Applied | ModImporter/modimporter.py:554-555 | the intended loop applies a permutation of the queue ordered by priority |
| SortMods.AsWrittenIgnoresPriority | ModImporter/modimporter.py:645-647 | with priorities 200 then 100, the code as written applies 200 first, and the intended order applies 100 first |
| EditMarker.Template | ModImporter/modimporter.py:590-598 | every non-empty marker starts on a new line |
| EditMarker.Edited | ModImporter/modimporter.py:548-552 | a file counts as edited iff some line contains `MODIFIED by Mod Importer @ ` |
| EditMarker.PrepareTopLevel | modimporter.py:473-483 | the base is restored iff it is edited and its backup is in scope, and otherwise saved |
| EditMarker.PrepareModImporter | ModImporter/modimporter.py:559-565 | a missing base is marked deleted; a present base is restored iff it is a `.pkg` or edited and its backup is in scope |
| EditMarker.MarkerParts | ModImporter/modimporter.py:590-600 | the stamped marker is a line break followed by one line holding the stamp and the time |
| EditMarker.ReplaceUnmarked | ModImporter/modimporter.py:590-600 | a queue whose first command is a replacement leaves no marker |
| EditMarker.MarkedIsEdited | ModImporter/modimporter.py:545-552 | whatever the file held, once the marker is appended the next run sees it as edited |
| EditMarker.SecondRunRestores | modimporter.py:505-513 | the run after an edit restores the base from its backup, in both copies |
| EditMarker.PatchAsWritten | ModImporter/modimporter.py:570-580 | as written, every mode except CSV selects a patch |
| EditMarker.PatchFor | ModImporter/modimporter.py:570-580 | the intended chain agrees with the written one on every mode but CSV |
| EditMarker.PatchForInjective | ModImporter/modimporter.py:570-580 | distinct modes apply distinct patches |
| EditMarker.AsWrittenSkipsCsv | ModImporter/modimporter.py:570-580 | a CSV command applies nothing as written, and merges the CSV patch as intended |
| ModControl.Truth | SGGMI/sggmi/temp/sggmi_file_mod_control.py:12-13 | `bool(signal)` succeeds iff the truth is a bool, and then returns it |
| ModControl.SignalEqLaws | SGGMI/sggmi/temp/sggmi_file_mod_control.py:15-18 | Signal equality is reflexive, symmetric and false against a non-Signal, and for bool truths with string or None messages it is pair equality |
| ModControl.SignalEqNumeric | SGGMI/sggmi/temp/sggmi_file_mod_control.py:15-18 | a Signal with truth 1 equals one with truth True, yet `bool` of it raises |
| ModControl.Assign | SGGMI/sggmi/temp/sggmi_file_mod_control.py:33-34 | every attribute assignment on a Signal raises |
| ModControl.UpdateLookup | SGGMI/sggmi/temp/sggmi_file_mod_control.py:213-214 | after `update`, a supplied key holds the supplied value and every other key keeps its value |
| ModControl.ModLoadLookup | SGGMI/SGGMI.py:133-134 | a Mod's load settings hold the supplied entries, plus the default priority when none is supplied |
| ModControl.PriorityAgrees | SGGMI.py:539 | `load.get("priority", default_priority)` is the priority the other copies store |
| Nodes.Lookup | ModImporter/modimporter.py:82-83 | a key is absent iff it is not among the keys, and a found value is that key's entry |
| Nodes.Put | ModImporter/modimporter.py:338 | after a write the key maps to the value and every other key is unchanged |
| Nodes.PutKeys | ModImporter/modimporter.py:338 | a write keeps key order, appends a new key at the end, and keeps keys unique |
| Nodes.RemoveSpec | ModImporter/modimporter.py:335 | after a delete the key is absent, every other key reads as before, only entries of the mapping remain, and unique keys stay unique |
| Nodes.SafeGet | ModImporter/modimporter.py:76-90 | in-range indexes and present keys give their value; a missing key, bad index or wrong kind gives DNE |
| Nodes.SafeGetPut | ModImporter/modimporter.py:76-90 | reading a key after writing it returns the written value, and other keys read as before |
| SjsonMerge.Fold | ModImporter/modimporter.py:309-319 | a `_sequence` mapping folds into a list, and any other patch is unchanged |
| SjsonMerge.SparseSlots | ModImporter/modimporter.py:309-319 | with non-negative integer keys, the folded list has one slot per index up to the largest, holding the last value given for it or DNE |
| SjsonMerge.SparseNegativeFirst | ModImporter/modimporter.py:313-316 | a negative index before any other index raises IndexError |
| SjsonMerge.SparseSkips | ModImporter/modimporter.py:312-318 | keys that are not integers are skipped |
| SjsonMerge.MergeAbsentOrMismatch | ModImporter/modimporter.py:307-345 | a DNE patch keeps the base, and a patch of another type replaces it |
| SjsonMerge.MergeIntoAbsent | ModImporter/modimporter.py:309-345 | merging into DNE yields the (folded) patch |
| SjsonMerge.MergeListMarkers | ModImporter/modimporter.py:321-328 | a list patch headed `_append` extends the base, `_delete` deletes it, and `_replace` replaces it with the rest |
| SjsonMerge.MergeMapMarkers | ModImporter/modimporter.py:331-336 | a truthy `_delete` entry deletes the base; a truthy `_replace` replaces it with the patch minus that entry |
| SjsonMerge.MergeScalars | ModImporter/modimporter.py:320-339 | same-type scalars keep the base as written, raise in the SGGMI copy, and take the patch as intended |
| SjsonMerge.SggmiAgrees | SGGMI.py:321-362 | wherever the SGGMI copy succeeds it agrees with the main copy |
| SjsonMerge.AsWrittenIgnoresNewValue | ModImporter/modimporter.py:337-339 | as written, a patch changing a string value leaves the old value; as intended it takes the new one |
| SjsonMerge.MergeScalarWins | ModImporter/modimporter.py:320-345 | a scalar patch replaces any base |
| SjsonMerge.MergeItemsPointwise | ModImporter/modimporter.py:328-330 | a list merge succeeds iff every element merge does, and then element k is the merge of base element k (or DNE) with patch element k |
| SjsonMerge.MergeEntriesPointwise | ModImporter/modimporter.py:337-338 | every patched key holds the merge of its base value with its patch value |
| ClearDne.ClearDne | ModImporter/modimporter.py:92-107 | the cleaned tree holds no DNE, and a DNE-free tree is unchanged |
| ClearDne.ClearDneAsWritten | ModImporter/modimporter.py:92-107 | when the written code succeeds it keeps the value's kind |
| ClearDne.AsWrittenAgrees | ModImporter/modimporter.py:92-107 | the written code succeeds exactly when no mapping holds DNE before its last entry, and then agrees with the intended cleanup |
| ClearDne.AsWrittenRaisesOnEarlyDne | ModImporter/modimporter.py:95-97 | a DNE entry ahead of another entry raises as written; the intended cleanup drops it |
| Pruning.Present | ModImporter/modimporter.py:99-105 | the kept elements are exactly the non-gap elements |
| Pruning.PresentAppend | ModImporter/modimporter.py:99-105 | filtering distributes over concatenation |
| Pruning.DropItemsPresent | SGGMI/SGGMI/sggmi_sjson.py:46-52 | list element i is the cleaned form of the i-th non-gap element |
| Pruning.DropEntriesLookup | SGGMI/sggmi/util/data_util.py:116-121 | a key survives iff its value is not the gap, and then holds its cleaned value |
| Pruning.DropFree | SGGMI/sggmi/util/data_util.py:103-127 | the result contains no gap value at any depth |
| Pruning.DropIdentity | SGGMI/sggmi/util/data_util.py:103-127 | a gap-free tree is unchanged |
| Pruning.DropIdempotent | SGGMI/sggmi/util/data_util.py:103-127 | cleaning twice is cleaning once |
| Prune.Prune | SGGMI/sggmi/util/data_util.py:103-132 | the pruned tree holds no None, and a None-free tree is unchanged |
| Prune.PruneAsWritten | SGGMI/sggmi/util/data_util.py:103-132 | as written, only a mapping can be pruned |
| Prune.AsWrittenAgrees | SGGMI/sggmi/util/data_util.py:103-132 | the written code succeeds exactly on trees it can reach without the unbound `target`, and then agrees with the intended prune |
| Prune.AsWrittenRaisesOnScalarValue | SGGMI/sggmi/util/data_util.py:116-132 | a mapping holding a number raises as written and is kept as intended |
| DictUtil.SafeGetOr | SGGMI.py:76-88 | an in-range index or present key gives its value, and anything else the default |
| DictUtil.GetAttribute | SGGMI/sggmi/util/data_util.py:8-37 | the result is the default or a non-None value found at the key |
| DictUtil.GetAttributeIsSafeGet | SGGMI/SGGMI/data.py:8-37 | with data given, `get_attribute` is `safeget` with None values treated as missing |
| DictUtil.SafeGetIsSafeGetOr | ModImporter/modimporter.py:76-90 | the main copy's `safeget` is the general form with default DNE |
| DictUtil.SafeSet | SGGMI.py:90-98 | an in-range index or any key of a mapping is written, and other data is unchanged |
| DictUtil.SetAttribute | SGGMI/sggmi/util/data_util.py:40-60 | it writes iff the index is in range or the data is a mapping, and keeps the data's kind |
| DictUtil.SetThenGet | SGGMI/SGGMI/data.py:40-60 | a written value is read back, and an unwritten one reads as the default |
| DictUtil.DictMap | SGGMI.py:100-108 | a DNE patch keeps the base, a non-mapping patch replaces it, and two mappings merge into a mapping |
| DictUtil.DictMapPointwise | SGGMI.py:104-106 | every patched key holds the merge of its prior value with the patch, and other keys are unchanged |
| MergeDict.PyEqRefl | SGGMI/sggmi/util/data_util.py:96 | Python `==` on values is reflexive |
| MergeDict.PyEqSymm | SGGMI/sggmi/util/data_util.py:96 | Python `==` on values is symmetric |
| MergeDict.IntEqualsBool | SGGMI/sggmi/util/data_util.py:96 | `1 == True` though the values differ |
| MergeDict.MergeDictEmpty | SGGMI/sggmi/util/data_util.py:78-82 | an empty base gives the input, and an empty input gives the base |
| MergeDict.Settled | SGGMI/sggmi/util/data_util.py:92-99 | a key's merged value equals the input's unless both sides are mappings |
| MergeDict.MergeKeysPointwise | SGGMI/sggmi/util/data_util.py:87-101 | every input key holds its settled value, and every other key is unchanged |
| MergeDict.AsWrittenLosesNestedInput | SGGMI/sggmi/util/data_util.py:93-94 | a nested input under an empty nested base is lost as written and kept as intended |
| MergeData.MergeData | SGGMI/sggmi/sggmi_sjson.py:97-152 | a falsy input keeps the base, a `_sequence` input raises NameError, and an input of another type replaces the base |
| MergeData.AttrTruthy | SGGMI/sggmi/sggmi_sjson.py:132-137 | reading a marker through `get_attribute` is truthy iff the entry is |
| MergeData.MergeDataListMarkers | SGGMI/sggmi/sggmi_sjson.py:114-125 | `_append` extends, `_delete` gives None, `_replace` gives the rest, and any other list raises AttributeError (`list.expand`) |
| MergeData.MergeDataMapMarkers | SGGMI/sggmi/sggmi_sjson.py:131-137 | with `_delete` and `_replace` read through `get_attribute`, a truthy `_delete` gives None; otherwise a truthy `_replace` gives the input minus that entry |
| MergeData.MergeDataScalars | SGGMI/sggmi/sggmi_sjson.py:139-152 | truthy same-type scalars raise AttributeError |
| MergeData.MergeDataPointwise | SGGMI/sggmi/sggmi_sjson.py:139-142 | every input key holds the merge of its base value with the input value |
| MergeData.MergeFilesStart | SGGMI/sggmi/sggmi_sjson.py:155-157 | an empty input path returns the base path, and only then |
| CsvMap.PyIndex | ModImporter/modimporter.py:158-165 | a Python index is valid iff it lies in [-len, len), and negative ones count from the end |
| CsvMap.Header | ModImporter/modimporter.py:141-143 | a row is a cursor header iff it has two cells shaped `<r` and `c>` |
| CsvMap.HeaderOfCursorRow | ModImporter/modimporter.py:141-143 | the header written for (r, c) parses back to (r, c) (round trip) |
| CsvMap.HeaderResets | ModImporter/modimporter.py:141-147 | a header row moves the cursor and clears both modes without touching the data |
| CsvMap.SetCell | ModImporter/modimporter.py:163-165 | a cell write succeeds iff both indexes are valid, and changes only that cell |
| CsvMap.WriteCells | ModImporter/modimporter.py:160-166 | writing a row never changes the table's shape |
| CsvMap.WriteCellsPatch | ModImporter/modimporter.py:160-166 | the target row becomes its patched form, in which `_delete` blanks a cell and an empty cell keeps it, and other rows are unchanged |
| CsvMap.AppendMarker | ModImporter/modimporter.py:148-155 | the `_append` row is itself appended and switches to append mode |
| CsvMap.AppendRun | ModImporter/modimporter.py:154-155 | in append mode the rows are appended verbatim |
| CsvMap.RunKeepsRows | ModImporter/modimporter.py:156-167 | outside append mode the table keeps its row count |
| CsvMap.DefaultRow | ModImporter/modimporter.py:159-167 | a plain row patches the cursor row from the cursor column, and the cursor moves down |
| CsvMap.ReplaceRow | ModImporter/modimporter.py:157-158 | in replace mode a row replaces the cursor row, or raises IndexError past the end |
| CsvMap.MergeCsv | ModImporter/modimporter.py:171-178 | with no map file the table is unchanged |
| XmlMerge.Positions | ModImporter/modimporter.py:244-245 | the positions of a tag are increasing, and are exactly the children with that tag |
| XmlMerge.FindAll | ModImporter/modimporter.py:244-245 | `findall` returns the children with that tag, in document order |
| XmlMerge.Tags | ModImporter/modimporter.py:239-243 | the patch's distinct tags, each listed once |
| XmlMerge.MergeAttrib | ModImporter/modimporter.py:229-232 | attribute merging keeps every base attribute |
| XmlMerge.MergeAttribLookup | ModImporter/modimporter.py:229-232 | a patched attribute takes the patch value, and every other attribute keeps its value |
| XmlMerge.Step | ModImporter/modimporter.py:247-263 | a `_delete` child is removed; a `_replace` child replaces its partner; any other child overlays text, tail and attributes |
| XmlMerge.MergeElement | ModImporter/modimporter.py:238-264 | the merged element keeps the base's tag, attributes, text and tail |
| XmlMerge.Partner | ModImporter/modimporter.py:244-247 | the k-th base child with a tag pairs with the k-th patch child with that tag, when there is one |
| XmlMerge.MergeChildrenShape | ModImporter/modimporter.py:239-264 | the merged children are the surviving base children in order, followed by the unpaired patch children |
| XmlMerge.NoPartner | ModImporter/modimporter.py:239-243 | a base child whose tag the patch lacks is untouched |
| XmlMerge.ExtrasMember | ModImporter/modimporter.py:246-250 | a patch child is appended iff its rank among its tag exceeds the base's count of that tag |
| XmlMerge.MergeElementChildless | ModImporter/modimporter.py:239-264 | a patch with no children leaves the base unchanged |
| XmlMerge.MergeDoc | ModImporter/modimporter.py:226-237 | an unparsed patch keeps the base, a parsed patch over an unparsed base replaces it, and two trees merge their roots |
| XmlMerge.MergeXml | ModImporter/modimporter.py:226-237 | with no map file, or an unparsed one, the base is unchanged |
| XmlMerge.XmlGet | ModImporter/modimporter.py:74-90 | `safeget` on XML values: a list yields its in-range child and otherwise DNE (Missing); an element yields its attribute when present and otherwise DNE; a tree whose root has children raises NameError (the unbound `k`); anything else is DNE |
| XmlMerge.FlagIsGet | ModImporter/modimporter.py:251-258 | the `_delete` and `_replace` tests hold iff the element's marker attribute is present with a value other than "0", "false" and "False" |
| XmlMerge.VisitIsGet | ModImporter/modimporter.py:247-249 | a patch child is appended, and nothing else changes, iff `safeget(ies, i)` finds no base child of that tag at its index |
| Search.Traverse | sjson_search.py:7-9 | traversal fails iff the tree is neither a list nor a mapping |
| Search.StepAt | sjson_search.py:9 | the key listed for the i-th child leads back to that child |
| Search.WalkExact | sjson_search.py:9-16 | from child i onwards, the listed paths are exactly the hits whose first step is one of those children |
| Search.ItemExact | sjson_search.py:11-16 | for one child, the listed paths are exactly the hits through it |
| Search.TraverseExact | sjson_search.py:7-17 | on a tree whose mappings have unique keys, a path is returned iff it is nonempty, ends with the key, and following it reaches a value equal to the value |
| Search.WalkOrder | sjson_search.py:9-16 | paths come out in child order, and a child's own match precedes the matches below it |

## Left out

- File and process I/O: reading and writing files, `os.scandir`, `copyfile`,
  `print`, the `lupa` and `sjson` libraries. The filesystem is a parameter
  (`Scheduler.Fs`: which paths are in scope, which are directories, and what
  they list). Parsed documents are values. `str(datetime.now())` in the stamp
  is the parameter `now`.
- The recursive `Include` load: the dispatch to Include is modelled, the
  recursive `loadmodfile` it triggers is not.
- ModControl.UpdateLookup: states `self.load.update(load)` of
  `SGGMI/sggmi/temp/sggmi_file_mod_control.py:213-214`, which that copy never
  reaches. The file defines only `hashes` at module level and imports only
  `os`, so `default_priority` at :213 raises NameError. The lemma is about
  `update` itself and holds for any starting settings.
- ModControl.ModLoadLookup: `SGGMI/SGGMI.py` never defines
  `default_priority`, so `Mod()` raises NameError at :133, before the
  `update` at :134. The model assumes the value the other copies define
  (`default_priority = 100`, `ModImporter/modimporter.py:54` and
  `SGGMI.py:890`), and does not model the NameError.
- Scheduler.UpdateAllKeepsEp: states the `To` / `Load Priority` loop of
  `ModImporter/modimporter.py:510-523`. The same loop in
  `SGGMI/SGGMI.py:246-255` is never reached, because `modfile_load` reads the
  undefined `default_priority` at :231 and `default_target` at :232 and raises
  NameError. The model does not follow that copy there.
- The splitter and tokeniser of `SGGMI/sggmi/temp/sggmi_file_mod_control.py`
  (:145-199) read `modfile_comment`, `modfile_mlcom_start`,
  `modfile_mlcom_end`, `modfile_linebreak` and `modfile_delimiter`, which that
  file never defines. So `modfile_splitlines` raises NameError on every body
  (first at :164), and `modfile_tokenise` on every line (:192). `Lexer` and
  `Tokens` model the copies that define these markers (`::`, `-:`, `:-`, `;`,
  `,`), and not that NameError.
- `SGGMI/SGGMI.py` lists `configure_globals` in `__all__` but never defines
  it; nothing in the model depends on it.
- Scheduler.ExpandTargets: the stride `n` of `loadcommand` is required to be at
  least 1, since every call site passes 1.
- DictUtil.GetAttributeIsSafeGet: requires `data` to be given. With `data`
  None the Python code looks the key up in the module's `globals()`, which is
  not modelled.
- DictUtil.SafeGetOr: with `data` None, `SGGMI.py:77-78` reads the module's
  `globals()`; the model answers the default instead, because module globals
  are not modelled.
- DictUtil.SafeSet: with `data` None, `SGGMI.py:91-92` writes into the
  module's `globals()`; the model leaves everything unchanged instead, for the
  same reason.
- PyInt.ParseInt: only the ASCII digits '0'..'9' count as digits; the
  whitespace stripped is Python's, Unicode included. Python's `int()` also
  accepts every other Unicode decimal digit (`int("５") == 5`), so a
  `Load Priority` line written with such digits sets the priority in Python
  but keeps it in the model. PyInt.ParseRejects therefore matches Python only
  for ASCII characters.
- XmlMerge.XmlGet: models `safeget` of `ModImporter/modimporter.py:74-90`.
  The XML `get` of `SGGMI/sggmi/sggmi_xml.py:19-31` and its `xml_map` test
  against a `DNE` that file never defines or imports, so there every `get`
  other than an in-range list index, and every `is DNE` test, raises
  NameError. That copy's raising behaviour is not modelled.
- XmlMerge.FlagIsGet: relates the flags to ModImporter's `safeget`; in
  `SGGMI/sggmi/sggmi_xml.py` the same lookup raises NameError when the
  attribute is absent (no `DNE` there), which is not modelled.
- XmlMerge.VisitIsGet: relates appending to ModImporter's `safeget`; in
  `SGGMI/sggmi/sggmi_xml.py:101-104` a patch child past the end of the base's
  children raises NameError instead of being appended, which is not modelled.
- Mapping keys are strings, and list indexes are integers. Python's
  distinction between `dict` and `OrderedDict` is not kept: a mapping is an
  ordered entry list.
- Search.TraverseExact: assumes unique keys in every mapping, which a Python
  dict guarantees. Traversal descends into every mapping.
- SjsonMerge.MergeSggmi: the SGGMI copy's `expand` path and the `_sequence`
  NameError of `SGGMI/sggmi/sggmi_sjson.py:101-111` are modelled as failures,
  never as results.
- `sjson_safeget` of `SGGMI/SGGMI/sggmi_sjson.py:29-37` indexes with the wrong
  argument. The model reads through `safeget` instead.
- The `merge` of `SGGMI/sggmi/sggmi_xml.py:135-148` calls `get` with one
  argument, which raises TypeError before any merge happens. The element merge
  it would call is modelled as `XmlMerge.MergeElement`.
- `merge_files` references a `prune` it does not import. Only the decision on
  an empty input path is modelled (`MergeData.MergeFilesStart`).
- `modify_original` aliasing in the `SGGMI/` helpers: the model is pure, so
  every merge returns a new value.
- `findall` interprets its argument as an ElementPath expression. The model
  matches tags literally.
- `Signal.__str__` and `__repr__` are not modelled; they only format text.
- The `len(to) == 0` reset of `ModImporter/modimporter.py:512-513` is
  unreachable, because `startswith` demands a token after `To`.
- `SGGMI/SGGMI.py:493` calls `sort_mods` with two arguments where it takes
  three. Sorting is modelled by `SortMods.SortMods`.
- The SGGMI `todeploy` / config handling, path resolution helpers, and float
  values are not modelled.

## Findings

| source | as written | input that shows it | evidently intended | confidence | as-written member | corrected member |
|---|---|---|---|---|---|---|
| ModImporter/modimporter.py:320-339 | same-type scalars return the base (`return indata`) | base `{"Name": "Old"}`, patch `{"Name": "New"}` | the patch value replaces the base value | not executed | SjsonMerge.AsWrittenIgnoresNewValue | SjsonMerge.MergeScalarWins |
| ModImporter/modimporter.py:92-97 | `clearDNE` deletes from a dict while iterating over it | `{"a": DNE, "b": 1}` raises RuntimeError | entries holding DNE are dropped | not executed | ClearDne.AsWrittenRaisesOnEarlyDne | ClearDne.ClearDne |
| SGGMI/sggmi/util/data_util.py:93-94 | the nested `merge_dict` result is discarded | base `{"a": {}}`, input `{"a": {"b": 1}}` gives `{"a": {}}` | the nested merge result is stored | not executed | MergeDict.AsWrittenLosesNestedInput | MergeDict.MergeKeysPointwise |
| SGGMI/sggmi/util/data_util.py:116-132 | `target` is unbound unless the value is a dict | `{"a": 1}` raises UnboundLocalError | scalars and lists are kept or pruned | not executed | Prune.AsWrittenRaisesOnScalarValue | Prune.Prune |
| ModImporter/modimporter.py:554-555 | `sortmods` rebinds `codes[base]`, and `makeedit` is handed the unsorted deque | priorities 200 then 100 apply 200 first | edits applied in priority order | not executed | SortMods.AsWrittenIgnoresPriority | SortMods.Applied |
| ModImporter/modimporter.py:570-580 | the mode chain has no CSV branch | a `CSV` command is queued but never merged | CSV commands run `mergecsv` | not executed | EditMarker.AsWrittenSkipsCsv | EditMarker.PatchFor |

=== FILE: clear_dne.dfy ===
/** `clearDNE`: after a merge, the DNE placeholders are removed from every
    list and mapping of the result.

    The list branch builds a fresh list and is sound. The mapping branch
    deletes entries from the OrderedDict while iterating over it; CPython's
    OrderedDict iterator raises RuntimeError on its next step after such a
    deletion, and it has no next step only when the deleted entry was the
    last one. `ClearDneAsWritten` models that; the evidently intended
    pruning is `ClearDne`, which the rest of the model uses. */
module ClearDne {
  import opened Wrappers
  import opened Nodes
  import opened Pruning

  /** The intended pruning: every DNE stored in a list or mapping goes. */
  function ClearDne(n: Node): (r: Node)
    ensures Free(DNE, r)
    ensures Free(DNE, n) ==> r == n
  {
    DropFree(DNE, n);
    if Free(DNE, n) then DropIdentity(DNE, n); Drop(DNE, n) else Drop(DNE, n)
  }

  function ClearDneAsWritten(n: Node): (r: Result<Node>)
    ensures r.Ok? ==> KindOf(r.value) == KindOf(n)
  {
    match n
    case Seq(items) =>
      var items' :- ClearItemsAsWritten(items);
      Ok(Seq(items'))
    case Map(es) =>
      var es' :- ClearEntriesAsWritten(es);
      Ok(Map(es'))
    case _ => Ok(n)
  }

  function ClearItemsAsWritten(items: seq<Node>): Result<seq<Node>>
    decreases items
  {
    if |items| == 0 then Ok([])
    else if items[0].DNE? then ClearItemsAsWritten(items[1..])
    else
      var v :- ClearDneAsWritten(items[0]);
      var rest :- ClearItemsAsWritten(items[1..]);
      Ok([v] + rest)
  }

  /** The loop over `data.items()`: a DNE entry is deleted, and the iterator
      raises on its next step unless that entry was the last. */
  function ClearEntriesAsWritten(es: seq<Entry>): Result<seq<Entry>>
    decreases es
  {
    if |es| == 0 then Ok([])
    else if es[0].value.DNE? then
      if |es| == 1 then Ok([]) else Fail("RuntimeError")
    else
      var v :- ClearDneAsWritten(es[0].value);
      var rest :- ClearEntriesAsWritten(es[1..]);
      Ok([Entry(es[0].key, v)] + rest)
  }

  /** Where no mapping holds DNE before its last entry, the code as written
      reaches the end of its loops. */
  predicate Deletable(n: Node) {
    match n
    case Seq(items) => DeletableItems(items)
    case Map(es) => DeletableEntries(es)
    case _ => true
  }

  predicate DeletableItems(items: seq<Node>)
    decreases items
  {
    forall i :: 0 <= i < |items| ==> Deletable(items[i])
  }

  predicate DeletableEntries(es: seq<Entry>)
    decreases es
  {
    forall i :: 0 <= i < |es| ==>
      (es[i].value.DNE? ==> i == |es| - 1) && Deletable(es[i].value)
  }

  /** The code as written succeeds exactly on such trees, and then agrees
      with the corrected pruning. */
  lemma {:induction false} AsWrittenAgrees(n: Node)
    ensures ClearDneAsWritten(n).Ok? <==> Deletable(n)
    ensures ClearDneAsWritten(n).Ok? ==> ClearDneAsWritten(n).value == Drop(DNE, n)
    decreases n
  {
    match n
    case Seq(items) => ItemsAsWrittenAgree(items);
    case Map(es) => EntriesAsWrittenAgree(es);
    case _ =>
  }

  lemma {:induction false} ItemsAsWrittenAgree(items: seq<Node>)
    ensures ClearItemsAsWritten(items).Ok? <==> DeletableItems(items)
    ensures ClearItemsAsWritten(items).Ok? ==> ClearItemsAsWritten(items).value == DropItems(DNE, items)
    decreases items
  {
    if |items| > 0 {
      assert forall i :: 1 <= i < |items| ==> items[1..][i - 1] == items[i];
      ItemsAsWrittenAgree(items[1..]);
      AsWrittenAgrees(items[0]);
    }
  }

  lemma {:induction false} EntriesAsWrittenAgree(es: seq<Entry>)
    ensures ClearEntriesAsWritten(es).Ok? <==> DeletableEntries(es)
    ensures ClearEntriesAsWritten(es).Ok? ==> ClearEntriesAsWritten(es).value == DropEntries(DNE, es)
    decreases es
  {
    if |es| > 0 {
      assert forall i :: 1 <= i < |es| ==> es[1..][i - 1] == es[i];
      EntriesAsWrittenAgree(es[1..]);
      AsWrittenAgrees(es[0].value);
    }
  }

  /** `{"a": DNE, "b": 1}`: the code as written raises, the corrected
      pruning gives `{"b": 1}`. */
  lemma AsWrittenRaisesOnEarlyDne()
    ensures ClearDneAsWritten(Map([Entry("a", DNE), Entry("b", Scalar(Int(1)))])).Fail?
    ensures ClearDne(Map([Entry("a", DNE), Entry("b", Scalar(Int(1)))])) == Map([Entry("b", Scalar(Int(1)))])
  {
    var es := [Entry("a", DNE), Entry("b", Scalar(Int(1)))];
    assert es[1..] == [Entry("b", Scalar(Int(1)))];
    assert es[1..][1..] == [];
  }
}

=== FILE: csv_map.dfy ===
/** `csvmap(indata, mapdata)` and `mergecsv` of ModImporter/modimporter.py: patching a
    game's CSV table cell by cell.

    The patch's rows are read in order under a cursor. A row `<r`, `c>`
    moves the cursor to row `r`, column `c`, and clears both modes. A row
    holding only `_append` switches to append mode, in which every row, the
    marker row included, is added at the end of the table. A row holding
    only `_replace` switches to replace mode, in which each row, the marker
    row included, overwrites the table row under the cursor. In the default
    mode each cell of a patch row is written into the table row under the
    cursor from column `c` on: an empty cell keeps the table's cell and
    `_delete` blanks it. Outside append mode the cursor moves down one row
    per patch row. Subscripts follow Python: a negative index counts from
    the end, and one out of range raises IndexError; a bad number in a
    cursor row raises ValueError. */
module CsvMap {
  import opened Wrappers
  import PyInt

  type Row = seq<string>

  const AppendMark: string := "_append"
  const ReplaceMark: string := "_replace"
  const DeleteMark: string := "_delete"

  /** The position Python's `xs[i]` addresses in a list of length `len`. */
  function PyIndex(len: nat, i: int): (r: Option<nat>)
    ensures r.Some? <==> -(len as int) <= i < len
    ensures r.Some? ==> r.value < len && (if i >= 0 then r.value == i else r.value == len + i)
  {
    if 0 <= i < len then Some(i)
    else if -(len as int) <= i < 0 then Some(len + i)
    else None
  }

  /** The cursor: `current[0]`, `target[1]`, and the two modes. */
  datatype Cursor = Cursor(row: int, col: int, append: bool, replace: bool)

  const Start := Cursor(0, 0, false, false)

  /** A cursor row `<r`, `c>`: its two numbers, or None for any other row.
      Reading the first character of an empty cell raises IndexError, and
      `int` raises ValueError on the numbers. */
  function Header(row: Row): (r: Result<Option<(int, int)>>)
    ensures r == Ok(None) <==>
      |row| != 2 || (|row[0]| > 0 && row[0][0] != '<') || (|row[0]| > 0 && |row[1]| > 0 && row[1][|row[1]| - 1] != '>')
  {
    if |row| != 2 then Ok(None)
    else if |row[0]| == 0 then Fail("IndexError")
    else if row[0][0] != '<' then Ok(None)
    else if |row[1]| == 0 then Fail("IndexError")
    else if row[1][|row[1]| - 1] != '>' then Ok(None)
    else
      match (PyInt.ParseInt(row[0][1..]), PyInt.ParseInt(row[1][..|row[1]| - 1]))
      case (Some(r), Some(c)) => Ok(Some((r, c)))
      case _ => Fail("ValueError")
  }

  /** `indata[r][c] = v`. */
  function SetCell(data: seq<Row>, r: int, c: int, v: string): (res: Result<seq<Row>>)
    ensures res.Ok? <==> PyIndex(|data|, r).Some? && PyIndex(|data[PyIndex(|data|, r).value]|, c).Some?
    ensures res.Ok? ==>
      var i := PyIndex(|data|, r).value;
      res.value == data[i := data[i][PyIndex(|data[i]|, c).value := v]]
  {
    match PyIndex(|data|, r)
    case None => Fail("IndexError")
    case Some(i) =>
      match PyIndex(|data[i]|, c)
      case None => Fail("IndexError")
      case Some(j) => Ok(data[i := data[i][j := v]])
  }

  /** The default mode's loop over one patch row's cells, the `k`-th cell
      going to column `c + k`. */
  function WriteCells(data: seq<Row>, r: int, c: int, cells: Row): (res: Result<seq<Row>>)
    ensures res.Ok? ==> |res.value| == |data|
    ensures res.Ok? ==> forall i :: 0 <= i < |data| ==> |res.value[i]| == |data[i]|
    decreases |cells|
  {
    if |cells| == 0 then Ok(data)
    else
      var v := cells[0];
      var next :-
        if v == DeleteMark then SetCell(data, r, c, "")
        else if v != "" then SetCell(data, r, c, v)
        else Ok(data);
      WriteCells(next, r, c + 1, cells[1..])
  }

  /** One patch row. */
  function StepRow(data: seq<Row>, s: Cursor, row: Row): (res: Result<(seq<Row>, Cursor)>)
    ensures res.Ok? && !(|row| == 1 && row[0] == AppendMark) && !s.append ==> |res.value.0| == |data|
  {
    var h :- Header(row);
    match h
    case Some((r, c)) => Ok((data, Cursor(r, c, false, false)))
    case None =>
      var s' :=
        if |row| == 1 && row[0] == AppendMark then s.(append := true, replace := false)
        else if |row| == 1 && row[0] == ReplaceMark then s.(append := false, replace := true)
        else s;
      if s'.append then Ok((data + [row], s'))
      else if s'.replace then
        match PyIndex(|data|, s'.row)
        case None => Fail("IndexError")
        case Some(i) => Ok((data[i := row], s'.(row := s'.row + 1)))
      else
        var data' :- WriteCells(data, s'.row, s'.col, row);
        Ok((data', s'.(row := s'.row + 1)))
  }

  /** The loop over the patch's rows. */
  function Run(data: seq<Row>, s: Cursor, rows: seq<Row>): Result<(seq<Row>, Cursor)>
    decreases |rows|
  {
    if |rows| == 0 then Ok((data, s))
    else
      var (data', s') :- StepRow(data, s, rows[0]);
      Run(data', s', rows[1..])
  }

  function CsvMap(data: seq<Row>, patch: seq<Row>): Result<seq<Row>> {
    var (data', _) :- Run(data, Start, patch);
    Ok(data')
  }

  /** `mergecsv` after reading: an empty patch path gives DNE, `()`, over
      which the loop runs zero times; `patch` is what reading the patch file
      gives. */
  function MergeCsv(data: seq<Row>, mapfile: string, patch: seq<Row>): (r: Result<seq<Row>>)
    ensures |mapfile| == 0 ==> r == Ok(data)
  {
    CsvMap(data, if |mapfile| > 0 then patch else [])
  }

  // ---------------------------------------------------------------------
  // Properties

  /** What a default-mode row makes of a table row, when writing from
      column `c >= 0`: each non-empty cell is written, `_delete` as the
      empty string; the rest of the row stays. */
  function PatchRow(row: Row, c: nat, cells: Row): (r: Row)
    ensures |r| == |row|
  {
    seq(|row|, j requires 0 <= j < |row| =>
      if c <= j < c + |cells| && cells[j - c] != "" then
        (if cells[j - c] == DeleteMark then "" else cells[j - c])
      else row[j])
  }

  /** Every non-empty cell lands inside the row. */
  predicate Fits(len: nat, c: nat, cells: Row) {
    forall k :: 0 <= k < |cells| && cells[k] != "" ==> c + k < len
  }

  /** From a non-negative column on an existing row, the cell loop succeeds
      exactly when every non-empty cell lands inside the row, and then
      patches that row and no other. */
  lemma {:induction false} WriteCellsPatch(data: seq<Row>, r: int, c: nat, cells: Row)
    requires PyIndex(|data|, r).Some?
    ensures var i := PyIndex(|data|, r).value;
      WriteCells(data, r, c, cells).Ok? <==> Fits(|data[i]|, c, cells)
    ensures var i := PyIndex(|data|, r).value;
      Fits(|data[i]|, c, cells) ==> WriteCells(data, r, c, cells) == Ok(data[i := PatchRow(data[i], c, cells)])
    decreases |cells|
  {
    var i := PyIndex(|data|, r).value;
    if |cells| == 0 {
      assert PatchRow(data[i], c, cells) == data[i];
      assert data[i := data[i]] == data;
    } else {
      var v := cells[0];
      if v != "" && c >= |data[i]| {
        assert !Fits(|data[i]|, c, cells);
      } else {
        var next := if v == DeleteMark then data[i := data[i][c := ""]] else if v != "" then data[i := data[i][c := v]] else data;
        assert WriteCells(data, r, c, cells) == WriteCells(next, r, c + 1, cells[1..]);
        assert PyIndex(|next|, r) == Some(i);
        assert |next[i]| == |data[i]|;
        WriteCellsPatch(next, r, c + 1, cells[1..]);
        assert Fits(|data[i]|, c, cells) <==> Fits(|data[i]|, c + 1, cells[1..]) by {
          assert forall k :: 1 <= k < |cells| ==> cells[1..][k - 1] == cells[k];
        }
        if Fits(|data[i]|, c, cells) {
          PatchRowStep(data[i], c, cells, next[i]);
          assert next[i := PatchRow(next[i], c + 1, cells[1..])] == data[i := PatchRow(data[i], c, cells)];
        }
      }
    }
  }

  lemma PatchRowStep(row: Row, c: nat, cells: Row, row': Row)
    requires |cells| > 0 && (cells[0] != "" ==> c < |row|)
    requires row' == if cells[0] == DeleteMark then row[c := ""] else if cells[0] != "" then row[c := cells[0]] else row
    ensures PatchRow(row', c + 1, cells[1..]) == PatchRow(row, c, cells)
  {
    assert |row'| == |row|;
    forall j | 0 <= j < |row|
      ensures PatchRow(row', c + 1, cells[1..])[j] == PatchRow(row, c, cells)[j]
    {
      if c + 1 <= j < c + 1 + |cells[1..]| {
        assert cells[1..][j - (c + 1)] == cells[j - c];
      }
    }
  }

  /** The cursor row that `<r`, `c>` spells. */
  function CursorRow(r: int, c: int): Row {
    ["<" + PyInt.Show(r), PyInt.Show(c) + ">"]
  }

  lemma HeaderOfCursorRow(r: int, c: int)
    ensures Header(CursorRow(r, c)) == Ok(Some((r, c)))
  {
    var a := "<" + PyInt.Show(r);
    var b := PyInt.Show(c) + ">";
    assert a[0] == '<' && a[1..] == PyInt.Show(r);
    assert b[|b| - 1] == '>' && b[..|b| - 1] == PyInt.Show(c);
    PyInt.ParseShow(r);
    PyInt.ParseShow(c);
  }

  /** A cursor row moves the cursor and clears both modes, whatever they
      were, and leaves the table alone. */
  lemma HeaderResets(data: seq<Row>, s: Cursor, r: int, c: int)
    ensures StepRow(data, s, CursorRow(r, c)) == Ok((data, Cursor(r, c, false, false)))
  {
    HeaderOfCursorRow(r, c);
  }

  /** A row that is neither a cursor row nor the `_replace` marker. */
  predicate Appendable(row: Row) {
    Header(row) == Ok(None) && !(|row| == 1 && row[0] == ReplaceMark)
  }

  /** Every row of `rows` is one. */
  predicate AllAppendable(rows: seq<Row>)
    decreases |rows|
  {
    |rows| > 0 ==> Appendable(rows[0]) && AllAppendable(rows[1..])
  }

  /** In append mode every such row, the `_append` marker row included, goes
      to the end of the table in order, and the mode stays. */
  lemma {:induction false} AppendRun(data: seq<Row>, s: Cursor, rows: seq<Row>)
    requires s.append && !s.replace
    requires AllAppendable(rows)
    ensures Run(data, s, rows) == Ok((data + rows, s))
    decreases |rows|
  {
    if |rows| > 0 {
      var data' := data + [rows[0]];
      assert Run(data, s, rows) == Run(data', s, rows[1..]) by {
        AppendStep(data, s, rows[0]);
        RunCons(data, s, rows, data', s);
      }
      AppendRun(data', s, rows[1..]);
      assert data' + rows[1..] == data + rows;
    } else {
      assert data + rows == data;
    }
  }

  /** The loop after a successful first row. */
  lemma RunCons(data: seq<Row>, s: Cursor, rows: seq<Row>, data': seq<Row>, s': Cursor)
    requires |rows| > 0 && StepRow(data, s, rows[0]) == Ok((data', s'))
    ensures Run(data, s, rows) == Run(data', s', rows[1..])
  {
  }

  lemma AppendStep(data: seq<Row>, s: Cursor, row: Row)
    requires s.append && !s.replace && Appendable(row)
    ensures StepRow(data, s, row) == Ok((data + [row], s))
  {
  }

  /** The `_append` marker switches to append mode and is itself appended. */
  lemma AppendMarker(data: seq<Row>, s: Cursor)
    ensures StepRow(data, s, [AppendMark]) == Ok((data + [[AppendMark]], s.(append := true, replace := false)))
  {
  }

  /** Without an `_append` marker row and outside append mode, the table
      keeps its number of rows. */
  lemma {:induction false} RunKeepsRows(data: seq<Row>, s: Cursor, rows: seq<Row>)
    requires !s.append
    requires forall k :: 0 <= k < |rows| ==> !(|rows[k]| == 1 && rows[k][0] == AppendMark)
    ensures Run(data, s, rows).Ok? ==> |Run(data, s, rows).value.0| == |data| && !Run(data, s, rows).value.1.append
    decreases |rows|
  {
    if |rows| > 0 {
      var st := StepRow(data, s, rows[0]);
      if st.Ok? {
        assert !st.value.1.append;
        RunKeepsRows(st.value.0, st.value.1, rows[1..]);
      }
    }
  }

  /** In the default mode, a row patches the table row under the cursor,
      from the cursor's column, and moves the cursor down. */
  lemma DefaultRow(data: seq<Row>, s: Cursor, row: Row)
    requires !s.append && !s.replace && s.col >= 0
    requires Header(row) == Ok(None) && !(|row| == 1 && (row[0] == AppendMark || row[0] == ReplaceMark))
    requires PyIndex(|data|, s.row).Some? && Fits(|data[PyIndex(|data|, s.row).value]|, s.col, row)
    ensures var i := PyIndex(|data|, s.row).value;
      StepRow(data, s, row) == Ok((data[i := PatchRow(data[i], s.col, row)], s.(row := s.row + 1)))
  {
    WriteCellsPatch(data, s.row, s.col, row);
  }

  /** In replace mode, a row overwrites the table row under the cursor. */
  lemma ReplaceRow(data: seq<Row>, s: Cursor, row: Row)
    requires !s.append && s.replace
    requires Header(row) == Ok(None) && !(|row| == 1 && row[0] == AppendMark)
    ensures PyIndex(|data|, s.row).None? ==> StepRow(data, s, row) == Fail("IndexError")
    ensures PyIndex(|data|, s.row).Some? ==>
      StepRow(data, s, row) == Ok((data[PyIndex(|data|, s.row).value := row], s.(row := s.row + 1)))
  {
  }
}

=== FILE: dict_util.dfy ===
/** The subscript helpers of SGGMI.py (`safeget`, `safeset`, `dictmap`)
    and of the `data_util`/`data` modules (`get_attribute`,
    `set_attribute`). They read and write one level of a value tree without
    raising: a subscript that Python would reject is answered with a
    default, or the write is skipped. */
module DictUtil {
  import opened Wrappers
  import opened Nodes

  /** A subscript that addresses an existing list position. */
  predicate InRange(data: Node, key: Key) {
    data.Seq? && key.Index? && 0 <= key.index < |data.items|
  }

  /** `safeget(data, key, default, skipnone)` of SGGMI.py: an in-range
      integer index of a list or tuple, or the value under a key of a
      mapping; the default otherwise, and also for a stored None when
      `skipNone` is set. */
  function SafeGetOr(data: Node, key: Key, default: Node, skipNone: bool): (r: Node)
    ensures InRange(data, key) ==>
      r == (if skipNone && data.items[key.index] == NoneValue then default else data.items[key.index])
    ensures data.Map? && key.Name? && key.name in Keys(data.entries) ==>
      var v := Lookup(data.entries, key.name).value;
      r == (if skipNone && v == NoneValue then default else v)
    ensures !InRange(data, key) && !(data.Map? && key.Name? && key.name in Keys(data.entries)) ==> r == default
  {
    match data
    case Seq(items) =>
      if key.Index? && 0 <= key.index < |items| then
        var v := items[key.index];
        if skipNone && v == NoneValue then default else v
      else default
    case Map(es) =>
      if key.Name? then
        var v := Lookup(es, key.name).GetOr(default);
        if skipNone && v == NoneValue then default else v
      else default
    case _ => default
  }

  /** `get_attribute(data, key, default)`: the stored value when the
      subscript is valid and the value is not None, the default otherwise. */
  function GetAttribute(data: Node, key: Key, default: Node): (r: Node)
    ensures r == default || (r != NoneValue && (
      (InRange(data, key) && r == data.items[key.index]) ||
      (data.Map? && key.Name? && Lookup(data.entries, key.name) == Some(r))))
  {
    var found :=
      if InRange(data, key) then data.items[key.index]
      else if data.Map? && key.Name? && key.name in Keys(data.entries) then Lookup(data.entries, key.name).value
      else default;
    if found == NoneValue then default else found
  }

  /** `get_attribute` is `safeget` with `skipnone` set, wherever `safeget`
      does not fall back to the module globals. */
  lemma GetAttributeIsSafeGet(data: Node, key: Key, default: Node)
    requires data != NoneValue
    ensures GetAttribute(data, key, default) == SafeGetOr(data, key, default, true)
  {
  }

  /** ModImporter's two-argument `safeget` is `safeget` with DNE as the
      default and stored None values passed through. */
  lemma SafeGetIsSafeGetOr(data: Node, key: Key)
    ensures SafeGet(data, key) == SafeGetOr(data, key, DNE, false)
  {
  }

  /** `safeset(data, key, value)` of SGGMI.py: an in-range list position or
      a mapping key is written; anything else is left as it is. */
  function SafeSet(data: Node, key: Key, value: Node): (r: Node)
    requires data.Map? ==> key.Name?
    ensures InRange(data, key) ==> r == Seq(data.items[key.index := value])
    ensures data.Map? ==> r == Map(Put(data.entries, key.name, value))
    ensures !InRange(data, key) && !data.Map? ==> r == data
  {
    match data
    case Seq(items) =>
      if key.Index? && 0 <= key.index < |items| then Seq(items[key.index := value]) else data
    case Map(es) => Map(Put(es, key.name, value))
    case _ => data
  }

  /** What `set_attribute` returns, and the data after it. */
  datatype SetOutcome = SetOutcome(written: bool, data: Node)

  /** `set_attribute(data, key, value)`: reports whether it wrote. */
  function SetAttribute(data: Node, key: Key, value: Node): (r: SetOutcome)
    requires data.Map? ==> key.Name?
    ensures r.written <==> InRange(data, key) || data.Map?
    ensures !r.written ==> r.data == data
    ensures KindOf(r.data) == KindOf(data)
  {
    if InRange(data, key) then SetOutcome(true, Seq(data.items[key.index := value]))
    else if data.Map? then SetOutcome(true, Map(Put(data.entries, key.name, value)))
    else SetOutcome(false, data)
  }

  /** Both setters change the data alike, and what was written is read back
      by `safeget` as long as no None is skipped. */
  lemma SetThenGet(data: Node, key: Key, value: Node, default: Node)
    requires data.Map? ==> key.Name?
    ensures SetAttribute(data, key, value).data == SafeSet(data, key, value)
    ensures SetAttribute(data, key, value).written ==> SafeGetOr(SafeSet(data, key, value), key, default, false) == value
    ensures !SetAttribute(data, key, value).written ==> SafeGetOr(SafeSet(data, key, value), key, default, false) == default
  {
  }

  // ---------------------------------------------------------------------
  // dictmap

  /** `dictmap(indict, mapdict)` of SGGMI.py: an absent patch keeps the
      base; two mappings are merged key by key; anything else is replaced
      by the patch. */
  function DictMap(base: Node, patch: Node): (r: Node)
    ensures patch.DNE? ==> r == base
    ensures !patch.DNE? && !(base.Map? && patch.Map?) ==> r == patch
    ensures base.Map? && patch.Map? ==> r.Map?
    decreases Height(patch), 1
  {
    if patch.DNE? then base
    else if SameType(base, patch) && patch.Map? then
      Map(DictMapEntries(base.entries, patch.entries))
    else patch
  }

  function DictMapEntries(bes: seq<Entry>, pes: seq<Entry>): seq<Entry>
    decreases Height(Map(pes)), 0, |pes|
  {
    if |pes| == 0 then bes
    else
      var k := pes[0].key;
      var m := DictMap(SafeGetOr(Map(bes), Name(k), DNE, true), pes[0].value);
      assert Height(Map(pes[1..])) <= Height(Map(pes));
      DictMapEntries(Put(bes, k, m), pes[1..])
  }

  /** What `dictmap` merges a patch value with: the base's value under
      the key, DNE when it is absent or None. */
  function Prior(bes: seq<Entry>, k: string): Node {
    SafeGetOr(Map(bes), Name(k), DNE, true)
  }

  /** Each patch key holds the `dictmap` of the base's value under it with
      the patch's value; every other key keeps its base value; base keys
      keep their place, ahead of the new ones. */
  lemma {:induction false} DictMapPointwise(bes: seq<Entry>, pes: seq<Entry>)
    requires UniqueKeys(pes)
    ensures var es := DictMapEntries(bes, pes);
      && (forall k :: k !in Keys(pes) ==> Lookup(es, k) == Lookup(bes, k))
      && (forall i :: 0 <= i < |pes| ==> Lookup(es, pes[i].key) == Some(DictMap(Prior(bes, pes[i].key), pes[i].value)))
      && Keys(bes) <= Keys(es)
    decreases |pes|
  {
    if |pes| > 0 {
      var k0 := pes[0].key;
      var m0 := DictMap(Prior(bes, k0), pes[0].value);
      var bes' := Put(bes, k0, m0);
      var es := DictMapEntries(bes', pes[1..]);
      assert DictMapEntries(bes, pes) == es;
      UniqueTail(pes);
      DictMapPointwise(bes', pes[1..]);
      assert Keys(bes) <= Keys(es) by {
        PutKeys(bes, k0, m0);
        PrefixTrans(Keys(bes), Keys(bes'), Keys(es));
      }
      DictMapStep(bes, pes, es);
    }
  }

  lemma DictMapStep(bes: seq<Entry>, pes: seq<Entry>, es: seq<Entry>)
    requires |pes| > 0 && UniqueKeys(pes)
    requires var bes' := Put(bes, pes[0].key, DictMap(Prior(bes, pes[0].key), pes[0].value));
      && (forall k :: k !in Keys(pes[1..]) ==> Lookup(es, k) == Lookup(bes', k))
      && (forall i :: 0 <= i < |pes[1..]| ==> Lookup(es, pes[1..][i].key) == Some(DictMap(Prior(bes', pes[1..][i].key), pes[1..][i].value)))
    ensures forall k :: k !in Keys(pes) ==> Lookup(es, k) == Lookup(bes, k)
    ensures forall i :: 0 <= i < |pes| ==> Lookup(es, pes[i].key) == Some(DictMap(Prior(bes, pes[i].key), pes[i].value))
  {
    var k0 := pes[0].key;
    var bes' := Put(bes, k0, DictMap(Prior(bes, k0), pes[0].value));
    UniqueTail(pes);
    assert Keys(pes) == [k0] + Keys(pes[1..]);
    forall k | k !in Keys(pes)
      ensures Lookup(es, k) == Lookup(bes, k)
    {
      assert k !in Keys(pes[1..]) && k != k0;
    }
    forall i | 0 <= i < |pes|
      ensures Lookup(es, pes[i].key) == Some(DictMap(Prior(bes, pes[i].key), pes[i].value))
    {
      if i == 0 {
        assert Lookup(es, k0) == Lookup(bes', k0);
      } else {
        assert pes[i] == pes[1..][i - 1];
        assert pes[i].key in Keys(pes[1..]);
        PriorPut(bes, k0, DictMap(Prior(bes, k0), pes[0].value), pes[i].key);
      }
    }
  }

  /** Writing one key leaves what `dictmap` reads under another. */
  lemma PriorPut(bes: seq<Entry>, k0: string, v: Node, k: string)
    requires k != k0
    ensures Prior(Put(bes, k0, v), k) == Prior(bes, k)
  {
  }
}

=== FILE: edit_marker.dfy ===
/** The pure decisions of `makeedit` (modimporter.py, ModImporter/
    modimporter.py): whether a base file is restored from its backup or
    backed up, which patch each command applies, and the stamp appended
    after the edits, which the next run looks for to recognise an edited
    file. The copying, reading and writing are left to the caller.

    A file is seen as its lines cut at `\n`; the stamp holds no newline, so
    a line contains it with or without its line break. */
module EditMarker {
  import opened Wrappers
  import opened PyStr
  import opened Scheduler

  const Modified: string := "MODIFIED"
  const ModRep: string := " by Mod Importer @ "

  /** The text the refresh check looks for. */
  const Stamp: string := Modified + ModRep

  /** The marker templates `"\n" + modified_lua` and so on, chosen by the
      mode of the first command; ModImporter/modimporter.py adds `Top
      Import` to the Lua marker and a bare `MODIFIED` for CSV. */
  function Template(m: Mode): (r: string)
    ensures |r| > 0 ==> r[0] == '\n'
  {
    match m
    case Lua => "\n-- " + Modified + " "
    case LuaAlt => "\n-- " + Modified + " "
    case Xml => "\n<!-- " + Modified + " -->"
    case Sjson => "\n/* " + Modified + " */"
    case Csv => "\n" + Modified
    case Replace => ""
  }

  /** `modifiedstr.replace(modified, modified + modified_modrep + now)`. */
  function Marker(m: Mode, now: string): string {
    ReplaceAll(Template(m), Modified, Stamp + now)
  }

  /** The lines `for line in basefile` reads. */
  function Lines(text: string): seq<string> {
    Split(text, "\n")
  }

  /** The refresh scan: the first line holding the stamp ends it. */
  function Edited(lines: seq<string>): (r: bool)
    ensures r <==> exists i :: 0 <= i < |lines| && Contains(lines[i], Stamp)
    decreases |lines|
  {
    if |lines| == 0 then false
    else if Contains(lines[0], Stamp) then true
    else
      var r := Edited(lines[1..]);
      assert forall i :: 1 <= i < |lines| ==> lines[i] == lines[1..][i - 1];
      r
  }

  /** What happens to a base file before the edits. */
  datatype Prepare =
    | MarkDeleted   // the base is missing: a `.del` file records that
    | Restore       // the backup is copied over an edited base
    | Save          // the base is copied to the backup

  /** modimporter.py: an edited base is restored when its backup is in
      scope; anything else is backed up first. */
  function PrepareTopLevel(lines: seq<string>, backupInScope: bool): (r: Prepare)
    ensures r == Restore <==> Edited(lines) && backupInScope
    ensures r != MarkDeleted
  {
    if Edited(lines) && backupInScope then Restore else Save
  }

  /** ModImporter/modimporter.py: a missing base is recorded as deleted; a
      `.pkg` path counts as edited without being read. */
  function PrepareModImporter(present: bool, path: string, lines: seq<string>, backupInScope: bool): (r: Prepare)
    ensures r == MarkDeleted <==> !present
    ensures r == Restore <==> present && (Contains(path, ".pkg") || Edited(lines)) && backupInScope
  {
    if !present then MarkDeleted
    else if (Contains(path, ".pkg") || Edited(lines)) && backupInScope then Restore
    else Save
  }

  /** A pattern whose first character a text lacks does not start inside
      that text. */
  lemma NotStartingIn(x: string, pat: string, y: string)
    requires |pat| > 0 && pat[0] !in x
    ensures forall j :: 0 <= j < |x| ==> !OccursAt(x + pat + y, pat, j)
  {
    var s := x + pat + y;
    forall j | 0 <= j < |x| ensures !OccursAt(s, pat, j) {
      assert s[j] == x[j];
    }
  }

  /** The text around `MODIFIED` in a marker template, after its line
      break. */
  function Affixes(m: Mode): (string, string) {
    match m
    case Lua => ("-- ", " ")
    case LuaAlt => ("-- ", " ")
    case Xml => ("<!-- ", " -->")
    case Sjson => ("/* ", " */")
    case Csv => ("", "")
    case Replace => ("", "")
  }

  lemma TemplateAffixes(m: Mode)
    requires m != Replace
    ensures Template(m) == "\n" + Affixes(m).0 + Modified + Affixes(m).1
    ensures '\n' !in Affixes(m).0 && '\n' !in Affixes(m).1 && 'M' !in Affixes(m).0 && 'M' !in Affixes(m).1
  {
    match m
    case Lua =>
    case LuaAlt =>
    case Xml =>
    case Sjson =>
    case Csv =>
  }

  /** The stamped line of a marker: the marker is a line break followed by
      one line that holds the stamp and the time. */
  lemma MarkerParts(m: Mode, now: string)
    requires m != Replace
    ensures Marker(m, now) == "\n" + Affixes(m).0 + (Stamp + now) + Affixes(m).1
  {
    var (pre, post) := Affixes(m);
    TemplateAffixes(m);
    NotStartingIn("\n" + pre, Modified, post);
    ReplaceAllFirst("\n" + pre, Modified, post, Stamp + now);
    AbsentChar(post, Modified, 0);
  }

  /** A newline-free line built around the stamp. */
  lemma StampedLine(pre: string, now: string, post: string)
    requires '\n' !in pre && '\n' !in now && '\n' !in post
    ensures '\n' !in pre + (Stamp + now) + post
    ensures Contains(pre + (Stamp + now) + post, Stamp)
  {
    assert '\n' !in Stamp by {
      assert forall i :: 0 <= i < |Stamp| ==> Stamp[i] != '\n';
    }
    assert pre + (Stamp + now) + post == pre + Stamp + (now + post);
    ContainsMiddle(pre, Stamp, now + post);
  }

  /** A Replace-only first command leaves no marker. */
  lemma ReplaceUnmarked(now: string)
    ensures Marker(Replace, now) == ""
  {
    assert !Contains("", Modified);
  }

  /** The last line of a text that ends in a line break and a line. */
  lemma LastLine(body: string, line: string)
    requires '\n' !in line
    ensures var ls := Lines(body + ("\n" + line)); |ls| > 0 && ls[|ls| - 1] == line
  {
    SplitCharAppend(body, "\n" + line, '\n');
    SplitCharCons("", '\n', line);
    assert "" + "\n" + line == "\n" + line;
    SplitCharFree(line, '\n');
  }

  lemma ContainsMiddle(a: string, t: string, b: string)
    ensures Contains(a + t + b, t)
  {
    var s := a + t + b;
    assert s[|a|..|a| + |t|] == t;
    assert OccursAt(s, t, |a|);
  }

  /** A text whose last line holds the stamp counts as edited. */
  lemma StampedLastLine(body: string, line: string)
    requires '\n' !in line && Contains(line, Stamp)
    ensures Edited(Lines(body + ("\n" + line)))
  {
    LastLine(body, line);
    var ls := Lines(body + ("\n" + line));
    assert Contains(ls[|ls| - 1], Stamp);
  }

  /** Whatever the file held, once a marker is appended the next run's scan
      finds the stamp on the marker's line: a marked file counts as edited. */
  lemma MarkedIsEdited(body: string, m: Mode, now: string)
    requires m != Replace && '\n' !in now
    ensures Edited(Lines(body + Marker(m, now)))
  {
    var (pre, post) := Affixes(m);
    var line := pre + (Stamp + now) + post;
    assert '\n' !in line && Contains(line, Stamp) by {
      TemplateAffixes(m);
      StampedLine(pre, now, post);
    }
    assert Marker(m, now) == "\n" + line by {
      MarkerParts(m, now);
    }
    StampedLastLine(body, line);
  }

  /** So the run after an edit restores the base from its backup. */
  lemma SecondRunRestores(body: string, m: Mode, now: string)
    requires m != Replace && '\n' !in now
    ensures PrepareTopLevel(Lines(body + Marker(m, now)), true) == Restore
    ensures PrepareModImporter(true, "", Lines(body + Marker(m, now)), true) == Restore
  {
    MarkedIsEdited(body, m, now);
  }

  // ---------------------------------------------------------------------
  // Which patch a command applies

  datatype Patch = CopyOver | AddImport | AddTopImport | MergeXml | MergeSjson | MergeCsv

  /** The mode chain inside ModImporter/modimporter.py `makeedit`, as
      written: it has no CSV branch, so a queued CSV command is never
      applied. */
  function PatchAsWritten(m: Mode): (r: Option<Patch>)
    ensures r.None? <==> m == Csv
  {
    match m
    case Replace => Some(CopyOver)
    case Lua => Some(AddImport)
    case LuaAlt => Some(AddTopImport)
    case Xml => Some(MergeXml)
    case Sjson => Some(MergeSjson)
    case Csv => None
  }

  /** The evidently intended chain: every mode has its own patch, the CSV
      mode `mergecsv`. */
  function PatchFor(m: Mode): (r: Patch)
    ensures m != Csv ==> PatchAsWritten(m) == Some(r)
  {
    match PatchAsWritten(m)
    case Some(p) => p
    case None => MergeCsv
  }

  /** Distinct modes apply distinct patches. */
  lemma PatchForInjective(a: Mode, b: Mode)
    ensures PatchFor(a) == PatchFor(b) ==> a == b
  {
  }

  /** A CSV command: the code as written applies nothing, the intended
      chain merges the CSV patch. */
  lemma AsWrittenSkipsCsv()
    ensures PatchAsWritten(Csv) == None
    ensures PatchFor(Csv) == MergeCsv
  {
  }
}

=== FILE: lexer.dfy ===
/** The directive-file line splitter (`splitlines`, `modfile_splitlines`).

    A body is cut into physical lines at `\n`; each physical line is stripped
    and cut at `"` into groups that alternate between unquoted and quoted.
    Unquoted groups lose everything after `::`, open a block comment at `-:`
    (closed by `:-`, possibly on a later physical line) and are cut into
    logical lines at `;`. Quoted groups are kept verbatim, re-wrapped in
    quotes. The copies in ModImporter/modimporter.py, SGGMI.py and
    SGGMI/SGGMI.py share one algorithm and one set of markers, so one model
    serves them all. SGGMI/sggmi/temp/sggmi_file_mod_control.py has the same
    algorithm but never defines the markers, so its copy raises NameError on
    the first unquoted group of every body; the model does not follow it
    there. */
module Lexer {
  import opened PyStr

  const BlockStart: string := "-:"
  const BlockEnd: string := ":-"
  const LineComment: string := "::"
  const LineBreak: char := ';'
  const Quote: char := '"'

  /** What the nested `gp` threads through a body: the logical lines so far
      (the last one still open), whether a block comment is open, and whether
      the current group is a quoted one. */
  datatype LexState = LexState(lines: seq<string>, block: bool, quoted: bool)

  /** `lines[li] += text`. */
  function AppendLast(lines: seq<string>, text: string): (r: seq<string>)
    requires |lines| > 0
    ensures |r| == |lines|
    ensures r[..|r| - 1] == lines[..|lines| - 1]
    ensures r[|r| - 1] == lines[|lines| - 1] + text
  {
    lines[..|lines| - 1] + [lines[|lines| - 1] + text]
  }

  /** Unquoted, uncommented text: its first `;`-piece continues the open
      logical line and every further piece opens a new one. */
  function Emit(lines: seq<string>, text: string): (r: seq<string>)
    requires |lines| > 0
    ensures |r| == |lines| + |Split(text, [LineBreak])| - 1
    ensures r[..|lines| - 1] == lines[..|lines| - 1]
  {
    var pieces := Split(text, [LineBreak]);
    lines[..|lines| - 1] + [lines[|lines| - 1] + pieces[0]] + pieces[1..]
  }

  /** Lines stay as they are except the open one, and none is removed. */
  predicate Extends(before: seq<string>, after: seq<string>) {
    |before| > 0 && |after| >= |before| && after[..|before| - 1] == before[..|before| - 1]
  }

  /** `gp`: one group, with an open block comment first looking for its end. */
  function Group(st: LexState, group: string): (r: LexState)
    requires |st.lines| > 0
    ensures Extends(st.lines, r.lines)
    decreases |group|, 1
  {
    if st.block then
      var t := SplitOnce(group, BlockEnd);
      if |t| == 1 then st.(quoted := !st.quoted)
      else Text(st.(block := false, quoted := false), t[1])
    else Text(st, group)
  }

  /** The part of `gp` after the block-comment check. */
  function Text(st: LexState, group: string): (r: LexState)
    requires |st.lines| > 0 && !st.block
    ensures Extends(st.lines, r.lines)
    decreases |group|, 0
  {
    if st.quoted then st.(lines := AppendLast(st.lines, [Quote] + group + [Quote]))
    else
      var kept := SplitOnce(group, LineComment)[0];
      var t := SplitOnce(kept, BlockStart);
      var st1 := st.(lines := Emit(st.lines, t[0]));
      if |t| == 1 then st1
      else Group(st1.(block := true), t[1])
  }

  /** The groups of one physical line, the quoted flag flipping after each. */
  function Groups(st: LexState, groups: seq<string>): (r: LexState)
    requires |st.lines| > 0
    ensures Extends(st.lines, r.lines)
    decreases |groups|
  {
    if |groups| == 0 then st
    else
      var s1 := Group(st, groups[0]);
      Groups(s1.(quoted := !s1.quoted), groups[1..])
  }

  /** One physical line: a fresh logical line, then its groups. A block
      comment stays open across the line end; quoting does not. */
  function PhysicalLine(st: LexState, line: string): (r: LexState)
    ensures |r.lines| > |st.lines| && r.lines[..|st.lines|] == st.lines
  {
    var st0 := st.(lines := st.lines + [""], quoted := false);
    var r := Groups(st0, Split(Strip(line), [Quote]));
    assert r.lines[..|st.lines|] == r.lines[..|st0.lines| - 1][..|st.lines|];
    r
  }

  function PhysicalLines(st: LexState, physical: seq<string>): (r: LexState)
    ensures |r.lines| >= |st.lines| + |physical|
    ensures r.lines[..|st.lines|] == st.lines
    decreases |physical|
  {
    if |physical| == 0 then st
    else
      var s1 := PhysicalLine(st, physical[0]);
      var r := PhysicalLines(s1, physical[1..]);
      assert r.lines[..|st.lines|] == r.lines[..|s1.lines|][..|st.lines|];
      r
  }

  /** `splitlines(body)`: total, with at least one logical line per physical
      line. */
  function SplitLines(body: string): (r: seq<string>)
    ensures |r| >= |Split(body, "\n")|
    ensures |r| >= 1
  {
    PhysicalLines(LexState([], false, false), Split(body, "\n")).lines
  }

  /** An empty body is one empty logical line. */
  lemma SplitLinesEmpty()
    ensures SplitLines("") == [""]
  {
    SplitFree("", "\n");
    assert Strip("") == "";
    SplitFree("", [Quote]);
    var st0 := LexState([""], false, false);
    TextPlain(st0, "");
    EmitFresh([], "");
    SplitFree("", [LineBreak]);
    assert Group(st0, "").lines == [""];
    assert Groups(st0, [""]).lines == [""];
    assert PhysicalLine(LexState([], false, false), "").lines == [""];
  }

  /** Text emitted into a fresh logical line becomes its `;`-pieces. */
  lemma EmitFresh(lines: seq<string>, text: string)
    ensures Emit(lines + [""], text) == lines + Split(text, [LineBreak])
  {
    var p := Split(text, [LineBreak]);
    assert (lines + [""])[..|lines|] == lines;
    assert "" + p[0] == p[0];
    assert p == [p[0]] + p[1..];
  }

  /** `Emit` in terms of `Fuse`: the open line fuses with the first piece. */
  lemma EmitFuse(lines: seq<string>, text: string)
    requires |lines| > 0
    ensures Emit(lines, text) == lines[..|lines| - 1] + Fuse([lines[|lines| - 1]], Split(text, [LineBreak]))
  {
  }

  /** Emitting two texts one after the other is emitting their
      concatenation. */
  lemma EmitAppend(lines: seq<string>, a: string, b: string)
    requires |lines| > 0
    ensures Emit(Emit(lines, a), b) == Emit(lines, a + b)
  {
    var pa, pb := Split(a, [LineBreak]), Split(b, [LineBreak]);
    var init, last := lines[..|lines| - 1], lines[|lines| - 1];
    var fa := Fuse([last], pa);
    var m := Emit(lines, a);
    assert m == init + fa by {
      EmitFuse(lines, a);
    }
    assert Emit(m, b) == init + Fuse(fa, pb) by {
      EmitFuse(m, b);
      assert m[..|m| - 1] == init + fa[..|fa| - 1];
      assert m[|m| - 1] == fa[|fa| - 1];
      FuseLast(fa, pb);
    }
    assert Emit(lines, a + b) == init + Fuse([last], Fuse(pa, pb)) by {
      EmitFuse(lines, a + b);
      SplitCharAppend(a, b, LineBreak);
    }
    FuseAssoc([last], pa, pb);
  }

  /** Text without `;` just lengthens the open logical line. */
  lemma EmitPlain(lines: seq<string>, text: string)
    requires |lines| > 0 && LineBreak !in text
    ensures Emit(lines, text) == AppendLast(lines, text)
  {
    SplitCharFree(text, LineBreak);
  }

  /** Inside a block comment, a group without `:-` adds nothing. */
  lemma BlockSwallowsGroup(st: LexState, group: string)
    requires |st.lines| > 0 && st.block && !Contains(group, BlockEnd)
    ensures Group(st, group).lines == st.lines && Group(st, group).block
  {
  }

  lemma {:induction false} BlockSwallowsGroups(st: LexState, groups: seq<string>)
    requires |st.lines| > 0 && st.block
    requires forall i :: 0 <= i < |groups| ==> !Contains(groups[i], BlockEnd)
    ensures Groups(st, groups).lines == st.lines && Groups(st, groups).block
    decreases |groups|
  {
    if |groups| > 0 {
      BlockSwallowsGroup(st, groups[0]);
      var s1 := Group(st, groups[0]);
      BlockSwallowsGroups(s1.(quoted := !s1.quoted), groups[1..]);
    }
  }

  /** Inside a block comment, a physical line without `:-` contributes only
      the empty logical line every physical line opens, and the comment stays
      open for the next physical line. */
  lemma BlockSwallowsLine(st: LexState, line: string)
    requires st.block && !Contains(line, BlockEnd)
    ensures PhysicalLine(st, line).lines == st.lines + [""]
    ensures PhysicalLine(st, line).block
  {
    var groups := Split(Strip(line), [Quote]);
    forall i | 0 <= i < |groups|
      ensures !Contains(groups[i], BlockEnd)
    {
      if Contains(groups[i], BlockEnd) {
        SplitPieceContains(Strip(line), [Quote], i, BlockEnd);
        StripContains(line, BlockEnd);
      }
    }
    BlockSwallowsGroups(st.(lines := st.lines + [""], quoted := false), groups);
  }

  /** Text without `:` is plain text: no line comment, no block comment. */
  lemma ColonFree(s: string)
    requires ':' !in s
    ensures SplitOnce(s, LineComment) == [s]
    ensures SplitOnce(s, BlockStart) == [s]
    ensures SplitOnce(s, BlockEnd) == [s]
  {
    AbsentChar(s, LineComment, 0);
    AbsentChar(s, BlockStart, 1);
    AbsentChar(s, BlockEnd, 0);
  }

  /** Colon-free unquoted text goes into the open logical line, cut at `;`. */
  lemma TextPlain(st: LexState, text: string)
    requires |st.lines| > 0 && !st.block && !st.quoted && ':' !in text
    ensures Text(st, text) == st.(lines := Emit(st.lines, text))
  {
    ColonFree(text);
  }

  /** Outside quotes and comments, `::` drops the rest of its group. */
  lemma LineCommentDropsRest(st: LexState, a: string, b: string)
    requires |st.lines| > 0 && !st.block && !st.quoted && ':' !in a
    ensures Group(st, a + LineComment + b) == Group(st, a)
  {
    NoOccurrenceIn(a, LineComment + b, LineComment);
    assert a + LineComment + b == a + (LineComment + b);
    FindAfterFree(a, LineComment, b);
    ColonFree(a);
  }

  /** Unquoted text reads only up to its first `::`. */
  lemma TextCut(st: LexState, b: string)
    requires |st.lines| > 0 && !st.block && !st.quoted
    ensures Text(st, b) == Text(st, SplitOnce(b, LineComment)[0])
  {
    var kb := SplitOnce(b, LineComment)[0];
    SplitFree(kb, LineComment);
  }

  /** Unquoted text can be read in two parts when the first holds no `:`
      and does not end with `-` (which a following `:` would turn into a
      block-comment start). */
  lemma TextAppend(st: LexState, a: string, b: string)
    requires |st.lines| > 0 && !st.block && !st.quoted
    requires ':' !in a && (|a| == 0 || a[|a| - 1] != '-')
    ensures Text(st, a + b) == Text(st.(lines := Emit(st.lines, a)), b)
  {
    var kb := SplitOnce(b, LineComment)[0];
    assert SplitOnce(a + b, LineComment)[0] == a + kb by {
      NoOccurrenceIn(a, b, LineComment);
      SplitOnceShift(a, b, LineComment);
    }
    var tk := SplitOnce(kb, BlockStart);
    var t := SplitOnce(a + kb, BlockStart);
    assert t == [a + tk[0]] + tk[1..] by {
      forall j | 0 <= j < |a|
        ensures !OccursAt(a + kb, BlockStart, j)
      {
        OccursAtPair(a + kb, BlockStart, j);
        if j + 1 < |a| {
          assert (a + kb)[j + 1] == a[j + 1];
        } else {
          assert (a + kb)[j] == a[|a| - 1];
        }
      }
      SplitOnceShift(a, kb, BlockStart);
    }
    var st1 := st.(lines := Emit(st.lines, a));
    assert Emit(st.lines, a + tk[0]) == Emit(st1.lines, tk[0]) by {
      EmitAppend(st.lines, a, tk[0]);
    }
    assert |t| == |tk| && (|t| > 1 ==> t[1] == tk[1]);
    TextCut(st1, b);
  }

  /** No `::` starts inside `a-:c:-` when `a` and `c` hold no `:` and `c` is
      not empty. */
  lemma NoLineCommentIn(a: string, c: string, b: string)
    requires ':' !in a && ':' !in c && |c| > 0
    ensures var prefix := a + BlockStart + c + BlockEnd;
      forall j :: 0 <= j < |prefix| ==> !OccursAt(prefix + b, LineComment, j)
  {
    var prefix := a + BlockStart + c + BlockEnd;
    var g := prefix + b;
    forall j | 0 <= j < |prefix|
      ensures !OccursAt(g, LineComment, j)
    {
      OccursAtPair(g, LineComment, j);
      if j < |a| {
        assert g[j] == a[j];
      } else if j == |a| {
        assert g[j] == '-';
      } else if j == |a| + 1 {
        assert g[j + 1] == c[0];
      } else if j < |a| + 2 + |c| {
        assert g[j] == c[j - |a| - 2];
      } else if j == |a| + 2 + |c| {
        assert g[j + 1] == '-';
      } else {
        assert g[j] == '-';
      }
    }
  }

  /** A block comment opened after colon-free `a`. */
  lemma OpensAfter(a: string, y: string)
    requires ':' !in a && (|a| == 0 || a[|a| - 1] != '-')
    ensures SplitOnce(a + BlockStart + y, BlockStart) == [a, y]
  {
    var s := a + BlockStart + y;
    forall j | 0 <= j < |a|
      ensures !OccursAt(s, BlockStart, j)
    {
      OccursAtPair(s, BlockStart, j);
      if j + 1 < |a| {
        assert s[j + 1] == a[j + 1];
      } else {
        assert s[j] == a[|a| - 1];
      }
    }
    FindAfterFree(a, BlockStart, y);
    assert s[..|a|] == a;
    assert s[|a| + 2..] == y;
  }

  /** A block comment closed after colon-free `c`. */
  lemma ClosesAfter(c: string, y: string)
    requires ':' !in c
    ensures SplitOnce(c + BlockEnd + y, BlockEnd) == [c, y]
  {
    var s := c + BlockEnd + y;
    assert s == c + (BlockEnd + y);
    NoOccurrenceIn(c, BlockEnd + y, BlockEnd);
    FindAfterFree(c, BlockEnd, y);
    assert s[..|c|] == c;
    assert s[|c| + 2..] == y;
  }

  /** Outside quotes and comments, a block comment `-: c :-` inside a group
      contributes nothing: the group reads as if it were not there. The
      comment text `c` is non-empty, since `-::-` is a line comment, and
      `a` does not end with `-`, which would make `-` and a `:` opening `b`
      a block-comment start of their own. */
  lemma BlockCommentVanishes(st: LexState, a: string, c: string, b: string)
    requires |st.lines| > 0 && !st.block && !st.quoted
    requires ':' !in a && ':' !in c && |c| > 0
    requires |a| == 0 || a[|a| - 1] != '-'
    ensures Group(st, a + BlockStart + c + BlockEnd + b) == Group(st, a + b)
  {
    var prefix := a + BlockStart + c + BlockEnd;
    var g := prefix + b;
    NoLineCommentIn(a, c, b);
    SplitOnceShift(prefix, b, LineComment);
    var kb := SplitOnce(b, LineComment)[0];
    var kept := prefix + kb;
    assert SplitOnce(g, LineComment)[0] == kept;
    assert kept == a + BlockStart + (c + BlockEnd + kb);
    OpensAfter(a, c + BlockEnd + kb);
    ClosesAfter(c, kb);
    var st1 := st.(lines := Emit(st.lines, a));
    assert Text(st, g) == Group(st1.(block := true), c + BlockEnd + kb);
    assert Group(st1.(block := true), c + BlockEnd + kb) == Text(st1, kb);
    TextCut(st1, b);
    TextAppend(st, a, b);
  }

  /** A line `a"q"b` with no quote in `a`, `q` or `b` is the groups `a`, `q`
      and `b`; it has nothing to strip when `a` and `b` do not start or end
      it with whitespace. */
  lemma QuotedSplit(a: string, q: string, b: string)
    requires Quote !in a && Quote !in q && Quote !in b
    ensures Split(a + [Quote] + q + [Quote] + b, [Quote]) == [a, q, b]
  {
    var line := a + [Quote] + q + [Quote] + b;
    var rest := q + [Quote] + b;
    assert line == a + [Quote] + rest;
    SplitCharCons(a, Quote, rest);
    SplitCharCons(q, Quote, b);
    SplitCharFree(b, Quote);
  }

  lemma QuotedEnds(a: string, q: string, b: string)
    requires |a| == 0 || !IsSpace(a[0])
    requires |b| == 0 || !IsSpace(b[|b| - 1])
    ensures var line := a + [Quote] + q + [Quote] + b;
      Strip(line) == line
  {
    var line := a + [Quote] + q + [Quote] + b;
    assert !IsSpace(Quote);
    assert line[0] == if |a| == 0 then Quote else a[0];
    assert line[|line| - 1] == if |b| == 0 then Quote else b[|b| - 1];
  }

  /** Colon-free, `;`-free unquoted text lengthens the open logical line. */
  lemma GroupPlain(st: LexState, text: string)
    requires |st.lines| > 0 && !st.block && !st.quoted
    requires ':' !in text && LineBreak !in text
    ensures Group(st, text) == st.(lines := AppendLast(st.lines, text))
  {
    TextPlain(st, text);
    EmitPlain(st.lines, text);
  }

  /** The groups `a`, `q`, `b` of a line with one quoted run, read from a
      fresh logical line. */
  lemma ThreeGroups(lines: seq<string>, a: string, q: string, b: string)
    requires ':' !in a && LineBreak !in a
    requires ':' !in b && LineBreak !in b
    ensures var r := Groups(LexState(lines + [""], false, false), [a, q, b]);
      r.lines == lines + [a + [Quote] + q + [Quote] + b] && !r.block
  {
    var st0 := LexState(lines + [""], false, false);
    GroupPlain(st0, a);
    AppendLastSnoc(lines, "", a);
    var s1 := LexState(lines + [a], false, true);
    var quoted := [Quote] + q + [Quote];
    assert Group(s1, q) == s1.(lines := AppendLast(s1.lines, quoted));
    AppendLastSnoc(lines, a, quoted);
    var s2 := LexState(lines + [a + quoted], false, false);
    GroupPlain(s2, b);
    AppendLastSnoc(lines, a + quoted, b);
    var s3 := LexState(lines + [a + quoted + b], false, false);
    assert [a, q, b][1..] == [q, b] && [q, b][1..] == [b];
    assert "" + a == a;
    assert Group(st0, a).(quoted := true) == s1;
    assert Groups(st0, [a, q, b]) == Groups(s1, [q, b]);
    assert Groups(s1, [q, b]) == Groups(s2, [b]);
    assert Groups(s2, [b]) == s3.(quoted := true);
    Assoc(a, quoted, b);
    Assoc(a, [Quote] + q, [Quote]);
    Assoc(a, [Quote], q);
  }

  /** A quoted run on a physical line is kept verbatim with its quotes, even
      when it holds `;`, `::` or `-:`. */
  lemma QuotedRunVerbatim(st: LexState, a: string, q: string, b: string)
    requires !st.block
    requires ':' !in a && LineBreak !in a && Quote !in a
    requires ':' !in b && LineBreak !in b && Quote !in b
    requires Quote !in q
    requires |a| == 0 || !IsSpace(a[0])
    requires |b| == 0 || !IsSpace(b[|b| - 1])
    ensures var line := a + [Quote] + q + [Quote] + b;
      PhysicalLine(st, line).lines == st.lines + [line] && !PhysicalLine(st, line).block
  {
    QuotedEnds(a, q, b);
    QuotedSplit(a, q, b);
    ThreeGroups(st.lines, a, q, b);
  }

  lemma AppendLastSnoc(lines: seq<string>, x: string, y: string)
    ensures AppendLast(lines + [x], y) == lines + [x + y]
  {
    assert (lines + [x])[..|lines|] == lines;
  }

  /** The reference reading of a body free of quotes and colons. */
  function PlainLines(physical: seq<string>): seq<string>
    decreases |physical|
  {
    if |physical| == 0 then []
    else Split(Strip(physical[0]), [LineBreak]) + PlainLines(physical[1..])
  }

  /** A physical line free of quotes and colons opens logical lines for its
      stripped `;`-pieces. */
  lemma PlainLine(st: LexState, line: string)
    requires !st.block && Quote !in line && ':' !in line
    ensures PhysicalLine(st, line).lines == st.lines + Split(Strip(line), [LineBreak])
    ensures !PhysicalLine(st, line).block
  {
    var t := Strip(line);
    StripChars(line);
    assert Quote !in t && ':' !in t;
    SplitCharFree(t, Quote);
    var st0 := LexState(st.lines + [""], false, false);
    TextPlain(st0, t);
    EmitFresh(st.lines, t);
    assert Groups(st0, [t]) == Group(st0, t).(quoted := true);
  }

  /** No quote and no colon. */
  predicate Plain(s: string) {
    Quote !in s && ':' !in s
  }

  /** Every physical line is `Plain`. */
  predicate AllPlain(physical: seq<string>)
    decreases |physical|
  {
    |physical| == 0 || (Plain(physical[0]) && AllPlain(physical[1..]))
  }

  lemma {:induction false} AllPlainFromEach(physical: seq<string>)
    requires forall i :: 0 <= i < |physical| ==> Plain(physical[i])
    ensures AllPlain(physical)
    decreases |physical|
  {
    if |physical| > 0 {
      assert Plain(physical[0]);
      var rest := physical[1..];
      assert forall i :: 0 <= i < |rest| ==> rest[i] == physical[i + 1];
      AllPlainFromEach(rest);
    }
  }

  lemma {:induction false} PlainPhysicalLines(st: LexState, physical: seq<string>)
    requires !st.block && AllPlain(physical)
    ensures PhysicalLines(st, physical).lines == st.lines + PlainLines(physical)
    ensures !PhysicalLines(st, physical).block
    decreases |physical|
  {
    if |physical| > 0 {
      var line, rest := physical[0], physical[1..];
      PlainLine(st, line);
      var s1 := PhysicalLine(st, line);
      PlainPhysicalLines(s1, rest);
      var h := Split(Strip(line), [LineBreak]);
      Assoc(st.lines, h, PlainLines(rest));
    }
  }

  /** On a body without quotes or colons, the logical lines are exactly the
      stripped physical lines cut at `;`. */
  lemma PlainBody(body: string)
    requires Quote !in body && ':' !in body
    ensures SplitLines(body) == PlainLines(Split(body, "\n"))
  {
    var physical := Split(body, "\n");
    forall i | 0 <= i < |physical|
      ensures Plain(physical[i])
    {
      if Quote in physical[i] {
        SplitPieceChar(body, "\n", i, Quote);
      }
      if ':' in physical[i] {
        SplitPieceChar(body, "\n", i, ':');
      }
    }
    AllPlainFromEach(physical);
    PlainPhysicalLines(LexState([], false, false), physical);
  }
}

=== FILE: merge_data.dfy ===
/** `merge_data(base, input)` and the start of `merge_files` in
    SGGMI/sggmi/sggmi_sjson.py: the rewritten SJSON merge.

    It reads values through `get_attribute`, whose default is None, so a
    missing key and a stored None look alike. Compared with the other copies
    it returns the base for any falsy patch; its `_delete` gives None
    instead of DNE; its `_sequence` loop names variables that do not exist
    and raises NameError on its first entry; its default list branch calls
    `expand`, which lists lack; and a pair of truthy same-type scalars falls
    through to `.items()`. */
module MergeData {
  import opened Wrappers
  import opened Nodes
  import opened SjsonMerge
  import DictUtil

  /** `get_attribute(data, key)`, default None. */
  function Attr(data: Node, key: Key): Node {
    DictUtil.GetAttribute(data, key, NoneValue)
  }

  function MergeData(base: Node, input: Node): (r: Result<Node>)
    ensures !Truthy(input) ==> r == Ok(base)
    ensures Truthy(input) && Sequenced(input) ==> r == Fail("NameError")
    ensures Truthy(input) && !Sequenced(input) && !SameType(base, input) ==> r == Ok(input)
    decreases Height(input), 1
  {
    if !Truthy(input) then Ok(base)
    else if Truthy(Attr(input, Name(SequenceKey))) then Fail("NameError")
    else if !SameType(base, input) then Ok(input)
    else
      match input
      case Seq(ps) =>
        var head := Attr(input, Index(0));
        if head == Marker(AppendMark) then Ok(Seq(base.items + ps[1..]))
        else if head == Marker(DeleteMark) then Ok(NoneValue)
        else if head == Marker(ReplaceMark) then Ok(Seq(ps[1..]))
        else Fail("AttributeError")
      case Map(pes) =>
        if Truthy(Attr(input, Name(DeleteMark))) then Ok(NoneValue)
        else if Truthy(Attr(input, Name(ReplaceMark))) then Ok(Map(Remove(pes, ReplaceMark)))
        else
          var es :- MergeDataEntries(base.entries, pes);
          Ok(Map(es))
      case _ => Fail("AttributeError")
  }

  /** The loop over the input's keys, writing into the base. */
  function MergeDataEntries(bes: seq<Entry>, pes: seq<Entry>): Result<seq<Entry>>
    decreases Height(Map(pes)), 0, |pes|
  {
    if |pes| == 0 then Ok(bes)
    else
      assert Height(pes[0].value) < Height(Map(pes)) && Height(Map(pes[1..])) <= Height(Map(pes));
      var m :- MergeData(Attr(Map(bes), Name(pes[0].key)), pes[0].value);
      MergeDataEntries(Put(bes, pes[0].key, m), pes[1..])
  }

  /** A value counts as present for `get_attribute` when it is there and
      is not None; the truthiness tests of the merge see the same thing as
      the other copies' `safeget`. */
  lemma AttrTruthy(es: seq<Entry>, k: string)
    ensures Truthy(Attr(Map(es), Name(k))) <==> Truthy(Get(es, k))
  {
  }

  /** The list markers: `_append` keeps the base and adds the rest of the
      patch after it, `_delete` gives None, `_replace` gives the rest of the
      patch; without a marker the merge raises. */
  lemma MergeDataListMarkers(bs: seq<Node>, ps: seq<Node>)
    requires |ps| > 0
    ensures HeadIs(ps, AppendMark) ==> MergeData(Seq(bs), Seq(ps)) == Ok(Seq(bs + ps[1..]))
    ensures HeadIs(ps, DeleteMark) ==> MergeData(Seq(bs), Seq(ps)) == Ok(NoneValue)
    ensures HeadIs(ps, ReplaceMark) ==> MergeData(Seq(bs), Seq(ps)) == Ok(Seq(ps[1..]))
    ensures !HeadIs(ps, AppendMark) && !HeadIs(ps, DeleteMark) && !HeadIs(ps, ReplaceMark) ==>
      MergeData(Seq(bs), Seq(ps)) == Fail("AttributeError")
  {
  }

  /** The mapping markers, read through `get_attribute`: `_delete` is
      tested before `_replace`, and a replacing input loses its `_replace`
      key and is not merged. */
  lemma MergeDataMapMarkers(bes: seq<Entry>, pes: seq<Entry>)
    requires |pes| > 0 && !Truthy(Attr(Map(pes), Name(SequenceKey)))
    ensures Truthy(Attr(Map(pes), Name(DeleteMark))) ==> MergeData(Map(bes), Map(pes)) == Ok(NoneValue)
    ensures !Truthy(Attr(Map(pes), Name(DeleteMark))) && Truthy(Attr(Map(pes), Name(ReplaceMark))) ==>
      MergeData(Map(bes), Map(pes)) == Ok(Map(Remove(pes, ReplaceMark)))
  {
    if Truthy(Attr(Map(pes), Name(DeleteMark))) {
      MergeDataDelete(bes, pes);
    } else if Truthy(Attr(Map(pes), Name(ReplaceMark))) {
      MergeDataReplace(bes, pes, Remove(pes, ReplaceMark));
    }
  }

  lemma MergeDataDelete(bes: seq<Entry>, pes: seq<Entry>)
    requires |pes| > 0 && !Truthy(Attr(Map(pes), Name(SequenceKey)))
    requires Truthy(Attr(Map(pes), Name(DeleteMark)))
    ensures MergeData(Map(bes), Map(pes)) == Ok(NoneValue)
  {
  }

  lemma MergeDataReplace(bes: seq<Entry>, pes: seq<Entry>, kept: seq<Entry>)
    requires |pes| > 0 && !Truthy(Attr(Map(pes), Name(SequenceKey)))
    requires !Truthy(Attr(Map(pes), Name(DeleteMark))) && Truthy(Attr(Map(pes), Name(ReplaceMark)))
    requires kept == Remove(pes, ReplaceMark)
    ensures MergeData(Map(bes), Map(pes)) == Ok(Map(kept))
  {
  }

  /** Two truthy scalars of the same type make the merge raise. */
  lemma MergeDataScalars(base: Atom, input: Atom)
    requires SameType(Scalar(base), Scalar(input)) && Truthy(Scalar(input))
    ensures MergeData(Scalar(base), Scalar(input)) == Fail("AttributeError")
  {
  }

  /** The input entry `p` was merged into `es` from the base `bes`. */
  predicate Settles(bes: seq<Entry>, p: Entry, es: seq<Entry>) {
    MergeData(Attr(Map(bes), Name(p.key)), p.value) == Ok(Get(es, p.key)) && p.key in Keys(es)
  }

  /** Without a marker, each input key holds the merge of the base's value
      under it (None when absent) with the input's value; every other key
      keeps its base value; base keys keep their place. */
  lemma {:induction false} MergeDataPointwise(bes: seq<Entry>, pes: seq<Entry>)
    requires UniqueKeys(pes)
    requires MergeDataEntries(bes, pes).Ok?
    ensures var es := MergeDataEntries(bes, pes).value;
      && (forall k :: k !in Keys(pes) ==> Lookup(es, k) == Lookup(bes, k))
      && (forall i :: 0 <= i < |pes| ==> Settles(bes, pes[i], es))
      && Keys(bes) <= Keys(es)
    decreases |pes|
  {
    if |pes| > 0 {
      var k0 := pes[0].key;
      var m0 := MergeData(Attr(Map(bes), Name(k0)), pes[0].value).value;
      var bes' := Put(bes, k0, m0);
      UniqueTail(pes);
      MergeDataPointwise(bes', pes[1..]);
      var es := MergeDataEntries(bes', pes[1..]).value;
      assert MergeDataEntries(bes, pes) == Ok(es);
      PutKeys(bes, k0, m0);
      assert Keys(bes) <= Keys(bes');
      assert Keys(bes') <= Keys(es);
      PointwiseStep(bes, pes, m0, es);
    }
  }

  lemma PointwiseStep(bes: seq<Entry>, pes: seq<Entry>, m0: Node, es: seq<Entry>)
    requires |pes| > 0 && UniqueKeys(pes)
    requires MergeData(Attr(Map(bes), Name(pes[0].key)), pes[0].value) == Ok(m0)
    requires forall k :: k !in Keys(pes[1..]) ==> Lookup(es, k) == Lookup(Put(bes, pes[0].key, m0), k)
    requires forall i :: 0 <= i < |pes[1..]| ==> Settles(Put(bes, pes[0].key, m0), pes[1..][i], es)
    ensures forall k :: k !in Keys(pes) ==> Lookup(es, k) == Lookup(bes, k)
    ensures forall i :: 0 <= i < |pes| ==> Settles(bes, pes[i], es)
  {
    UniqueTail(pes);
    assert Keys(pes) == [pes[0].key] + Keys(pes[1..]);
    forall i | 0 <= i < |pes|
      ensures Settles(bes, pes[i], es)
    {
      if i > 0 {
        assert pes[i] == pes[1..][i - 1];
        SettlesElsewhere(bes, pes[0].key, m0, pes[i], es);
      }
    }
  }

  /** A write under another key does not change what an entry merges with. */
  lemma SettlesElsewhere(bes: seq<Entry>, k0: string, m0: Node, p: Entry, es: seq<Entry>)
    requires p.key != k0 && Settles(Put(bes, k0, m0), p, es)
    ensures Settles(bes, p, es)
  {
    assert Lookup(Put(bes, k0, m0), p.key) == Lookup(bes, p.key);
  }

  /** What `merge_files` does before any file is read. */
  datatype FilesStart = ReturnBase(path: string) | ReadBoth

  /** `merge_files(base_file, input_file)`: an empty input path returns the
      base path and reads and writes nothing. */
  function MergeFilesStart(baseFile: string, inputFile: string): (r: FilesStart)
    ensures r.ReturnBase? <==> |inputFile| == 0
    ensures r.ReturnBase? ==> r.path == baseFile
  {
    if |inputFile| == 0 then ReturnBase(baseFile) else ReadBoth
  }
}

=== FILE: merge_dict.dfy ===
/** `merge_dict(base, input)` of the `data_util`/`data` modules: merge one
    mapping into another, recursively where both sides hold a mapping, the
    input winning at the leaves.

    The nested merge runs for its effect on the base's nested mapping, and
    its return value is dropped. When that nested mapping is empty,
    `merge_dict` returns the input without touching the base, so the input's
    entries are lost. `MergeDictBy(false, ..)` is the code as written;
    `MergeDict`, which stores the nested result, is the evidently intended
    merge. */
module MergeDict {
  import opened Wrappers
  import opened Nodes

  /** Python's `==`: `1 == True`, `0 == False`, and ordered mappings
      compare entry by entry. */
  predicate PyEq(a: Node, b: Node)
    decreases a
  {
    match (a, b)
    case (DNE, DNE) => true
    case (Scalar(x), Scalar(y)) => AtomEq(x, y)
    case (Seq(xs), Seq(ys)) => |xs| == |ys| && ItemsEq(xs, ys)
    case (Map(xs), Map(ys)) => |xs| == |ys| && EntriesEq(xs, ys)
    case _ => false
  }

  predicate ItemsEq(xs: seq<Node>, ys: seq<Node>)
    requires |xs| == |ys|
    decreases xs
  {
    forall i :: 0 <= i < |xs| ==> PyEq(xs[i], ys[i])
  }

  predicate EntriesEq(xs: seq<Entry>, ys: seq<Entry>)
    requires |xs| == |ys|
    decreases xs
  {
    forall i :: 0 <= i < |xs| ==> xs[i].key == ys[i].key && PyEq(xs[i].value, ys[i].value)
  }

  /** The numeric value of a boolean or integer. */
  function Numeric(a: Atom): Option<int> {
    match a
    case Int(i) => Some(i)
    case Bool(b) => Some(if b then 1 else 0)
    case _ => None
  }

  predicate AtomEq(x: Atom, y: Atom) {
    if Numeric(x).Some? || Numeric(y).Some? then Numeric(x) == Numeric(y) else x == y
  }

  /** Every value equals itself. */
  lemma {:induction false} PyEqRefl(a: Node)
    ensures PyEq(a, a)
    decreases a
  {
    match a
    case Seq(xs) =>
      forall i | 0 <= i < |xs| ensures PyEq(xs[i], xs[i]) {
        PyEqRefl(xs[i]);
      }
    case Map(xs) =>
      forall i | 0 <= i < |xs| ensures PyEq(xs[i].value, xs[i].value) {
        PyEqRefl(xs[i].value);
      }
    case _ =>
  }

  /** `1 == True` although the values differ. */
  lemma IntEqualsBool()
    ensures PyEq(Scalar(Int(1)), Scalar(Bool(true))) && Scalar(Int(1)) != Scalar(Bool(true))
  {
  }

  /** The merge; `keep` says whether a nested merge's result is stored. */
  function MergeDictBy(keep: bool, base: seq<Entry>, input: seq<Entry>): seq<Entry>
    decreases Height(Map(input)), 1
  {
    if |base| == 0 then input
    else if |input| == 0 then base
    else MergeKeys(keep, base, input)
  }

  /** The loop over the input's keys, updating `target` in place. */
  function MergeKeys(keep: bool, target: seq<Entry>, ies: seq<Entry>): seq<Entry>
    decreases Height(Map(ies)), 0, |ies|
  {
    if |ies| == 0 then target
    else
      var k := ies[0].key;
      var v := ies[0].value;
      assert Height(v) < Height(Map(ies)) && Height(Map(ies[1..])) <= Height(Map(ies));
      var target' :=
        match Lookup(target, k)
        case None => Put(target, k, v)
        case Some(t) =>
          if t.Map? && v.Map? then Put(target, k, Map(Nested(keep, t.entries, v.entries)))
          else if PyEq(t, v) then target
          else Put(target, k, v);
      MergeKeys(keep, target', ies[1..])
  }

  /** What a nested mapping holds after the recursive call: the call's
      result when it is stored; otherwise the nested mapping as the call
      left it, which it changes only when neither side is empty. */
  function Nested(keep: bool, t: seq<Entry>, v: seq<Entry>): seq<Entry>
    decreases Height(Map(v)), 2
  {
    if keep then MergeDictBy(true, t, v)
    else if |t| > 0 && |v| > 0 then MergeKeys(false, t, v)
    else t
  }

  function MergeDict(base: seq<Entry>, input: seq<Entry>): seq<Entry> {
    MergeDictBy(true, base, input)
  }

  function MergeDictAsWritten(base: seq<Entry>, input: seq<Entry>): seq<Entry> {
    MergeDictBy(false, base, input)
  }

  /** An empty side gives the other side back. */
  lemma MergeDictEmpty(keep: bool, base: seq<Entry>, input: seq<Entry>)
    ensures |base| == 0 ==> MergeDictBy(keep, base, input) == input
    ensures |base| > 0 && |input| == 0 ==> MergeDictBy(keep, base, input) == base
  {
  }

  /** What a key of the input ends up holding, given the base's value. */
  function Settled(keep: bool, prior: Option<Node>, v: Node): (r: Node)
    ensures prior.Some? && !(prior.value.Map? && v.Map?) ==> PyEq(r, v)
  {
    match prior
    case None => v
    case Some(t) =>
      if t.Map? && v.Map? then Map(Nested(keep, t.entries, v.entries))
      else if PyEq(t, v) then PyEqSymm(t, v); t
      else PyEqRefl(v); v
  }

  /** Python's `==` is symmetric. */
  lemma {:induction false} PyEqSymm(a: Node, b: Node)
    requires PyEq(a, b)
    ensures PyEq(b, a)
    decreases a
  {
    match (a, b)
    case (Seq(xs), Seq(ys)) =>
      forall i | 0 <= i < |ys| ensures PyEq(ys[i], xs[i]) {
        PyEqSymm(xs[i], ys[i]);
      }
    case (Map(xs), Map(ys)) =>
      forall i | 0 <= i < |ys| ensures ys[i].key == xs[i].key && PyEq(ys[i].value, xs[i].value) {
        PyEqSymm(xs[i].value, ys[i].value);
      }
    case _ =>
  }

  /** Base-only keys keep their values and their place; each input key
      holds `Settled`: the input's value when the base had none, the nested
      merge when both are mappings, and a value equal to the input's
      otherwise. */
  lemma {:induction false} MergeKeysPointwise(keep: bool, target: seq<Entry>, ies: seq<Entry>)
    requires UniqueKeys(ies)
    ensures var es := MergeKeys(keep, target, ies);
      && (forall k :: k !in Keys(ies) ==> Lookup(es, k) == Lookup(target, k))
      && (forall i :: 0 <= i < |ies| ==> Lookup(es, ies[i].key) == Some(Settled(keep, Lookup(target, ies[i].key), ies[i].value)))
      && Keys(target) <= Keys(es)
    decreases |ies|
  {
    if |ies| > 0 {
      var k0 := ies[0].key;
      var v0 := ies[0].value;
      var target' := Put(target, k0, Settled(keep, Lookup(target, k0), v0));
      StepIsPut(keep, target, ies);
      UniqueTail(ies);
      MergeKeysPointwise(keep, target', ies[1..]);
      var es := MergeKeys(keep, target', ies[1..]);
      PutKeys(target, k0, Settled(keep, Lookup(target, k0), v0));
      assert Keys(target) <= Keys(target');
      PrefixTrans(Keys(target), Keys(target'), Keys(es));
      MergeKeysStep(keep, target, ies, es);
    }
  }

  /** One step of the loop stores `Settled` under the key; where the code
      skips the assignment, storing the value already there changes
      nothing. */
  lemma StepIsPut(keep: bool, target: seq<Entry>, ies: seq<Entry>)
    requires |ies| > 0
    ensures MergeKeys(keep, target, ies)
      == MergeKeys(keep, Put(target, ies[0].key, Settled(keep, Lookup(target, ies[0].key), ies[0].value)), ies[1..])
  {
    var t := Lookup(target, ies[0].key);
    if t.Some? && !(t.value.Map? && ies[0].value.Map?) && PyEq(t.value, ies[0].value) {
      PutExisting(target, ies[0].key);
    }
  }

  /** Re-storing the value under a key leaves the mapping as it is. */
  lemma {:induction false} PutExisting(es: seq<Entry>, k: string)
    requires Lookup(es, k).Some?
    ensures Put(es, k, Lookup(es, k).value) == es
    decreases |es|
  {
    if es[0].key != k {
      PutExisting(es[1..], k);
    }
  }

  lemma MergeKeysStep(keep: bool, target: seq<Entry>, ies: seq<Entry>, es: seq<Entry>)
    requires |ies| > 0 && UniqueKeys(ies)
    requires var target' := Put(target, ies[0].key, Settled(keep, Lookup(target, ies[0].key), ies[0].value));
      && (forall k :: k !in Keys(ies[1..]) ==> Lookup(es, k) == Lookup(target', k))
      && (forall i :: 0 <= i < |ies[1..]| ==> Lookup(es, ies[1..][i].key) == Some(Settled(keep, Lookup(target', ies[1..][i].key), ies[1..][i].value)))
    ensures forall k :: k !in Keys(ies) ==> Lookup(es, k) == Lookup(target, k)
    ensures forall i :: 0 <= i < |ies| ==> Lookup(es, ies[i].key) == Some(Settled(keep, Lookup(target, ies[i].key), ies[i].value))
  {
    UniqueTail(ies);
    KeysCons(ies[0], ies[1..]);
    assert ies == [ies[0]] + ies[1..];
    forall i | 1 <= i < |ies|
      ensures Lookup(es, ies[i].key) == Some(Settled(keep, Lookup(target, ies[i].key), ies[i].value))
    {
      assert ies[i] == ies[1..][i - 1];
    }
  }

  /** `{"a": {}}` merged with `{"a": {"b": 1}}`: the code as written keeps
      the empty mapping, the corrected merge stores `{"b": 1}`. */
  lemma AsWrittenLosesNestedInput()
    ensures MergeDictAsWritten([Entry("a", Map([]))], [Entry("a", Map([Entry("b", Scalar(Int(1)))]))])
      == [Entry("a", Map([]))]
    ensures MergeDict([Entry("a", Map([]))], [Entry("a", Map([Entry("b", Scalar(Int(1)))]))])
      == [Entry("a", Map([Entry("b", Scalar(Int(1)))]))]
  {
    var inner := [Entry("b", Scalar(Int(1)))];
    var ies := [Entry("a", Map(inner))];
    assert ies[1..] == [];
    assert Nested(false, [], inner) == [];
    assert Nested(true, [], inner) == inner;
  }
}

=== FILE: mod_control.dfy ===
/** The value classes of SGGMI/sggmi/temp/sggmi_file_mod_control.py and the
    command records of SGGMI/SGGMI.py and SGGMI.py: `Signal`, a frozen
    (truth, message) pair, and the `load` settings a `Mod` is built with. */
module ModControl {
  import opened Wrappers
  import opened Nodes
  import MergeDict
  import Scheduler

  // ---------------------------------------------------------------------
  // Signal

  /** `Signal(truth, message)`: any two Python values. */
  datatype Signal = Signal(truth: Node, message: Node)

  /** `Signal()`: false, with no message. */
  const DefaultSignal: Signal := Signal(Scalar(Bool(false)), NoneValue)

  /** `bool(signal)`: `__bool__` hands back `truth`, which Python accepts
      only when it is a bool and otherwise rejects with TypeError. */
  function Truth(s: Signal): (r: Result<bool>)
    ensures r.Ok? <==> s.truth.Scalar? && s.truth.atom.Bool?
    ensures r.Ok? ==> s.truth == Scalar(Bool(r.value))
  {
    match s.truth
    case Scalar(Bool(b)) => Ok(b)
    case _ => Fail("TypeError")
  }

  /** What a Signal can be compared with. */
  datatype Value = SignalValue(signal: Signal) | Other(node: Node)

  /** `signal == other`: the (truth, message) tuples compared with Python's
      `==` against another Signal, false against anything else. */
  predicate SignalEq(s: Signal, other: Value) {
    match other
    case SignalValue(t) => MergeDict.PyEq(s.truth, t.truth) && MergeDict.PyEq(s.message, t.message)
    case Other(_) => false
  }

  /** Signal equality is reflexive and symmetric, never holds against a
      non-Signal, and for boolean truths and string or None messages is
      equality of the pairs. */
  lemma SignalEqLaws(s: Signal, t: Signal, n: Node)
    ensures SignalEq(s, SignalValue(s))
    ensures SignalEq(s, SignalValue(t)) ==> SignalEq(t, SignalValue(s))
    ensures !SignalEq(s, Other(n))
    ensures (Truth(s).Ok? && Truth(t).Ok? && s.message.Scalar? && t.message.Scalar? &&
             (s.message.atom.Str? || s.message.atom.Null?) && (t.message.atom.Str? || t.message.atom.Null?)) ==>
      (SignalEq(s, SignalValue(t)) <==> s == t)
  {
    MergeDict.PyEqRefl(s.truth);
    MergeDict.PyEqRefl(s.message);
    if SignalEq(s, SignalValue(t)) {
      MergeDict.PyEqSymm(s.truth, t.truth);
      MergeDict.PyEqSymm(s.message, t.message);
    }
  }

  /** `True == 1`, so a Signal with truth 1 equals one with truth True. */
  lemma SignalEqNumeric()
    ensures SignalEq(Signal(Scalar(Int(1)), NoneValue), SignalValue(Signal(Scalar(Bool(true)), NoneValue)))
    ensures Truth(Signal(Scalar(Int(1)), NoneValue)).Fail?
  {
  }

  /** `signal.name = value`: the overriding `__setattr__` takes no argument
      besides the instance, so every assignment raises TypeError and the
      Signal keeps its fields. */
  function Assign(s: Signal, name: string, value: Node): (r: Result<Signal>)
    ensures r.Fail?
  {
    Fail("TypeError")
  }

  // ---------------------------------------------------------------------
  // Mod load settings

  /** `d.update(supplied)`: each supplied entry written in turn. */
  function Update(es: seq<Entry>, supplied: seq<Entry>): seq<Entry>
    decreases |supplied|
  {
    if |supplied| == 0 then es else Update(Put(es, supplied[0].key, supplied[0].value), supplied[1..])
  }

  /** `self.load = {"priority": default_priority}; self.load.update(load)`. */
  function ModLoad(supplied: seq<Entry>): seq<Entry> {
    Update([Entry("priority", Scalar(Int(Scheduler.DefaultPriority)))], supplied)
  }

  /** After an update, a supplied key holds the supplied value and every
      other key keeps what it had. */
  lemma {:induction false} UpdateLookup(es: seq<Entry>, supplied: seq<Entry>, k: string)
    requires UniqueKeys(supplied)
    ensures Lookup(Update(es, supplied), k) == if k in Keys(supplied) then Lookup(supplied, k) else Lookup(es, k)
    decreases |supplied|
  {
    if |supplied| > 0 {
      var e := supplied[0];
      UniqueTail(supplied);
      UpdateLookup(Put(es, e.key, e.value), supplied[1..], k);
      assert Keys(supplied) == [e.key] + Keys(supplied[1..]);
    }
  }

  /** A Mod's settings hold the supplied entries, and the default priority
      unless a priority is supplied. */
  lemma ModLoadLookup(supplied: seq<Entry>, k: string)
    requires UniqueKeys(supplied)
    ensures Lookup(ModLoad(supplied), k) ==
      if k in Keys(supplied) then Lookup(supplied, k)
      else if k == "priority" then Some(Scalar(Int(Scheduler.DefaultPriority)))
      else None
  {
    UpdateLookup([Entry("priority", Scalar(Int(Scheduler.DefaultPriority)))], supplied, k);
  }

  /** SGGMI.py's `Mod`: `priority = load.get("priority", default_priority)`
      is the priority `ModLoad` stores. */
  lemma PriorityAgrees(supplied: seq<Entry>)
    requires UniqueKeys(supplied)
    ensures Lookup(ModLoad(supplied), "priority") ==
      Some(Lookup(supplied, "priority").GetOr(Scalar(Int(Scheduler.DefaultPriority))))
  {
    ModLoadLookup(supplied, "priority");
  }
}

=== FILE: nodes.dfy ===
/** The value tree the SJSON merge works on, as `sjson.loads` produces it:
    ordered mappings (OrderedDict), lists, strings, integers, booleans and
    None, plus DNE, the empty tuple the importer uses to mean "does not
    exist". */
module Nodes {
  import opened Wrappers
  import opened PyStr

  datatype Atom = Str(s: string) | Int(i: int) | Bool(b: bool) | Null

  datatype Node =
    | DNE
    | Scalar(atom: Atom)
    | Seq(items: seq<Node>)
    | Map(entries: seq<Entry>)

  /** Python's None. */
  const NoneValue: Node := Scalar(Null)

  /** One key/value pair of an ordered mapping. */
  datatype Entry = Entry(key: string, value: Node)

  /** A subscript: a mapping key or a list index. */
  datatype Key = Name(name: string) | Index(index: int)

  /** Python's concrete types, which `type(a) == type(b)` compares. */
  datatype Kind = TupleKind | StrKind | IntKind | BoolKind | NoneKind | ListKind | DictKind

  function KindOf(n: Node): Kind {
    match n
    case DNE => TupleKind
    case Seq(_) => ListKind
    case Map(_) => DictKind
    case Scalar(a) =>
      match a
      case Str(_) => StrKind
      case Int(_) => IntKind
      case Bool(_) => BoolKind
      case Null => NoneKind
  }

  predicate SameType(a: Node, b: Node) {
    KindOf(a) == KindOf(b)
  }

  /** Python truthiness. */
  predicate Truthy(n: Node) {
    match n
    case DNE => false
    case Scalar(a) =>
      (match a
       case Str(s) => |s| > 0
       case Int(i) => i != 0
       case Bool(b) => b
       case Null => false)
    case Seq(items) => |items| > 0
    case Map(entries) => |entries| > 0
  }

  function Keys(es: seq<Entry>): (r: seq<string>)
    ensures |r| == |es|
    ensures forall i :: 0 <= i < |es| ==> r[i] == es[i].key
    decreases |es|
  {
    if |es| == 0 then [] else [es[0].key] + Keys(es[1..])
  }

  lemma KeysCons(e: Entry, es: seq<Entry>)
    ensures Keys([e] + es) == [e.key] + Keys(es)
  {
    assert ([e] + es)[1..] == es;
  }

  /** No key occurs twice, as in every Python mapping. */
  predicate UniqueKeys(es: seq<Entry>) {
    forall i, j :: 0 <= i < j < |es| ==> es[i].key != es[j].key
  }

  /** The value stored under `k`, if any. */
  function Lookup(es: seq<Entry>, k: string): (r: Option<Node>)
    ensures r.None? <==> k !in Keys(es)
    ensures r.Some? ==> exists i :: 0 <= i < |es| && es[i] == Entry(k, r.value)
    decreases |es|
  {
    if |es| == 0 then None
    else if es[0].key == k then Some(es[0].value)
    else
      var r := Lookup(es[1..], k);
      assert Keys(es) == [es[0].key] + Keys(es[1..]);
      assert r.Some? ==> es[1..][0..] == es[1..];
      r
  }

  /** `d.get(k, DNE)`. */
  function Get(es: seq<Entry>, k: string): Node {
    Lookup(es, k).GetOr(DNE)
  }

  /** `d[k] = v`: an existing key keeps its place, a new key goes last. */
  function Put(es: seq<Entry>, k: string, v: Node): (r: seq<Entry>)
    ensures Lookup(r, k) == Some(v)
    ensures forall k' :: k' != k ==> Lookup(r, k') == Lookup(es, k')
    decreases |es|
  {
    if |es| == 0 then [Entry(k, v)]
    else if es[0].key == k then [Entry(k, v)] + es[1..]
    else [es[0]] + Put(es[1..], k, v)
  }

  /** The keys after `d[k] = v`: unchanged when `k` was there, `k` added last
      otherwise; so keys stay unique. */
  lemma PutKeys(es: seq<Entry>, k: string, v: Node)
    ensures Keys(Put(es, k, v)) == if k in Keys(es) then Keys(es) else Keys(es) + [k]
    ensures UniqueKeys(es) ==> UniqueKeys(Put(es, k, v))
  {
    PutKeysOrder(es, k, v);
    if UniqueKeys(es) {
      PutUnique(es, k, v);
    }
  }

  lemma {:induction false} PutKeysOrder(es: seq<Entry>, k: string, v: Node)
    ensures Keys(Put(es, k, v)) == if k in Keys(es) then Keys(es) else Keys(es) + [k]
    decreases |es|
  {
    if |es| > 0 {
      if es[0].key != k {
        var rest := Put(es[1..], k, v);
        PutKeysOrder(es[1..], k, v);
        KeysCons(es[0], rest);
        KeysCons(es[0], es[1..]);
        Assoc([es[0].key], Keys(es[1..]), [k]);
      } else {
        KeysCons(Entry(k, v), es[1..]);
        KeysCons(es[0], es[1..]);
      }
    }
  }

  lemma {:induction false} PutUnique(es: seq<Entry>, k: string, v: Node)
    requires UniqueKeys(es)
    ensures UniqueKeys(Put(es, k, v))
    decreases |es|
  {
    if |es| > 0 {
      UniqueTail(es);
      if es[0].key != k {
        var rest := Put(es[1..], k, v);
        PutUnique(es[1..], k, v);
        PutKeysOrder(es[1..], k, v);
        UniqueCons(es[0], rest);
      } else {
        UniqueCons(Entry(k, v), es[1..]);
      }
    }
  }

  lemma UniqueTail(es: seq<Entry>)
    requires |es| > 0 && UniqueKeys(es)
    ensures UniqueKeys(es[1..]) && es[0].key !in Keys(es[1..])
  {
    assert forall j :: 0 <= j < |es[1..]| ==> es[1..][j] == es[j + 1];
  }

  /** Prepending an entry whose key is new keeps keys unique. */
  lemma UniqueCons(e: Entry, es: seq<Entry>)
    requires UniqueKeys(es) && e.key !in Keys(es)
    ensures UniqueKeys([e] + es)
  {
    var r := [e] + es;
    assert forall m :: 0 < m < |r| ==> r[m] == es[m - 1];
    forall j | 0 < j < |r|
      ensures r[0].key != r[j].key
    {
      assert Keys(es)[j - 1] == es[j - 1].key;
    }
  }

  /** Key prefixes compose: keys that keep their place through two writes
      keep it through both. */
  lemma PrefixTrans(a: seq<string>, b: seq<string>, c: seq<string>)
    requires a <= b && b <= c
    ensures a <= c
  {
    assert c[..|a|] == b[..|a|];
  }

  /** `del d[k]` when `k` is present; nothing otherwise. */
  function Remove(es: seq<Entry>, k: string): (r: seq<Entry>)
    ensures |r| <= |es|
    decreases |es|
  {
    if |es| == 0 then []
    else if es[0].key == k then Remove(es[1..], k)
    else [es[0]] + Remove(es[1..], k)
  }

  /** After a delete the key is absent, every other key reads as before,
      only entries of the mapping remain, and unique keys stay unique. */
  lemma RemoveSpec(es: seq<Entry>, k: string)
    ensures Lookup(Remove(es, k), k) == None
    ensures forall k' :: k' != k ==> Lookup(Remove(es, k), k') == Lookup(es, k')
    ensures forall i :: 0 <= i < |Remove(es, k)| ==> Remove(es, k)[i] in es
    ensures UniqueKeys(es) ==> UniqueKeys(Remove(es, k))
  {
    forall k' ensures Lookup(Remove(es, k), k') == if k' == k then None else Lookup(es, k') {
      RemoveLookup(es, k, k');
    }
    RemoveMembers(es, k);
    if UniqueKeys(es) {
      RemoveUnique(es, k);
    }
  }

  lemma {:induction false} RemoveLookup(es: seq<Entry>, k: string, k': string)
    ensures Lookup(Remove(es, k), k') == if k' == k then None else Lookup(es, k')
    decreases |es|
  {
    if |es| > 0 {
      RemoveLookup(es[1..], k, k');
    }
  }

  lemma {:induction false} RemoveMembers(es: seq<Entry>, k: string)
    ensures forall i :: 0 <= i < |Remove(es, k)| ==> Remove(es, k)[i] in es
    decreases |es|
  {
    if |es| > 0 {
      var rest := Remove(es[1..], k);
      RemoveMembers(es[1..], k);
      forall i | 0 <= i < |Remove(es, k)| ensures Remove(es, k)[i] in es {
        if es[0].key != k && i == 0 {
        } else {
          var j := if es[0].key != k then i - 1 else i;
          assert Remove(es, k)[i] == rest[j];
          assert rest[j] in es[1..];
        }
      }
    }
  }

  lemma {:induction false} RemoveUnique(es: seq<Entry>, k: string)
    requires UniqueKeys(es)
    ensures UniqueKeys(Remove(es, k))
    decreases |es|
  {
    if |es| > 0 {
      var rest := Remove(es[1..], k);
      UniqueTail(es);
      RemoveUnique(es[1..], k);
      if es[0].key != k {
        assert es[0].key !in Keys(rest) by {
          RemoveLookup(es[1..], k, es[0].key);
        }
        UniqueCons(es[0], rest);
      }
    }
  }

  /** The importer's `safeget`: an in-range integer index of a list, the
      value under a key of a mapping, and DNE for everything else. */
  function SafeGet(data: Node, key: Key): (r: Node)
    ensures data.Seq? && key.Index? && 0 <= key.index < |data.items| ==> r == data.items[key.index]
    ensures data.Map? && key.Name? ==> (r == DNE <==> Lookup(data.entries, key.name) in {None, Some(DNE)})
    ensures data.Map? && key.Name? && key.name in Keys(data.entries) ==> Some(r) == Lookup(data.entries, key.name)
    ensures !(data.Seq? && key.Index? && 0 <= key.index < |data.items|) && !(data.Map? && key.Name?) ==> r == DNE
  {
    match data
    case Seq(items) =>
      if key.Index? && 0 <= key.index < |items| then items[key.index] else DNE
    case Map(entries) =>
      if key.Name? then Get(entries, key.name) else DNE
    case _ => DNE
  }

  /** What a subscript assignment stores, `safeget` reads back. */
  lemma SafeGetPut(es: seq<Entry>, k: string, v: Node, k': string)
    ensures SafeGet(Map(Put(es, k, v)), Name(k')) == if k' == k then v else SafeGet(Map(es), Name(k'))
  {
  }

  /** The depth of nesting, which bounds the merge's recursion. */
  function Height(n: Node): nat {
    match n
    case Seq(items) => 1 + MaxHeight(items)
    case Map(entries) => 1 + MaxEntryHeight(entries)
    case _ => 0
  }

  function MaxHeight(items: seq<Node>): (r: nat)
    ensures forall i :: 0 <= i < |items| ==> Height(items[i]) <= r
    decreases items
  {
    if |items| == 0 then 0
    else
      var h := Height(items[0]);
      var t := MaxHeight(items[1..]);
      assert forall i :: 1 <= i < |items| ==> items[i] == items[1..][i - 1];
      if h < t then t else h
  }

  function MaxEntryHeight(es: seq<Entry>): (r: nat)
    ensures forall i :: 0 <= i < |es| ==> Height(es[i].value) <= r
    decreases es
  {
    if |es| == 0 then 0
    else
      var h := Height(es[0].value);
      var t := MaxEntryHeight(es[1..]);
      assert forall i :: 1 <= i < |es| ==> es[i] == es[1..][i - 1];
      if h < t then t else h
  }

  /** A bound on every item bounds their maximum. */
  lemma {:induction false} MaxHeightBound(items: seq<Node>, h: nat)
    requires forall i :: 0 <= i < |items| ==> Height(items[i]) <= h
    ensures MaxHeight(items) <= h
    decreases |items|
  {
    if |items| > 0 {
      MaxHeightBound(items[1..], h);
    }
  }
}

=== FILE: prune.dfy ===
/** `prune(data)` of the `data_util` module: drop the None values from a
    tree before it is written back.

    As written, `target` is bound only in the mapping branch, and every call
    ends with `return target`; so a list, a scalar, or a mapping holding a
    non-None list or scalar at any depth, raises UnboundLocalError. Only
    trees of nested mappings are pruned. `PruneAsWritten` models that;
    the evidently intended pruning, which drops None from lists as well and
    returns scalars unchanged, is `Prune`. */
module Prune {
  import opened Wrappers
  import opened Nodes
  import opened Pruning

  /** The intended pruning: every None stored in a list or mapping goes. */
  function Prune(n: Node): (r: Node)
    ensures Free(NoneValue, r)
    ensures Free(NoneValue, n) ==> r == n
  {
    DropFree(NoneValue, n);
    if Free(NoneValue, n) then DropIdentity(NoneValue, n); Drop(NoneValue, n) else Drop(NoneValue, n)
  }

  function PruneAsWritten(n: Node): (r: Result<Node>)
    ensures r.Ok? ==> n.Map? && r.value.Map?
  {
    match n
    case Map(es) =>
      var es' :- PruneEntriesAsWritten(es);
      Ok(Map(es'))
    case _ => Fail("UnboundLocalError")
  }

  /** The loop filling the fresh mapping `target`. */
  function PruneEntriesAsWritten(es: seq<Entry>): Result<seq<Entry>>
    decreases es
  {
    if |es| == 0 then Ok([])
    else if es[0].value == NoneValue then PruneEntriesAsWritten(es[1..])
    else
      var v :- PruneAsWritten(es[0].value);
      var rest :- PruneEntriesAsWritten(es[1..]);
      Ok([Entry(es[0].key, v)] + rest)
  }

  /** A mapping whose every value is None or again such a mapping. */
  predicate Prunable(n: Node) {
    n.Map? && PrunableEntries(n.entries)
  }

  predicate PrunableEntries(es: seq<Entry>)
    decreases es
  {
    forall i :: 0 <= i < |es| ==> es[i].value == NoneValue || Prunable(es[i].value)
  }

  /** The code as written succeeds exactly on such trees, and there agrees
      with the intended pruning. */
  lemma {:induction false} AsWrittenAgrees(n: Node)
    ensures PruneAsWritten(n).Ok? <==> Prunable(n)
    ensures PruneAsWritten(n).Ok? ==> PruneAsWritten(n).value == Drop(NoneValue, n)
    decreases n
  {
    if n.Map? {
      EntriesAsWrittenAgree(n.entries);
    }
  }

  lemma {:induction false} EntriesAsWrittenAgree(es: seq<Entry>)
    ensures PruneEntriesAsWritten(es).Ok? <==> PrunableEntries(es)
    ensures PruneEntriesAsWritten(es).Ok? ==> PruneEntriesAsWritten(es).value == DropEntries(NoneValue, es)
    decreases es
  {
    if |es| > 0 {
      assert forall i :: 1 <= i < |es| ==> es[1..][i - 1] == es[i];
      EntriesAsWrittenAgree(es[1..]);
      AsWrittenAgrees(es[0].value);
    }
  }

  /** `{"a": 1}`: the code as written raises, the intended pruning leaves
      it as it is. */
  lemma AsWrittenRaisesOnScalarValue()
    ensures PruneAsWritten(Map([Entry("a", Scalar(Int(1)))])).Fail?
    ensures Prune(Map([Entry("a", Scalar(Int(1)))])) == Map([Entry("a", Scalar(Int(1)))])
  {
    var es := [Entry("a", Scalar(Int(1)))];
    assert es[1..] == [];
    assert Free(NoneValue, Map(es));
  }
}

=== FILE: pruning.dfy ===
/** Removing a placeholder value from every list and mapping of a tree:
    `clearDNE` removes DNE, `prune` removes None. The placeholder is the
    parameter `gap`; a tree that is itself the placeholder, or a scalar, is
    returned as it is. */
module Pruning {
  import opened Wrappers
  import opened Nodes

  /** The placeholders the importer uses, DNE and None, are not containers;
      so pruning a container never turns it into the placeholder. */
  predicate Atomic(gap: Node) {
    gap.DNE? || gap.Scalar?
  }

  /** No list or mapping of the tree stores the placeholder. */
  predicate Free(gap: Node, n: Node)
    decreases n
  {
    match n
    case Seq(items) => FreeItems(gap, items)
    case Map(es) => FreeEntries(gap, es)
    case _ => true
  }

  predicate FreeItems(gap: Node, items: seq<Node>)
    decreases items
  {
    forall i :: 0 <= i < |items| ==> items[i] != gap && Free(gap, items[i])
  }

  predicate FreeEntries(gap: Node, es: seq<Entry>)
    decreases es
  {
    forall i :: 0 <= i < |es| ==> es[i].value != gap && Free(gap, es[i].value)
  }

  /** The items other than the placeholder, in their order. */
  function Present(gap: Node, items: seq<Node>): (r: seq<Node>)
    ensures |r| <= |items|
    ensures forall i :: 0 <= i < |r| ==> r[i] != gap && r[i] in items
    ensures forall i :: 0 <= i < |items| && items[i] != gap ==> items[i] in r
  {
    if |items| == 0 then []
    else
      var rest := Present(gap, items[1..]);
      assert forall i :: 1 <= i < |items| ==> items[i] == items[1..][i - 1];
      if items[0] == gap then rest else [items[0]] + rest
  }

  /** Filtering respects concatenation, so the survivors keep their relative
      order. */
  lemma {:induction false} PresentAppend(gap: Node, a: seq<Node>, b: seq<Node>)
    ensures Present(gap, a + b) == Present(gap, a) + Present(gap, b)
    decreases |a|
  {
    if |a| > 0 {
      assert (a + b)[1..] == a[1..] + b;
      PresentAppend(gap, a[1..], b);
    } else {
      assert a + b == b;
    }
  }

  function Drop(gap: Node, n: Node): (r: Node)
    ensures KindOf(r) == KindOf(n)
    ensures n.Seq? ==> |r.items| == |Present(gap, n.items)|
    ensures n.Map? ==> |r.entries| <= |n.entries|
    decreases n
  {
    match n
    case Seq(items) => Seq(DropItems(gap, items))
    case Map(es) => Map(DropEntries(gap, es))
    case _ => n
  }

  function DropItems(gap: Node, items: seq<Node>): (r: seq<Node>)
    ensures |r| == |Present(gap, items)|
    decreases items
  {
    if |items| == 0 then []
    else if items[0] == gap then DropItems(gap, items[1..])
    else [Drop(gap, items[0])] + DropItems(gap, items[1..])
  }

  function DropEntries(gap: Node, es: seq<Entry>): (r: seq<Entry>)
    ensures |r| <= |es|
    decreases es
  {
    if |es| == 0 then []
    else if es[0].value == gap then DropEntries(gap, es[1..])
    else [Entry(es[0].key, Drop(gap, es[0].value))] + DropEntries(gap, es[1..])
  }

  /** A list is pruned by dropping the placeholders, keeping the order of
      the rest, and pruning each survivor. */
  lemma {:induction false} DropItemsPresent(gap: Node, items: seq<Node>)
    ensures forall i :: 0 <= i < |Present(gap, items)| ==>
      DropItems(gap, items)[i] == Drop(gap, Present(gap, items)[i])
    decreases |items|
  {
    if |items| > 0 {
      var rest := Present(gap, items[1..]);
      var dropped := DropItems(gap, items[1..]);
      assert |dropped| == |rest| && forall i :: 0 <= i < |rest| ==> dropped[i] == Drop(gap, rest[i]) by {
        DropItemsPresent(gap, items[1..]);
      }
      if items[0] == gap {
        assert Present(gap, items) == rest && DropItems(gap, items) == dropped;
      } else {
        assert Present(gap, items) == [items[0]] + rest;
        assert DropItems(gap, items) == [Drop(gap, items[0])] + dropped;
        DropCons(gap, items[0], rest, dropped);
      }
    }
  }

  lemma DropCons(gap: Node, n: Node, rest: seq<Node>, dropped: seq<Node>)
    requires |dropped| == |rest| && forall i :: 0 <= i < |rest| ==> dropped[i] == Drop(gap, rest[i])
    ensures forall i :: 0 <= i < |[n] + rest| ==> ([Drop(gap, n)] + dropped)[i] == Drop(gap, ([n] + rest)[i])
  {
  }

  /** A mapping keeps exactly its keys whose value is not the placeholder,
      each with its value pruned. */
  lemma {:induction false} DropEntriesLookup(gap: Node, es: seq<Entry>, k: string)
    requires UniqueKeys(es)
    ensures Lookup(DropEntries(gap, es), k) ==
      match Lookup(es, k)
      case None => None
      case Some(v) => if v == gap then None else Some(Drop(gap, v))
    decreases |es|
  {
    if |es| > 0 {
      UniqueTail(es);
      DropEntriesLookup(gap, es[1..], k);
      DropEntriesKeys(gap, es[1..]);
    }
  }

  lemma {:induction false} DropEntriesKeys(gap: Node, es: seq<Entry>)
    ensures forall k :: k in Keys(DropEntries(gap, es)) ==> k in Keys(es)
    decreases |es|
  {
    if |es| > 0 {
      DropEntriesKeys(gap, es[1..]);
      KeysCons(es[0], es[1..]);
      if es[0].value != gap {
        KeysCons(Entry(es[0].key, Drop(gap, es[0].value)), DropEntries(gap, es[1..]));
      }
    }
  }

  /** Nothing is left to prune. */
  lemma {:induction false} DropFree(gap: Node, n: Node)
    requires Atomic(gap)
    ensures Free(gap, Drop(gap, n))
    decreases n
  {
    match n
    case Seq(items) => DropItemsFree(gap, items);
    case Map(es) => DropEntriesFree(gap, es);
    case _ =>
  }

  lemma {:induction false} DropItemsFree(gap: Node, items: seq<Node>)
    requires Atomic(gap)
    ensures FreeItems(gap, DropItems(gap, items))
    decreases items
  {
    if |items| > 0 {
      DropItemsFree(gap, items[1..]);
      if items[0] != gap {
        DropFree(gap, items[0]);
        FreeItemsCons(gap, Drop(gap, items[0]), DropItems(gap, items[1..]));
      }
    }
  }

  lemma {:induction false} DropEntriesFree(gap: Node, es: seq<Entry>)
    requires Atomic(gap)
    ensures FreeEntries(gap, DropEntries(gap, es))
    decreases es
  {
    if |es| > 0 {
      DropEntriesFree(gap, es[1..]);
      if es[0].value != gap {
        DropFree(gap, es[0].value);
        FreeEntriesCons(gap, Entry(es[0].key, Drop(gap, es[0].value)), DropEntries(gap, es[1..]));
      }
    }
  }

  lemma FreeItemsCons(gap: Node, n: Node, rest: seq<Node>)
    requires n != gap && Free(gap, n) && FreeItems(gap, rest)
    ensures FreeItems(gap, [n] + rest)
  {
    assert forall i :: 1 <= i < |[n] + rest| ==> ([n] + rest)[i] == rest[i - 1];
  }

  lemma FreeEntriesCons(gap: Node, e: Entry, rest: seq<Entry>)
    requires e.value != gap && Free(gap, e.value) && FreeEntries(gap, rest)
    ensures FreeEntries(gap, [e] + rest)
  {
    assert forall i :: 1 <= i < |[e] + rest| ==> ([e] + rest)[i] == rest[i - 1];
  }

  /** A tree without the placeholder is left as it is. */
  lemma {:induction false} DropIdentity(gap: Node, n: Node)
    requires Free(gap, n)
    ensures Drop(gap, n) == n
    decreases n
  {
    match n
    case Seq(items) => DropItemsIdentity(gap, items);
    case Map(es) => DropEntriesIdentity(gap, es);
    case _ =>
  }

  lemma {:induction false} DropItemsIdentity(gap: Node, items: seq<Node>)
    requires FreeItems(gap, items)
    ensures DropItems(gap, items) == items
    decreases items
  {
    if |items| > 0 {
      var tail := items[1..];
      assert FreeItems(gap, tail) by {
        assert forall i :: 0 <= i < |tail| ==> tail[i] == items[i + 1];
      }
      DropItemsIdentity(gap, tail);
      DropIdentity(gap, items[0]);
      assert DropItems(gap, items) == [items[0]] + tail;
    }
  }

  lemma {:induction false} DropEntriesIdentity(gap: Node, es: seq<Entry>)
    requires FreeEntries(gap, es)
    ensures DropEntries(gap, es) == es
    decreases es
  {
    if |es| > 0 {
      assert forall i :: 1 <= i < |es| ==> es[1..][i - 1] == es[i];
      DropEntriesIdentity(gap, es[1..]);
      DropIdentity(gap, es[0].value);
    }
  }

  /** Pruning twice prunes no more than once. */
  lemma DropIdempotent(gap: Node, n: Node)
    requires Atomic(gap)
    ensures Drop(gap, Drop(gap, n)) == Drop(gap, n)
  {
    DropFree(gap, n);
    DropIdentity(gap, Drop(gap, n));
  }
}

=== FILE: pyint.dfy ===
/** Python's `int(s)` on a string, restricted to ASCII decimal digits, and the
    decimal rendering `str(n)` it inverts. */
module PyInt {
  import opened Wrappers
  import opened PyStr

  predicate IsDigit(c: char) {
    '0' <= c <= '9'
  }

  function DigitValue(c: char): nat
    requires IsDigit(c)
  {
    (c as int) - ('0' as int)
  }

  function DigitChar(d: nat): (c: char)
    requires d < 10
    ensures IsDigit(c) && DigitValue(c) == d
  {
    ('0' as int + d) as char
  }

  /** Digits and underscores only. */
  predicate DigitsOrUnderscores(t: string) {
    forall i :: 0 <= i < |t| ==> IsDigit(t[i]) || t[i] == '_'
  }

  /** The body of a decimal literal as `int()` accepts it: digits, with single
      underscores allowed between two digits. */
  predicate WellFormedDigits(t: string) {
    && |t| > 0
    && DigitsOrUnderscores(t)
    && IsDigit(t[0]) && IsDigit(t[|t| - 1])
    && (forall i :: 0 <= i < |t| - 1 ==> !(t[i] == '_' && t[i + 1] == '_'))
  }

  /** The value of the digits, underscores ignored. */
  function DigitsValue(t: string): nat
    requires DigitsOrUnderscores(t)
    decreases |t|
  {
    if |t| == 0 then 0
    else if t[|t| - 1] == '_' then DigitsValue(t[..|t| - 1])
    else 10 * DigitsValue(t[..|t| - 1]) + DigitValue(t[|t| - 1])
  }

  /** Python's `int(s)`: `None` where Python raises `ValueError`. Surrounding
      whitespace is ignored and one leading sign is allowed. */
  function ParseInt(s: string): (r: Option<int>)
    ensures r.Some? ==> |Strip(s)| > 0
    ensures r.Some? && r.value < 0 ==> Strip(s)[0] == '-'
  {
    ParseLiteral(Strip(s))
  }

  /** `int()` on text whose surrounding whitespace is already gone. */
  function ParseLiteral(t: string): (r: Option<int>)
    ensures r.Some? ==> |t| > 0
    ensures r.Some? && r.value < 0 ==> t[0] == '-'
  {
    if |t| > 0 && (t[0] == '+' || t[0] == '-') then
      var d := t[1..];
      if WellFormedDigits(d) then
        var m: int := DigitsValue(d);
        var v := if t[0] == '-' then -m else m;
        Some(v)
      else None
    else if WellFormedDigits(t) then Some(DigitsValue(t))
    else None
  }

  /** Python's `str(n)` for a natural number. */
  function ShowNat(n: nat): (r: string)
    ensures WellFormedDigits(r)
    ensures DigitsValue(r) == n
    decreases n
  {
    if n < 10 then [DigitChar(n)]
    else
      var p := ShowNat(n / 10);
      var r := p + [DigitChar(n % 10)];
      assert r[..|r| - 1] == p;
      r
  }

  /** Python's `str(n)`. */
  function Show(n: int): (r: string)
    ensures |r| > 0 && !IsSpace(r[0]) && !IsSpace(r[|r| - 1])
  {
    if n < 0 then "-" + ShowNat(-n) else ShowNat(n)
  }

  /** `int(str(n)) == n`. */
  lemma ParseShow(n: int)
    ensures ParseInt(Show(n)) == Some(n)
  {
    var s := Show(n);
    assert Strip(s) == s;
    if n < 0 {
      assert s[1..] == ShowNat(-n);
    }
  }

  predicate IntChar(c: char) {
    IsDigit(c) || c == '_' || c == '+' || c == '-'
  }

  /** What `int()` accepts is, once stripped, made of digits, underscores and
      signs only. */
  lemma ParseIntChars(s: string)
    requires ParseInt(s).Some?
    ensures forall i :: 0 <= i < |Strip(s)| ==> IntChar(Strip(s)[i])
  {
    var t := Strip(s);
    if t[0] == '+' || t[0] == '-' {
      var d := t[1..];
      forall i | 1 <= i < |t|
        ensures IntChar(t[i])
      {
        assert t[i] == d[i - 1];
      }
    }
  }

  /** A token holding anything besides whitespace, digits, underscores and
      signs is not an integer. */
  lemma ParseRejects(s: string, i: nat)
    requires i < |s|
    requires !IsSpace(s[i]) && !IntChar(s[i])
    ensures ParseInt(s) == None
  {
    if ParseInt(s).Some? {
      ParseIntChars(s);
      StripChars(s);
      assert false;
    }
  }
}

=== FILE: pystr.dfy ===
/** The few Python `str` methods the directive lexer and the scheduler lean on,
    with the semantics CPython gives them for a non-empty separator:
    `find`, `split(sep)`, `split(sep, 1)`, `sep.join`, `strip()`,
    one-character `replace`, and `replace` of a longer substring. */
module PyStr {
  import opened Wrappers

  /** The characters `str.isspace` accepts, which `str.strip()` removes. */
  predicate IsSpace(c: char) {
    || c == ' ' || c == '\t' || c == '\n' || c == '\r' || c == '\U{B}' || c == '\U{C}'
    || ('\U{1C}' <= c <= '\U{1F}') || c == '\U{85}' || c == '\U{A0}' || c == '\U{1680}'
    || ('\U{2000}' <= c <= '\U{200A}') || c == '\U{2028}' || c == '\U{2029}'
    || c == '\U{202F}' || c == '\U{205F}' || c == '\U{3000}'
  }

  /** `sep` occurs in `s` starting at index `i`. */
  predicate OccursAt(s: string, sep: string, i: int) {
    0 <= i && i + |sep| <= |s| && s[i..i + |sep|] == sep
  }

  /** Python's `sep in s`. */
  predicate Contains(s: string, sep: string) {
    exists i | 0 <= i <= |s| :: OccursAt(s, sep, i)
  }

  lemma OccursInPrefix(s: string, sep: string, n: nat, j: int)
    requires n <= |s|
    requires OccursAt(s[..n], sep, j)
    ensures OccursAt(s, sep, j)
  {
    assert s[..n][j..j + |sep|] == s[j..j + |sep|];
  }

  lemma OccursInSuffix(s: string, sep: string, n: nat, j: int)
    requires n <= |s|
    requires OccursAt(s[n..], sep, j)
    ensures OccursAt(s, sep, n + j)
  {
    assert s[n..][j..j + |sep|] == s[n + j..n + j + |sep|];
  }

  /** A one-character separator occurs exactly where that character stands. */
  lemma OccursAtChar(s: string, c: char, i: int)
    ensures OccursAt(s, [c], i) <==> 0 <= i < |s| && s[i] == c
  {
    if 0 <= i < |s| {
      assert s[i..i + 1] == [s[i]];
    }
  }

  lemma ContainsChar(s: string, c: char)
    ensures Contains(s, [c]) <==> c in s
  {
    if c in s {
      var i :| 0 <= i < |s| && s[i] == c;
      OccursAtChar(s, c, i);
    }
    if Contains(s, [c]) {
      var i :| OccursAt(s, [c], i);
      OccursAtChar(s, c, i);
    }
  }

  function FindFrom(s: string, sep: string, k: nat): (r: Option<nat>)
    requires |sep| > 0
    ensures r.Some? ==> k <= r.value && OccursAt(s, sep, r.value)
    ensures r.Some? ==> forall j :: k <= j < r.value ==> !OccursAt(s, sep, j)
    ensures r.None? ==> forall j :: k <= j ==> !OccursAt(s, sep, j)
    decreases |s| - k
  {
    if k + |sep| > |s| then None
    else if s[k..k + |sep|] == sep then Some(k)
    else FindFrom(s, sep, k + 1)
  }

  /** Python's `s.find(sep)`, with `None` for -1: the first occurrence. */
  function Find(s: string, sep: string): (r: Option<nat>)
    requires |sep| > 0
    ensures r.Some? ==> OccursAt(s, sep, r.value)
    ensures r.Some? ==> forall j :: 0 <= j < r.value ==> !OccursAt(s, sep, j)
    ensures r.None? <==> !Contains(s, sep)
  {
    FindFrom(s, sep, 0)
  }

  /** Where a separator-free text is followed by the separator, that is where
      the first occurrence is. */
  lemma FindAfterFree(x: string, sep: string, y: string)
    requires |sep| > 0
    requires forall j :: 0 <= j < |x| ==> !OccursAt(x + sep + y, sep, j)
    ensures Find(x + sep + y, sep) == Some(|x|)
  {
    var s := x + sep + y;
    assert s[|x|..|x| + |sep|] == sep;
    assert OccursAt(s, sep, |x|);
  }

  /** The single-character form of `FindAfterFree`. */
  lemma FindCharAfterFree(x: string, c: char, y: string)
    requires c !in x
    ensures Find(x + [c] + y, [c]) == Some(|x|)
  {
    var s := x + [c] + y;
    forall j | 0 <= j < |x|
      ensures !OccursAt(s, [c], j)
    {
      OccursAtChar(s, c, j);
      assert s[j] == x[j];
    }
    FindAfterFree(x, [c], y);
  }

  /** Python's `s.split(sep)` for a non-empty `sep`: never empty. */
  function Split(s: string, sep: string): (r: seq<string>)
    requires |sep| > 0
    ensures |r| >= 1
    decreases |s|
  {
    match Find(s, sep)
    case None => [s]
    case Some(i) =>
      [s[..i]] + Split(s[i + |sep|..], sep)
  }

  /** No piece of a split holds the separator. */
  lemma {:induction false} SplitPiecesFree(s: string, sep: string, i: nat)
    requires |sep| > 0 && i < |Split(s, sep)|
    ensures !Contains(Split(s, sep)[i], sep)
    decreases |s|
  {
    match Find(s, sep)
    case None =>
    case Some(k) =>
      var rest := s[k + |sep|..];
      assert Split(s, sep) == [s[..k]] + Split(rest, sep);
      if i == 0 {
        if Contains(s[..k], sep) {
          var j :| 0 <= j <= k && OccursAt(s[..k], sep, j);
          OccursInPrefix(s, sep, k, j);
        }
      } else {
        SplitPiecesFree(rest, sep, i - 1);
      }
  }

  /** Python's `s.split(sep, 1)`: one piece when `sep` is absent, else the
      text before and after its first occurrence. */
  function SplitOnce(s: string, sep: string): (r: seq<string>)
    requires |sep| > 0
    ensures 1 <= |r| <= 2
    ensures |r| == 1 <==> !Contains(s, sep)
    ensures |r| == 1 ==> r[0] == s
    ensures |r| == 2 ==> r[0] + sep + r[1] == s && !Contains(r[0], sep)
  {
    match Find(s, sep)
    case None => [s]
    case Some(i) =>
      assert s == s[..i] + sep + s[i + |sep|..];
      assert !Contains(s[..i], sep) by {
        if Contains(s[..i], sep) {
          var j :| OccursAt(s[..i], sep, j);
          OccursInPrefix(s, sep, i, j);
        }
      }
      [s[..i], s[i + |sep|..]]
  }

  /** Python's `sep.join(parts)`. */
  function Join(parts: seq<string>, sep: string): string
    decreases |parts|
  {
    if |parts| == 0 then ""
    else if |parts| == 1 then parts[0]
    else parts[0] + sep + Join(parts[1..], sep)
  }

  lemma Assoc<T>(a: seq<T>, b: seq<T>, c: seq<T>)
    ensures a + b + c == a + (b + c)
  {
  }

  /** Python's `"".join(parts)`. */
  function Concat(parts: seq<string>): string
    decreases |parts|
  {
    if |parts| == 0 then "" else parts[0] + Concat(parts[1..])
  }

  lemma ConcatAppend(a: seq<string>, b: seq<string>)
    ensures Concat(a + b) == Concat(a) + Concat(b)
    decreases |a|
  {
    if |a| > 0 {
      assert (a + b)[1..] == a[1..] + b;
      ConcatAppend(a[1..], b);
    } else {
      assert a + b == b;
    }
  }

  /** Splitting and joining with the same separator give back the text. */
  lemma {:induction false} SplitJoin(s: string, sep: string)
    requires |sep| > 0
    ensures Join(Split(s, sep), sep) == s
    decreases |s|
  {
    match Find(s, sep)
    case None =>
    case Some(i) =>
      var rest := s[i + |sep|..];
      var tail := Split(rest, sep);
      SplitJoin(rest, sep);
      var parts := [s[..i]] + tail;
      assert Split(s, sep) == parts;
      assert parts[1..] == tail;
      assert Join(parts, sep) == s[..i] + sep + Join(tail, sep);
      assert s == s[..i] + sep + rest;
  }

  /** Joining separator-free pieces with a one-character separator and
      splitting again gives back the pieces. */
  lemma {:induction false} JoinSplit(parts: seq<string>, c: char)
    requires |parts| >= 1
    requires forall i :: 0 <= i < |parts| ==> c !in parts[i]
    ensures Split(Join(parts, [c]), [c]) == parts
    decreases |parts|
  {
    if |parts| == 1 {
      var s := parts[0];
      ContainsChar(s, c);
    } else {
      var rest := Join(parts[1..], [c]);
      assert Join(parts, [c]) == parts[0] + [c] + rest;
      assert Split(rest, [c]) == parts[1..] by {
        JoinSplit(parts[1..], c);
      }
      SplitCharCons(parts[0], c, rest);
      assert parts == [parts[0]] + parts[1..];
    }
  }

  /** The first piece of a split, when the separator follows a separator-free
      prefix. */
  lemma SplitCharCons(x: string, c: char, y: string)
    requires c !in x
    ensures Split(x + [c] + y, [c]) == [x] + Split(y, [c])
  {
    var s := x + [c] + y;
    FindCharAfterFree(x, c, y);
    assert s[..|x|] == x;
    assert s[|x| + 1..] == y;
  }

  /** A leading separator splits off an empty first piece. */
  lemma SplitLeading(c: char, y: string)
    ensures Split([c] + y, [c]) == [""] + Split(y, [c])
  {
    assert "" + [c] + y == [c] + y;
    SplitCharCons("", c, y);
  }

  /** A separator-free text between two separators is the second piece,
      after an empty one. */
  lemma SplitWrapped(c: char, x: string, y: string)
    requires c !in x
    ensures Split([c] + x + [c] + y, [c]) == ["", x] + Split(y, [c])
  {
    var tail := x + [c] + y;
    assert [c] + x + [c] + y == [c] + tail;
    SplitLeading(c, tail);
    SplitCharCons(x, c, y);
  }

  /** A text without the separator splits into itself. */
  lemma SplitFree(s: string, sep: string)
    requires |sep| > 0
    requires !Contains(s, sep)
    ensures Split(s, sep) == [s]
  {
  }

  lemma SplitCharFree(s: string, c: char)
    requires c !in s
    ensures Split(s, [c]) == [s]
  {
    ContainsChar(s, c);
  }

  /** A separator with a character the text lacks does not occur in it. */
  lemma AbsentChar(s: string, sep: string, k: nat)
    requires k < |sep| && sep[k] !in s
    ensures !Contains(s, sep)
  {
    forall i | 0 <= i <= |s|
      ensures !OccursAt(s, sep, i)
    {
      if i + |sep| <= |s| {
        assert s[i..i + |sep|][k] == s[i + k];
      }
    }
  }

  /** The split of `s` at its first occurrence of `c`. */
  lemma FirstChar(s: string, c: char) returns (x: string, y: string)
    requires c in s
    ensures s == x + [c] + y && c !in x
  {
    ContainsChar(s, c);
    var i := Find(s, [c]).value;
    OccursAtChar(s, c, i);
    x, y := s[..i], s[i + 1..];
    forall j | 0 <= j < |x|
      ensures x[j] != c
    {
      OccursAtChar(s, c, j);
    }
    assert s == x + [c] + y;
  }

  /** A prefix in which no occurrence starts shifts the first occurrence. */
  lemma FindShift(x: string, y: string, sep: string)
    requires |sep| > 0
    requires forall j :: 0 <= j < |x| ==> !OccursAt(x + y, sep, j)
    ensures Find(x + y, sep) ==
      (match Find(y, sep) case None => None case Some(i) => Some(|x| + i))
  {
    var s := x + y;
    forall j | 0 <= j
      ensures OccursAt(s, sep, |x| + j) <==> OccursAt(y, sep, j)
    {
      if |x| + j + |sep| <= |s| {
        assert s[|x| + j..|x| + j + |sep|] == y[j..j + |sep|];
      }
    }
    match Find(y, sep)
    case None =>
      forall k | 0 <= k <= |s|
        ensures !OccursAt(s, sep, k)
      {
        if k >= |x| {
          assert !OccursAt(y, sep, k - |x|);
        }
      }
    case Some(i) =>
      assert OccursAt(s, sep, |x| + i);
      forall j | 0 <= j < |x| + i
        ensures !OccursAt(s, sep, j)
      {
        if j >= |x| {
          assert !OccursAt(y, sep, j - |x|);
        }
      }
  }

  /** `SplitOnce` across a prefix in which no occurrence starts. */
  lemma SplitOnceShift(x: string, y: string, sep: string)
    requires |sep| > 0
    requires forall j :: 0 <= j < |x| ==> !OccursAt(x + y, sep, j)
    ensures SplitOnce(x + y, sep) == [x + SplitOnce(y, sep)[0]] + SplitOnce(y, sep)[1..]
  {
    FindShift(x, y, sep);
    SplitOnceShifted(x, y, sep);
  }

  /** `SplitOnceShift` once the first occurrence is known to have moved. */
  lemma SplitOnceShifted(x: string, y: string, sep: string)
    requires |sep| > 0
    requires Find(x + y, sep) == (match Find(y, sep) case None => None case Some(i) => Some(|x| + i))
    ensures SplitOnce(x + y, sep) == [x + SplitOnce(y, sep)[0]] + SplitOnce(y, sep)[1..]
  {
    var s := x + y;
    SplitOnceAt(s, sep);
    SplitOnceAt(y, sep);
    match Find(y, sep)
    case None =>
    case Some(i) =>
      var a, b := y[..i], y[i + |sep|..];
      assert s[..|x| + i] == x + a;
      assert s[|x| + i + |sep|..] == b;
      assert [a, b][1..] == [b];
  }

  /** `SplitOnce` in terms of the first occurrence. */
  lemma SplitOnceAt(s: string, sep: string)
    requires |sep| > 0
    ensures Find(s, sep).None? ==> SplitOnce(s, sep) == [s]
    ensures Find(s, sep).Some? ==>
      SplitOnce(s, sep) == [s[..Find(s, sep).value], s[Find(s, sep).value + |sep|..]]
  {
  }

  /** An occurrence fixes every character it covers. */
  lemma OccursChar(s: string, sep: string, j: int, k: nat)
    requires OccursAt(s, sep, j) && k < |sep|
    ensures s[j + k] == sep[k]
  {
    assert s[j..j + |sep|][k] == s[j + k];
  }

  /** A two-character separator occurs where its two characters stand. */
  lemma OccursAtPair(s: string, sep: string, j: int)
    requires |sep| == 2
    ensures OccursAt(s, sep, j) <==> 0 <= j && j + 2 <= |s| && s[j] == sep[0] && s[j + 1] == sep[1]
  {
    if 0 <= j && j + 2 <= |s| {
      assert s[j..j + 2] == [s[j], s[j + 1]];
      assert sep == [sep[0], sep[1]];
    }
  }

  /** A prefix free of the first character of `sep` holds no occurrence. */
  lemma NoOccurrenceIn(x: string, y: string, sep: string)
    requires |sep| > 0 && sep[0] !in x
    ensures forall j :: 0 <= j < |x| ==> !OccursAt(x + y, sep, j)
  {
    forall j | 0 <= j < |x|
      ensures !OccursAt(x + y, sep, j)
    {
      if j + |sep| <= |x + y| {
        assert (x + y)[j..j + |sep|][0] == x[j];
      }
    }
  }

  /** The pieces of `a + b` from the pieces of `a` and of `b`: the last piece
      of the left and the first of the right fuse into one. */
  function Fuse(pa: seq<string>, pb: seq<string>): (r: seq<string>)
    requires |pa| > 0 && |pb| > 0
    ensures |r| == |pa| + |pb| - 1
  {
    pa[..|pa| - 1] + [pa[|pa| - 1] + pb[0]] + pb[1..]
  }

  lemma FuseCons(x: string, py: seq<string>, pb: seq<string>)
    requires |py| > 0 && |pb| > 0
    ensures Fuse([x] + py, pb) == [x] + Fuse(py, pb)
  {
    var pa := [x] + py;
    assert pa[..|pa| - 1] == [x] + py[..|py| - 1];
  }

  /** Only the last piece of the left side takes part in the fusion. */
  lemma FuseLast(pa: seq<string>, pb: seq<string>)
    requires |pa| > 0 && |pb| > 0
    ensures Fuse(pa, pb) == pa[..|pa| - 1] + Fuse([pa[|pa| - 1]], pb)
  {
    assert [pa[|pa| - 1]][..0] == [];
  }

  lemma FuseAssoc(p: seq<string>, q: seq<string>, r: seq<string>)
    requires |p| > 0 && |q| > 0 && |r| > 0
    ensures Fuse(Fuse(p, q), r) == Fuse(p, Fuse(q, r))
  {
    var pq, qr := Fuse(p, q), Fuse(q, r);
    var pi, pl := p[..|p| - 1], p[|p| - 1];
    if |q| == 1 {
      assert pq == pi + [pl + q[0]];
      assert qr == [q[0] + r[0]] + r[1..];
      assert pq[..|pq| - 1] == pi;
      assert pl + q[0] + r[0] == pl + (q[0] + r[0]);
    } else {
      var mid := q[1..|q| - 1];
      assert q[1..] == mid + [q[|q| - 1]];
      assert pq == pi + [pl + q[0]] + mid + [q[|q| - 1]];
      assert pq[..|pq| - 1] == pi + [pl + q[0]] + mid;
      assert qr == [q[0]] + mid + [q[|q| - 1] + r[0]] + r[1..];
      assert qr[1..] == mid + [q[|q| - 1] + r[0]] + r[1..];
    }
  }

  /** Splitting a concatenation at a one-character separator. */
  lemma {:induction false} SplitCharAppend(a: string, b: string, c: char)
    ensures Split(a + b, [c]) == Fuse(Split(a, [c]), Split(b, [c]))
    decreases |a|
  {
    if c !in a {
      SplitCharAppendFree(a, b, c);
      SplitCharFree(a, c);
    } else {
      var x, y := FirstChar(a, c);
      var py, pb := Split(y, [c]), Split(b, [c]);
      assert Split(a, [c]) == [x] + py by {
        SplitCharCons(x, c, y);
      }
      assert Split(a + b, [c]) == [x] + Split(y + b, [c]) by {
        assert a + b == x + [c] + (y + b);
        SplitCharCons(x, c, y + b);
      }
      assert Split(y + b, [c]) == Fuse(py, pb) by {
        SplitCharAppend(y, b, c);
      }
      FuseCons(x, py, pb);
    }
  }

  /** The base case of `SplitCharAppend`: a left text without the separator
      prefixes the first piece of the right text. */
  lemma SplitCharAppendFree(a: string, b: string, c: char)
    requires c !in a
    ensures var pb := Split(b, [c]);
      Split(a + b, [c]) == [a + pb[0]] + pb[1..]
  {
    if c !in b {
      SplitCharFree(b, c);
      SplitCharFree(a + b, c);
    } else {
      var x, y := FirstChar(b, c);
      SplitCharCons(x, c, y);
      assert a + b == (a + x) + [c] + y;
      SplitCharCons(a + x, c, y);
    }
  }

  /** Every piece of a split is a part of the text, so whatever a piece
      contains, the text contains. */
  lemma SplitPieceContains(s: string, sep: string, i: nat, t: string)
    requires |sep| > 0 && i < |Split(s, sep)|
    requires Contains(Split(s, sep)[i], t)
    ensures Contains(s, t)
  {
    var p := Split(s, sep)[i];
    var off := SplitPieceAt(s, sep, i);
    var j :| 0 <= j <= |p| && OccursAt(p, t, j);
    OccursInSlice(s, t, off, off + |p|, j);
  }

  lemma OccursInSlice(s: string, t: string, a: nat, b: nat, j: int)
    requires a <= b <= |s| && OccursAt(s[a..b], t, j)
    ensures OccursAt(s, t, a + j)
  {
    var u := s[a..b];
    var v := s[a + j..a + j + |t|];
    forall m | 0 <= m < |t|
      ensures v[m] == t[m]
    {
      assert t[m] == u[j..j + |t|][m] == u[j + m];
    }
    assert v == t;
  }

  /** Every piece of a split stands somewhere in the text. */
  lemma {:induction false} SplitPieceAt(s: string, sep: string, i: nat) returns (off: nat)
    requires |sep| > 0 && i < |Split(s, sep)|
    ensures off + |Split(s, sep)[i]| <= |s| && s[off..off + |Split(s, sep)[i]|] == Split(s, sep)[i]
    decreases |s|
  {
    match Find(s, sep)
    case None =>
      off := 0;
      assert Split(s, sep) == [s];
      assert s[0..|s|] == s;
    case Some(k) =>
      if i == 0 {
        off := 0;
        SplitHead(s, sep);
        assert s[0..k] == s[..k];
      } else {
        var rest := s[k + |sep|..];
        SplitLater(s, sep, i);
        var p := Split(rest, sep)[i - 1];
        var o := SplitPieceAt(rest, sep, i - 1);
        SliceOfSuffix(s, k + |sep|, o, |p|);
        off := k + |sep| + o;
        assert s[off..off + |p|] == p;
      }
  }

  /** The first piece of a split ends at the first occurrence. */
  lemma SplitHead(s: string, sep: string)
    requires |sep| > 0 && Find(s, sep).Some?
    ensures Split(s, sep)[0] == s[..Find(s, sep).value]
  {
  }

  /** The later pieces of a split are the pieces of what follows the first
      occurrence. */
  lemma SplitLater(s: string, sep: string, i: nat)
    requires |sep| > 0 && Find(s, sep).Some? && 1 <= i < |Split(s, sep)|
    ensures var rest := s[Find(s, sep).value + |sep|..];
      i - 1 < |Split(rest, sep)| && Split(s, sep)[i] == Split(rest, sep)[i - 1]
  {
    var k := Find(s, sep).value;
    assert Split(s, sep) == [s[..k]] + Split(s[k + |sep|..], sep);
  }

  lemma SliceOfSuffix(s: string, a: nat, o: nat, n: nat)
    requires a <= |s| && o + n <= |s| - a
    ensures s[a..][o..o + n] == s[a + o..a + o + n]
  {
  }

  /** A character of a piece is a character of the text. */
  lemma SplitPieceChar(s: string, sep: string, i: nat, c: char)
    requires |sep| > 0 && i < |Split(s, sep)|
    requires c in Split(s, sep)[i]
    ensures c in s
  {
    ContainsChar(Split(s, sep)[i], c);
    SplitPieceContains(s, sep, i, [c]);
    ContainsChar(s, c);
  }

  /** Whatever the stripped text contains, the text contains. */
  lemma StripContains(s: string, t: string)
    requires Contains(Strip(s), t)
    ensures Contains(s, t)
  {
    var l := StripLeft(s);
    var r := StripRight(l);
    var j :| 0 <= j <= |r| && OccursAt(r, t, j);
    OccursInPrefix(l, t, |r|, j);
    OccursInSuffix(s, t, |s| - |l|, j);
  }

  /** Python's `s.replace(a, b)` for single characters. */
  function ReplaceChar(s: string, a: char, b: char): (r: string)
    ensures |r| == |s|
    ensures forall i :: 0 <= i < |s| ==> r[i] == (if s[i] == a then b else s[i])
  {
    seq(|s|, i requires 0 <= i < |s| => if s[i] == a then b else s[i])
  }

  /** Python's `s.replace(c, "")`. */
  function RemoveChar(s: string, c: char): (r: string)
    ensures c !in r
    ensures forall x :: x in r <==> x in s && x != c
    ensures c !in s ==> r == s
    decreases |s|
  {
    if |s| == 0 then ""
    else if s[0] == c then RemoveChar(s[1..], c)
    else assert s == [s[0]] + s[1..]; [s[0]] + RemoveChar(s[1..], c)
  }

  /** Python's `s.replace(pat, rep)` for a non-empty `pat`: the leftmost,
      non-overlapping occurrences are replaced, which is what joining the
      split pieces with `rep` does. */
  function ReplaceAll(s: string, pat: string, rep: string): (r: string)
    requires |pat| > 0
    ensures !Contains(s, pat) ==> r == s
  {
    Join(Split(s, pat), rep)
  }

  /** When `pat` first occurs right after `x`, the replacement text stands
      right after `x` in the result. */
  lemma ReplaceAllFirst(x: string, pat: string, y: string, rep: string)
    requires |pat| > 0
    requires forall j :: 0 <= j < |x| ==> !OccursAt(x + pat + y, pat, j)
    ensures ReplaceAll(x + pat + y, pat, rep) == x + rep + ReplaceAll(y, pat, rep)
  {
    var s := x + pat + y;
    FindAfterFree(x, pat, y);
    assert s[..|x|] == x;
    assert s[|x| + |pat|..] == y;
    var tail := Split(y, pat);
    assert Split(s, pat) == [x] + tail;
  }

  function StripLeft(s: string): (r: string)
    ensures |r| <= |s| && r == s[|s| - |r|..]
    ensures forall i :: 0 <= i < |s| - |r| ==> IsSpace(s[i])
    ensures |r| > 0 ==> !IsSpace(r[0])
    decreases |s|
  {
    if |s| > 0 && IsSpace(s[0]) then StripLeft(s[1..]) else s
  }

  function StripRight(s: string): (r: string)
    ensures |r| <= |s| && r == s[..|r|]
    ensures forall i :: |r| <= i < |s| ==> IsSpace(s[i])
    ensures |r| > 0 ==> !IsSpace(r[|r| - 1])
    decreases |s|
  {
    if |s| > 0 && IsSpace(s[|s| - 1]) then StripRight(s[..|s| - 1]) else s
  }

  /** Python's `s.strip()`: the text between the leading and the trailing
      whitespace. */
  function Strip(s: string): (r: string)
    ensures |r| <= |s|
    ensures |r| > 0 ==> !IsSpace(r[0]) && !IsSpace(r[|r| - 1])
    ensures (|s| == 0 || (!IsSpace(s[0]) && !IsSpace(s[|s| - 1]))) ==> r == s
  {
    StripRight(StripLeft(s))
  }

  /** Stripping removes only whitespace: the characters of the result are
      characters of the text, and every other character of the text stays. */
  lemma StripChars(s: string)
    ensures forall i :: 0 <= i < |Strip(s)| ==> Strip(s)[i] in s
    ensures forall c :: c in s && !IsSpace(c) ==> c in Strip(s)
  {
    StripWithin(s);
    StripKeeps(s);
  }

  lemma StripWithin(s: string)
    ensures forall i :: 0 <= i < |Strip(s)| ==> Strip(s)[i] in s
  {
    var l := StripLeft(s);
    var r := StripRight(l);
    var d := |s| - |l|;
    forall i | 0 <= i < |r|
      ensures r[i] in s
    {
      assert r[i] == l[i] == s[d + i];
    }
  }

  lemma StripKeeps(s: string)
    ensures forall c :: c in s && !IsSpace(c) ==> c in Strip(s)
  {
    forall c | c in s && !IsSpace(c)
      ensures c in Strip(s)
    {
      var i :| 0 <= i < |s| && s[i] == c;
      var k := StripIndex(s, i);
    }
  }

  /** Where a non-space character of the text stands in the stripped text. */
  lemma StripIndex(s: string, i: nat) returns (k: nat)
    requires i < |s| && !IsSpace(s[i])
    ensures k < |Strip(s)| && Strip(s)[k] == s[i]
  {
    var l := StripLeft(s);
    var d := |s| - |l|;
    assert d <= i;
    k := i - d;
    assert l[k] == s[i];
  }
}

=== FILE: scheduler.dfy ===
/** The decision parts of the directive loader (`loadmodfile`,
    `loadcommand`, `modfile_load`, `modfile_loadcommand`): which directive a
    token list is, how the `To` and `Load Priority` settings change, how the
    arguments of a command expand into commands, and where the commands go
    in each target's queue.

    The file system is a parameter: `Fs.inScope` stands for `in_directory`
    (`in_scope` in SGGMI/SGGMI.py), `Fs.isDir` for `valid_scan`, and
    `Fs.entries` for the `/`-separated paths that `os.scandir` lists.

    SGGMI/SGGMI.py's `modfile_load` reads `default_priority` and
    `default_target`, which that file never defines, so it raises NameError
    before its loop; the model follows ModImporter/modimporter.py, whose
    default priority is 100. */
module Scheduler {
  import opened Wrappers
  import PyInt
  import PyStr

  const DefaultPriority: int := 100

  const KwTo: seq<string> := ["To"]
  const KwLoad: seq<string> := ["Load"]
  const KwPriority: seq<string> := ["Priority"]
  const KwInclude: seq<string> := ["Include"]
  const KwReplace: seq<string> := ["Replace"]
  const KwImport: seq<string> := ["Import"]
  const KwTopImport: seq<string> := ["Top", "Import"]
  const KwXml: seq<string> := ["XML"]
  const KwCsv: seq<string> := ["CSV"]
  const KwSjson: seq<string> := ["SJSON"]

  /** Python's `xs[i:j]` for `0 <= i <= j`: clipped at the end. */
  function Slice(xs: seq<string>, i: nat, j: nat): (r: seq<string>)
    requires i <= j
    ensures |r| == if j <= |xs| then j - i else if i <= |xs| then |xs| - i else 0
    ensures forall k :: 0 <= k < |r| ==> r[k] == xs[i + k]
  {
    if j <= |xs| then xs[i..j] else if i <= |xs| then xs[i..] else []
  }

  /** `startswith(tokens, keyword, n)`: the tokens open with the keyword and
      at least one token follows; `n` is ignored. */
  predicate StartsWith(tokens: seq<string>, keyword: seq<string>) {
    Slice(tokens, 0, |keyword|) == keyword && |tokens| >= |keyword| + 1
  }

  /** The clipped slice of the source and its length test together say that
      the keyword is a proper prefix. */
  lemma StartsWithIff(tokens: seq<string>, keyword: seq<string>)
    ensures StartsWith(tokens, keyword) <==>
      |tokens| > |keyword| && forall i :: 0 <= i < |keyword| ==> tokens[i] == keyword[i]
  {
    if |tokens| > |keyword| && forall i :: 0 <= i < |keyword| ==> tokens[i] == keyword[i] {
      assert Slice(tokens, 0, |keyword|) == keyword;
    }
  }

  // ---------------------------------------------------------------------
  // The settings lines

  /** What a directive file has set so far: the priority and the targets. */
  datatype Settings = Settings(ep: int, to: seq<string>)

  /** The settings a file starts with. */
  function Initial(defaultTo: seq<string>): Settings {
    Settings(DefaultPriority, defaultTo)
  }

  /** The `Load` line: `Load Priority N` sets the priority to `int(N)` and
      keeps it when `N` is not an integer; a bare `Load Priority` resets it;
      any other `Load` line changes nothing. */
  function LoadPriority(tokens: seq<string>, ep: int): (r: int)
    ensures |tokens| < 2 || tokens[1] != "Priority" ==> r == ep
    ensures |tokens| == 2 && tokens[1] == "Priority" ==> r == DefaultPriority
    ensures |tokens| > 2 && tokens[1] == "Priority" ==>
      r == match PyInt.ParseInt(tokens[2]) case Some(v) => v case None => ep
  {
    var n := |KwLoad| + |KwPriority|;
    if Slice(tokens, |KwLoad|, n) == KwPriority then
      if |tokens| > n then PyInt.ParseInt(tokens[n]).GetOr(ep) else DefaultPriority
    else ep
  }

  /** The targets of a `To` line, with `\` turned into `/`. */
  function Targets(args: seq<string>): (r: seq<string>)
    ensures |r| == |args|
    ensures forall i :: 0 <= i < |args| ==> r[i] == PyStr.ReplaceChar(args[i], '\\', '/')
  {
    seq(|args|, i requires 0 <= i < |args| => PyStr.ReplaceChar(args[i], '\\', '/'))
  }

  /** The settings after one tokenised line. */
  function Update(st: Settings, tokens: seq<string>, defaultTo: seq<string>): (r: Settings)
    ensures !StartsWith(tokens, KwTo) && !StartsWith(tokens, KwLoad) ==> r == st
    ensures StartsWith(tokens, KwTo) ==> r.ep == st.ep && r.to == Targets(tokens[1..])
    ensures StartsWith(tokens, KwLoad) ==> r.to == st.to && r.ep == LoadPriority(tokens, st.ep)
  {
    if |tokens| == 0 then st
    else if StartsWith(tokens, KwTo) then
      var to := Targets(tokens[1..]);
      st.(to := if |to| == 0 then defaultTo else to)
    else if StartsWith(tokens, KwLoad) then st.(ep := LoadPriority(tokens, st.ep))
    else st
  }

  /** `Load Priority N` sets what `int` reads from `N`: the priority written
      as a decimal number is the one that takes effect, whatever came
      before. */
  lemma LoadPriorityShow(st: Settings, n: int, defaultTo: seq<string>)
    ensures Update(st, ["Load", "Priority", PyInt.Show(n)], defaultTo) == st.(ep := n)
  {
    PyInt.ParseShow(n);
  }

  /** A bare `Load Priority` line undoes every earlier priority. */
  lemma LoadPriorityReset(st: Settings, defaultTo: seq<string>)
    ensures Update(st, KwLoad + KwPriority, defaultTo).ep == Initial(defaultTo).ep
  {
  }

  /** The settings after a sequence of lines. */
  function UpdateAll(st: Settings, lines: seq<seq<string>>, defaultTo: seq<string>): Settings
    decreases |lines|
  {
    if |lines| == 0 then st else UpdateAll(Update(st, lines[0], defaultTo), lines[1..], defaultTo)
  }

  /** The priority in force is set by the last `Load` line that changes it:
      lines that are neither `To` nor `Load` lines leave it alone. */
  lemma {:induction false} UpdateAllKeepsEp(st: Settings, lines: seq<seq<string>>, defaultTo: seq<string>)
    requires forall i :: 0 <= i < |lines| ==> !StartsWith(lines[i], KwLoad)
    ensures UpdateAll(st, lines, defaultTo).ep == st.ep
    decreases |lines|
  {
    if |lines| > 0 {
      UpdateAllKeepsEp(Update(st, lines[0], defaultTo), lines[1..], defaultTo);
    }
  }

  // ---------------------------------------------------------------------
  // Dispatch

  /** How a command's files are applied, the `mode_*` constants. */
  datatype Mode = Lua | LuaAlt | Xml | Sjson | Replace | Csv

  /** What a tokenised line asks for, after the settings update. */
  datatype Action =
    | NoAction
    | Include(paths: seq<string>)
    | Load(mode: Mode, args: seq<string>, reverse: bool)

  /** The keyword chain of ModImporter/modimporter.py `loadmodfile`:
      `Include`, `Replace`, `Import`, `Top Import`, `XML`, `CSV`, and
      `SJSON` when SJSON support is present. */
  function Dispatch(tokens: seq<string>, canSjson: bool): (r: Action)
    ensures r.Include? ==> |tokens| > 1 && r.paths == tokens[1..]
    ensures r.Load? ==> 0 < |r.args| < |tokens| && r.args == tokens[|tokens| - |r.args|..]
    ensures r.Load? ==> (r.reverse <==> r.mode == LuaAlt)
    ensures r.Load? && r.mode == Sjson ==> canSjson
  {
    if StartsWith(tokens, KwInclude) then Include(tokens[1..])
    else if StartsWith(tokens, KwReplace) then Load(Replace, tokens[1..], false)
    else if StartsWith(tokens, KwImport) then Load(Lua, tokens[1..], false)
    else if StartsWith(tokens, KwTopImport) then Load(LuaAlt, tokens[2..], true)
    else if StartsWith(tokens, KwXml) then Load(Xml, tokens[1..], false)
    else if StartsWith(tokens, KwCsv) then Load(Csv, tokens[1..], false)
    else if canSjson && StartsWith(tokens, KwSjson) then Load(Sjson, tokens[1..], false)
    else NoAction
  }

  /** The keyword a mode is written with. */
  function Keyword(m: Mode): seq<string> {
    match m
    case Lua => KwImport
    case LuaAlt => KwTopImport
    case Xml => KwXml
    case Sjson => KwSjson
    case Replace => KwReplace
    case Csv => KwCsv
  }

  /** Every command keyword followed by arguments selects its own mode with
      exactly those arguments, and only `Top Import` inserts in reverse; a
      line with no argument after its keyword does nothing. */
  lemma DispatchKeyword(m: Mode, args: seq<string>)
    ensures |args| > 0 ==> Dispatch(Keyword(m) + args, true) == Load(m, args, m == LuaAlt)
    ensures |args| == 0 ==> Dispatch(Keyword(m) + args, true) == NoAction
  {
    if |args| > 0 {
      DispatchArgs(m, args);
    } else {
      assert Keyword(m) + args == Keyword(m);
      DispatchBare(m);
    }
  }

  lemma DispatchArgs(m: Mode, args: seq<string>)
    requires |args| > 0
    ensures Dispatch(Keyword(m) + args, true) == Load(m, args, m == LuaAlt)
  {
    var t := Keyword(m) + args;
    assert t[..|Keyword(m)|] == Keyword(m);
    assert t[|Keyword(m)|..] == args;
    assert t[0] == Keyword(m)[0];
    forall kw | kw in [KwInclude, KwReplace, KwImport, KwTopImport, KwXml, KwCsv, KwSjson] && kw[0] != Keyword(m)[0]
      ensures !StartsWith(t, kw)
    {
      OtherFirstWord(t, kw);
    }
  }

  /** A bare keyword starts no command: `startswith` wants one more token. */
  lemma DispatchBare(m: Mode)
    ensures Dispatch(Keyword(m), true) == NoAction
  {
    var t := Keyword(m);
    forall kw | kw in [KwInclude, KwReplace, KwImport, KwTopImport, KwXml, KwCsv, KwSjson]
      ensures !StartsWith(t, kw)
    {
      if t[0] != kw[0] {
        OtherFirstWord(t, kw);
      }
    }
  }

  /** A line whose first word is not a keyword's first word does not start
      with that keyword. */
  lemma OtherFirstWord(tokens: seq<string>, keyword: seq<string>)
    requires |tokens| > 0 && |keyword| > 0 && tokens[0] != keyword[0]
    ensures !StartsWith(tokens, keyword)
  {
    if |tokens| >= |keyword| + 1 {
      assert Slice(tokens, 0, |keyword|)[0] == tokens[0];
    }
  }

  // ---------------------------------------------------------------------
  // Expansion

  /** The file system as the loader sees it. */
  datatype Fs = Fs(isDir: string -> bool, entries: string -> seq<string>, inScope: string -> bool)

  /** What a source argument contributes to `paths`: the in-scope entries of
      a directory, or an in-scope file. */
  datatype Arg = Dir(files: seq<string>) | File(path: string)

  /** `reldir + "/" + arg` with quotes dropped and `\` turned into `/`. */
  function SourcePath(reldir: string, arg: string): string {
    reldir + "/" + PyStr.ReplaceChar(PyStr.RemoveChar(arg, '"'), '\\', '/')
  }

  /** The in-scope entries of a directory, in listing order. */
  function InScope(fs: Fs, xs: seq<string>): (r: seq<string>)
    ensures forall x :: x in r <==> x in xs && fs.inScope(x)
    ensures |r| <= |xs|
    decreases |xs|
  {
    if |xs| == 0 then []
    else if fs.inScope(xs[0]) then [xs[0]] + InScope(fs, xs[1..])
    else InScope(fs, xs[1..])
  }

  /** The scan of one group of sources: directories give their in-scope
      entries, in-scope files themselves, anything else nothing. */
  function Scan(fs: Fs, sources: seq<string>): (r: seq<Arg>)
    ensures |r| <= |sources|
    decreases |sources|
  {
    if |sources| == 0 then []
    else
      var s := sources[0];
      var rest := Scan(fs, sources[1..]);
      if fs.isDir(s) then [Dir(InScope(fs, fs.entries(s)))] + rest
      else if fs.inScope(s) then [File(s)] + rest
      else rest
  }

  /** The running `num` of the scan: `-1` until a directory is seen, then
      the smallest directory size so far. */
  function Num(args: seq<Arg>, num: int): int
    decreases |args|
  {
    if |args| == 0 then num
    else
      match args[0]
      case Dir(files) => Num(args[1..], if num > |files| || num < 0 then |files| else num)
      case File(_) => Num(args[1..], num)
  }

  predicate HasDir(args: seq<Arg>) {
    exists k :: 0 <= k < |args| && args[k].Dir?
  }

  /** `num` is -1 exactly when no argument is a directory, and otherwise the
      size of the smallest directory. */
  lemma {:induction false} NumIsMin(args: seq<Arg>, num: int)
    requires num >= -1
    ensures var r := Num(args, num);
      && r >= -1
      && (r == -1 <==> num == -1 && !HasDir(args))
      && (r >= 0 ==> (r == num || exists k :: 0 <= k < |args| && args[k].Dir? && r == |args[k].files|))
      && (r >= 0 ==> (num >= 0 ==> r <= num) && forall k :: 0 <= k < |args| && args[k].Dir? ==> r <= |args[k].files|)
    decreases |args|
  {
    if |args| > 0 {
      var num' := match args[0] case Dir(files) => (if num > |files| || num < 0 then |files| else num) case File(_) => num;
      NumIsMin(args[1..], num');
      var r := Num(args, num);
      assert r == Num(args[1..], num');
      forall k | 1 <= k < |args| ensures args[k] == args[1..][k - 1] { }
      if HasDir(args[1..]) {
        var k :| 0 <= k < |args[1..]| && args[1..][k].Dir?;
        assert args[k + 1].Dir?;
      }
      if r >= 0 && r != num' {
        var k :| 0 <= k < |args[1..]| && args[1..][k].Dir? && r == |args[1..][k].files|;
        assert args[k + 1].Dir? && r == |args[k + 1].files|;
      }
      if args[0].Dir? {
        assert HasDir(args);
      } else if HasDir(args) {
        var k :| 0 <= k < |args| && args[k].Dir?;
        assert HasDir(args[1..]) by { assert args[1..][k - 1].Dir?; }
      }
    }
  }

  /** The number of commands one group of sources gives: none without any
      in-scope source, one for in-scope files only, and the size of the
      smallest directory otherwise. */
  function Count(args: seq<Arg>): (r: nat)
    ensures |args| == 0 ==> r == 0
    ensures |args| > 0 && !HasDir(args) ==> r == 1
    ensures |args| > 0 && HasDir(args) ==>
      (exists k :: 0 <= k < |args| && args[k].Dir? && r == |args[k].files|) &&
      forall k :: 0 <= k < |args| && args[k].Dir? ==> r <= |args[k].files|
  {
    NumIsMin(args, -1);
    var num := Num(args, -1);
    if |args| == 0 then 0 else if num < 0 then -num else num
  }

  /** The j-th command's files: the j-th entry of each directory and each
      file as it is. */
  function Row(args: seq<Arg>, j: nat): (r: seq<string>)
    requires forall k :: 0 <= k < |args| && args[k].Dir? ==> j < |args[k].files|
    ensures |r| == |args|
    ensures forall k :: 0 <= k < |args| ==> r[k] == (match args[k] case Dir(files) => files[j] case File(p) => p)
  {
    seq(|args|, k requires 0 <= k < |args| => match args[k] case Dir(files) => files[j] case File(p) => p)
  }

  /** All commands of one group of sources. */
  function Rows(args: seq<Arg>): (r: seq<seq<string>>)
    ensures |r| == Count(args)
    ensures forall j :: 0 <= j < |r| ==> |r[j]| == |args|
  {
    var n := Count(args);
    if |args| == 0 then []
    else seq(n, j requires 0 <= j < n => Row(args, j))
  }

  /** Each command takes the j-th entry of every directory and every file. */
  lemma RowsContent(args: seq<Arg>, j: nat, k: nat)
    requires j < Count(args) && k < |args|
    ensures Rows(args)[j][k] == match args[k] case Dir(files) => files[j] case File(p) => p
  {
  }

  /** The source groups of a command line with stride `n`: the i-th group
      holds `tokens[n*i + k]` for `k < n`, which is `arg[i]` for each of the
      stride slices `tokens[k::n]`, and there are as many groups as the last
      slice is long. */
  function Group(reldir: string, tokens: seq<string>, n: nat, i: nat): (r: seq<string>)
    requires n >= 1 && n * i + n <= |tokens|
    ensures |r| == n
    ensures forall k :: 0 <= k < n ==> r[k] == SourcePath(reldir, tokens[n * i + k])
  {
    seq(n, k requires 0 <= k < n => SourcePath(reldir, tokens[n * i + k]))
  }

  /** What a command emits before it is queued: the target and the files. */
  datatype Emit = Emit(key: string, files: seq<string>)

  function Tag(key: string, rows: seq<seq<string>>): (r: seq<Emit>)
    ensures |r| == |rows|
    ensures forall j :: 0 <= j < |rows| ==> r[j] == Emit(key, rows[j])
  {
    seq(|rows|, j requires 0 <= j < |rows| => Emit(key, rows[j]))
  }

  lemma GroupBound(n: nat, i: nat, len: nat)
    requires n >= 1 && i < len / n
    ensures n * i + n <= len
  {
    assert n * (i + 1) <= n * (len / n);
  }

  /** The commands for one target, groups in order. */
  function ExpandFrom(fs: Fs, reldir: string, tokens: seq<string>, n: nat, key: string, i: nat): seq<Emit>
    requires n >= 1
    decreases |tokens| / n - i
  {
    if i >= |tokens| / n then []
    else
      GroupBound(n, i, |tokens|);
      Tag(key, Rows(Scan(fs, Group(reldir, tokens, n, i)))) + ExpandFrom(fs, reldir, tokens, n, key, i + 1)
  }

  /** `loadcommand(reldir, tokens, to, n, mode)` before queueing: the
      targets in order, each out-of-scope target skipped. */
  function Expand(fs: Fs, reldir: string, tokens: seq<string>, to: seq<string>, n: nat): (r: seq<Emit>)
    requires n >= 1
    decreases |to|
  {
    if |to| == 0 then []
    else
      var here := if fs.inScope(to[0]) then ExpandFrom(fs, reldir, tokens, n, to[0], 0) else [];
      here + Expand(fs, reldir, tokens, to[1..], n)
  }

  /** Commands go only to in-scope targets named by the `To` setting. */
  lemma {:induction false} ExpandTargets(fs: Fs, reldir: string, tokens: seq<string>, to: seq<string>, n: nat)
    requires n >= 1
    ensures forall e :: e in Expand(fs, reldir, tokens, to, n) ==> e.key in to && fs.inScope(e.key)
    decreases |to|
  {
    if |to| > 0 {
      ExpandTargets(fs, reldir, tokens, to[1..], n);
      if fs.inScope(to[0]) {
        ExpandFromKey(fs, reldir, tokens, n, to[0], 0);
      }
    }
  }

  lemma {:induction false} ExpandFromKey(fs: Fs, reldir: string, tokens: seq<string>, n: nat, key: string, i: nat)
    requires n >= 1
    ensures forall e :: e in ExpandFrom(fs, reldir, tokens, n, key, i) ==> e.key == key
    decreases |tokens| / n - i
  {
    if i < |tokens| / n {
      ExpandFromKey(fs, reldir, tokens, n, key, i + 1);
    }
  }

  /** With stride 1, a single argument gives as many commands as its
      directory has in-scope entries, one if it is an in-scope file, and
      none otherwise; the commands name exactly those files. */
  lemma SingleArgument(fs: Fs, reldir: string, arg: string, key: string)
    ensures var s := SourcePath(reldir, arg);
      var e := ExpandFrom(fs, reldir, [arg], 1, key, 0);
      && (fs.isDir(s) ==> (|e| == |InScope(fs, fs.entries(s))| &&
            forall j :: 0 <= j < |e| ==> e[j] == Emit(key, [InScope(fs, fs.entries(s))[j]])))
      && (!fs.isDir(s) && fs.inScope(s) ==> e == [Emit(key, [s])])
      && (!fs.isDir(s) && !fs.inScope(s) ==> e == [])
  {
    var s := SourcePath(reldir, arg);
    var g := Group(reldir, [arg], 1, 0);
    assert g == [s];
    assert g[1..] == [];
    var args := Scan(fs, g);
    assert ExpandFrom(fs, reldir, [arg], 1, key, 1) == [];
    assert ExpandFrom(fs, reldir, [arg], 1, key, 0) == Tag(key, Rows(args)) + [];
    if fs.isDir(s) {
      assert args == [Dir(InScope(fs, fs.entries(s)))];
      assert HasDir(args) by { assert args[0].Dir?; }
    } else if fs.inScope(s) {
      assert args == [File(s)];
      assert !HasDir(args);
      assert Row(args, 0) == [s];
      assert Rows(args) == [Row(args, 0)];
    }
  }

  // ---------------------------------------------------------------------
  // Queueing

  /** A queued command (`modcode` / `Mod`): its files, joined by newlines
      into its source text, its mode, its target, its priority, and its
      id where the copy numbers commands. */
  datatype Command = Command(files: seq<string>, mode: Mode, key: string, ep: int, id: Option<nat>)

  /** `'\n'.join(sources)`. */
  function Source(c: Command): string {
    PyStr.Join(c.files, "\n")
  }

  /** The per-target queues, `codes`; a missing target has an empty one. */
  type Queues = map<string, seq<Command>>

  function Queue(qs: Queues, key: string): seq<Command> {
    if key in qs then qs[key] else []
  }

  /** ModImporter/modimporter.py: each emitted command reads the shared
      `load["ep"]`; a reversing command (`Top Import`) first negates it and
      goes to the front of its queue, any other goes to the back. */
  function Enqueue(qs: Queues, emits: seq<Emit>, mode: Mode, ep: int, reverse: bool): Queues
    decreases |emits|
  {
    if |emits| == 0 then qs
    else
      var e := emits[0];
      var ep' := if reverse then -ep else ep;
      var c := Command(e.files, mode, e.key, ep', None);
      var q := Queue(qs, e.key);
      Enqueue(qs[e.key := if reverse then [c] + q else q + [c]], emits[1..], mode, ep', reverse)
  }

  /** The priority the k-th emitted command (from 0) gets: the original
      one, or for `Top Import` the original with its sign flipped once per
      command so far, counting this one. */
  function IssuedEp(ep: int, reverse: bool, k: nat): int {
    if reverse && k % 2 == 0 then -ep else ep
  }

  /** The commands emitted for `key`, from the k-th emission on, in order. */
  function Issued(emits: seq<Emit>, mode: Mode, ep: int, reverse: bool, key: string, k: nat): seq<Command>
    decreases |emits|
  {
    if |emits| == 0 then []
    else
      var rest := Issued(emits[1..], mode, ep, reverse, key, k + 1);
      if emits[0].key == key then [Command(emits[0].files, mode, key, IssuedEp(ep, reverse, k), None)] + rest
      else rest
  }

  function Reverse<T>(xs: seq<T>): (r: seq<T>)
    ensures |r| == |xs|
    ensures forall i :: 0 <= i < |xs| ==> r[i] == xs[|xs| - 1 - i]
  {
    seq(|xs|, i requires 0 <= i < |xs| => xs[|xs| - 1 - i])
  }

  /** The shared `load["ep"]` after k emissions of a call made with `e0`. */
  function Shared(e0: int, reverse: bool, k: nat): int {
    if reverse && k % 2 == 1 then -e0 else e0
  }

  /** After queueing, each target's queue is its old queue followed by its
      new commands in emission order; for `Top Import`, the new commands in
      reverse emission order come first. */
  lemma {:induction false} EnqueueQueues(qs: Queues, emits: seq<Emit>, mode: Mode, e0: int, reverse: bool, k: nat, key: string)
    ensures Queue(Enqueue(qs, emits, mode, Shared(e0, reverse, k), reverse), key) ==
      if reverse then Reverse(Issued(emits, mode, e0, reverse, key, k)) + Queue(qs, key)
      else Queue(qs, key) + Issued(emits, mode, e0, reverse, key, k)
    decreases |emits|
  {
    if |emits| > 0 {
      var ep := Shared(e0, reverse, k);
      var e := emits[0];
      var ep' := if reverse then -ep else ep;
      assert ep' == IssuedEp(e0, reverse, k);
      var c := Command(e.files, mode, e.key, ep', None);
      var q := Queue(qs, e.key);
      var qs' := qs[e.key := if reverse then [c] + q else q + [c]];
      assert Enqueue(qs, emits, mode, ep, reverse) == Enqueue(qs', emits[1..], mode, ep', reverse);
      var rest := Issued(emits[1..], mode, e0, reverse, key, k + 1);
      assert Queue(Enqueue(qs', emits[1..], mode, ep', reverse), key) ==
        if reverse then Reverse(rest) + Queue(qs', key) else Queue(qs', key) + rest
      by {
        assert ep' == Shared(e0, reverse, k + 1);
        EnqueueQueues(qs', emits[1..], mode, e0, reverse, k + 1, key);
      }
      if e.key != key {
        assert Queue(qs', key) == Queue(qs, key);
        assert Issued(emits, mode, e0, reverse, key, k) == rest;
      } else {
        assert Issued(emits, mode, e0, reverse, key, k) == [c] + rest;
        EnqueueCons(q, c, rest, reverse);
      }
    }
  }

  lemma EnqueueCons(q: seq<Command>, c: Command, rest: seq<Command>, reverse: bool)
    ensures reverse ==> Reverse(rest) + ([c] + q) == Reverse([c] + rest) + q
    ensures !reverse ==> (q + [c]) + rest == q + ([c] + rest)
  {
    if reverse {
      assert Reverse([c] + rest) == Reverse(rest) + [c];
      PyStr.Assoc(Reverse(rest), [c], q);
    } else {
      PyStr.Assoc(q, [c], rest);
    }
  }

  /** Any emitted sequence, queued starting from the priority the line was
      read with: a target's queue gains its issued commands at the back, or
      reversed at the front. */
  lemma EnqueueIssued(qs: Queues, emits: seq<Emit>, mode: Mode, ep: int, reverse: bool, key: string)
    ensures Queue(Enqueue(qs, emits, mode, ep, reverse), key) ==
      if reverse then Reverse(Issued(emits, mode, ep, reverse, key, 0)) + Queue(qs, key)
      else Queue(qs, key) + Issued(emits, mode, ep, reverse, key, 0)
  {
    EnqueueQueues(qs, emits, mode, ep, reverse, 0, key);
  }

  /** `loadcommand(reldir, tokens, to, n, mode, ep=ep, reverse=reverse)` of
      ModImporter/modimporter.py: the commands of every in-scope target,
      queued as they are emitted. */
  function LoadCommand(qs: Queues, fs: Fs, reldir: string, tokens: seq<string>, to: seq<string>, n: nat,
                       mode: Mode, ep: int, reverse: bool): Queues
    requires n >= 1
  {
    Enqueue(qs, Expand(fs, reldir, tokens, to, n), mode, ep, reverse)
  }

  /** One `loadcommand` call: a target's queue gains the commands expanded
      for it, at the back or reversed at the front; a target that is not
      named by `To` or not in scope keeps its queue. */
  lemma LoadCommandQueues(qs: Queues, fs: Fs, reldir: string, tokens: seq<string>, to: seq<string>, n: nat,
                          mode: Mode, ep: int, reverse: bool, key: string)
    requires n >= 1
    ensures var issued := Issued(Expand(fs, reldir, tokens, to, n), mode, ep, reverse, key, 0);
      Queue(LoadCommand(qs, fs, reldir, tokens, to, n, mode, ep, reverse), key) ==
        if reverse then Reverse(issued) + Queue(qs, key) else Queue(qs, key) + issued
    ensures !(key in to && fs.inScope(key)) ==>
      Queue(LoadCommand(qs, fs, reldir, tokens, to, n, mode, ep, reverse), key) == Queue(qs, key)
  {
    var emits := Expand(fs, reldir, tokens, to, n);
    assert LoadCommand(qs, fs, reldir, tokens, to, n, mode, ep, reverse) == Enqueue(qs, emits, mode, ep, reverse);
    EnqueueIssued(qs, emits, mode, ep, reverse, key);
    if !(key in to && fs.inScope(key)) {
      assert Issued(emits, mode, ep, reverse, key, 0) == [] by {
        ExpandTargets(fs, reldir, tokens, to, n);
        IssuedNone(emits, mode, ep, reverse, key, 0);
      }
    }
  }

  /** No command is issued for a target no emission names. */
  lemma {:induction false} IssuedNone(emits: seq<Emit>, mode: Mode, ep: int, reverse: bool, key: string, k: nat)
    requires forall e :: e in emits ==> e.key != key
    ensures Issued(emits, mode, ep, reverse, key, k) == []
    decreases |emits|
  {
    if |emits| > 0 {
      assert emits[0] in emits;
      IssuedNone(emits[1..], mode, ep, reverse, key, k + 1);
    }
  }

  /** The commands issued for a target carry the emitted files in order, and
      their priorities are the signed ones of `IssuedEp`. */
  lemma {:induction false} IssuedContents(emits: seq<Emit>, mode: Mode, ep: int, reverse: bool, key: string, k: nat)
    ensures forall c :: c in Issued(emits, mode, ep, reverse, key, k) ==>
      c.key == key && c.mode == mode && c.id == None &&
      (c.ep == ep || (reverse && c.ep == -ep)) && (!reverse ==> c.ep == ep)
    ensures |Issued(emits, mode, ep, reverse, key, k)| <= |emits|
    decreases |emits|
  {
    if |emits| > 0 {
      IssuedContents(emits[1..], mode, ep, reverse, key, k + 1);
    }
  }

  /** Two `Top Import` commands in a row for one target: the second is
      queued in front of the first, and their priorities have opposite
      signs. */
  lemma TopImportAlternates(qs: Queues, key: string, a: seq<string>, b: seq<string>, ep: int)
    ensures Queue(Enqueue(qs, [Emit(key, a), Emit(key, b)], LuaAlt, ep, true), key) ==
      [Command(b, LuaAlt, key, ep, None), Command(a, LuaAlt, key, -ep, None)] + Queue(qs, key)
  {
    var emits := [Emit(key, a), Emit(key, b)];
    EnqueueIssued(qs, emits, LuaAlt, ep, true, key);
    assert emits[1..] == [Emit(key, b)];
    assert emits[1..][1..] == [];
    assert Issued(emits[1..][1..], LuaAlt, ep, true, key, 2) == [];
    assert Issued(emits[1..], LuaAlt, ep, true, key, 1) == [Command(b, LuaAlt, key, ep, None)];
    assert Issued(emits, LuaAlt, ep, true, key, 0) ==
      [Command(a, LuaAlt, key, -ep, None), Command(b, LuaAlt, key, ep, None)];
  }

  // ---------------------------------------------------------------------
  // Numbered queues (modimporter.py, SGGMI/SGGMI.py, SGGMI.py)

  /** Every command's id is its position in the queue. */
  predicate Numbered(q: seq<Command>) {
    forall i :: 0 <= i < |q| ==> q[i].id == Some(i)
  }

  /** The numbering copies: every command goes to the back of its queue,
      with the queue's length before insertion as its id. */
  function EnqueueNumbered(qs: Queues, emits: seq<Emit>, mode: Mode, ep: int): Queues
    decreases |emits|
  {
    if |emits| == 0 then qs
    else
      var e := emits[0];
      var q := Queue(qs, e.key);
      var c := Command(e.files, mode, e.key, ep, Some(|q|));
      EnqueueNumbered(qs[e.key := q + [c]], emits[1..], mode, ep)
  }

  /** The files emitted for a target, in order. */
  function FilesFor(emits: seq<Emit>, key: string): (r: seq<seq<string>>)
    ensures |r| <= |emits|
    decreases |emits|
  {
    if |emits| == 0 then []
    else if emits[0].key == key then [emits[0].files] + FilesFor(emits[1..], key)
    else FilesFor(emits[1..], key)
  }

  /** The commands the numbering copies make from the files emitted for
      a target, numbered on from `start`. */
  function Numbering(fs: seq<seq<string>>, mode: Mode, key: string, ep: int, start: nat): (r: seq<Command>)
    ensures |r| == |fs|
    ensures forall j :: 0 <= j < |fs| ==> r[j] == Command(fs[j], mode, key, ep, Some(start + j))
  {
    seq(|fs|, j requires 0 <= j < |fs| => Command(fs[j], mode, key, ep, Some(start + j)))
  }

  /** Each target's queue is its old queue followed by one command per
      emission for it, in emission order, with the priority of the line and
      ids counting on from the old queue's length. */
  lemma {:induction false} EnqueueNumberedQueues(qs: Queues, emits: seq<Emit>, mode: Mode, ep: int, key: string)
    ensures Queue(EnqueueNumbered(qs, emits, mode, ep), key) ==
      Queue(qs, key) + Numbering(FilesFor(emits, key), mode, key, ep, |Queue(qs, key)|)
    decreases |emits|
  {
    if |emits| > 0 {
      var e := emits[0];
      var q0 := Queue(qs, e.key);
      var c := Command(e.files, mode, e.key, ep, Some(|q0|));
      var qs' := qs[e.key := q0 + [c]];
      EnqueueNumberedQueues(qs', emits[1..], mode, ep, key);
      assert EnqueueNumbered(qs, emits, mode, ep) == EnqueueNumbered(qs', emits[1..], mode, ep);
      if e.key != key {
        assert Queue(qs', key) == Queue(qs, key);
        assert FilesFor(emits, key) == FilesFor(emits[1..], key);
      } else {
        assert Queue(qs', key) == q0 + [c];
        assert FilesFor(emits, key) == [e.files] + FilesFor(emits[1..], key);
        NumberingCons(q0, e.files, FilesFor(emits[1..], key), mode, key, ep);
      }
    }
  }

  lemma NumberingCons(q0: seq<Command>, f: seq<string>, rest: seq<seq<string>>, mode: Mode, key: string, ep: int)
    ensures (q0 + [Command(f, mode, key, ep, Some(|q0|))]) + Numbering(rest, mode, key, ep, |q0| + 1) ==
      q0 + Numbering([f] + rest, mode, key, ep, |q0|)
  {
    var c := Command(f, mode, key, ep, Some(|q0|));
    assert Numbering([f] + rest, mode, key, ep, |q0|) == [c] + Numbering(rest, mode, key, ep, |q0| + 1);
    PyStr.Assoc(q0, [c], Numbering(rest, mode, key, ep, |q0| + 1));
  }

  /** Numbered queues stay numbered: ids run 0..n-1 in discovery order. */
  lemma EnqueueKeepsNumbered(qs: Queues, emits: seq<Emit>, mode: Mode, ep: int, key: string)
    requires Numbered(Queue(qs, key))
    ensures Numbered(Queue(EnqueueNumbered(qs, emits, mode, ep), key))
  {
    EnqueueNumberedQueues(qs, emits, mode, ep, key);
    NumberingExtends(Queue(qs, key), FilesFor(emits, key), mode, key, ep);
  }

  lemma NumberingExtends(q: seq<Command>, fs: seq<seq<string>>, mode: Mode, key: string, ep: int)
    requires Numbered(q)
    ensures Numbered(q + Numbering(fs, mode, key, ep, |q|))
  {
    var r := q + Numbering(fs, mode, key, ep, |q|);
    forall i | 0 <= i < |r| ensures r[i].id == Some(i) {
      if i >= |q| {
        assert r[i] == Numbering(fs, mode, key, ep, |q|)[i - |q|];
      }
    }
  }
}

=== FILE: search.dfy ===
/** `traverse(tree, key, value)` of sjson_search.py: every path from the
    root to an entry whose key equals `key` and whose value equals `value`.
    A list is walked with `enumerate`, so its positions enter the paths as
    integer indices; a mapping is walked in key order; only lists and
    ordered mappings are descended into. */
module Search {
  import opened Wrappers
  import opened Nodes
  import MergeDict

  type Path = seq<Key>

  predicate Container(n: Node) {
    n.Seq? || n.Map?
  }

  /** How many items the iteration of a container visits. */
  function Size(n: Node): nat {
    match n
    case Seq(items) => |items|
    case Map(es) => |es|
    case _ => 0
  }

  /** The i-th key of the iteration: a list position or a mapping key. */
  function KeyAt(n: Node, i: nat): (r: Key)
    requires i < Size(n)
    ensures n.Seq? ==> r == Index(i)
  {
    match n
    case Seq(_) => Index(i)
    case Map(es) => Name(es[i].key)
  }

  /** The i-th value of the iteration. */
  function ValueAt(n: Node, i: nat): (r: Node)
    requires i < Size(n)
    ensures Height(r) < Height(n)
  {
    match n
    case Seq(items) => items[i]
    case Map(es) => es[i].value
  }

  /** Every mapping in the tree has unique keys, as every Python dict. */
  predicate Unique(n: Node)
    decreases Height(n)
  {
    match n
    case Seq(items) => forall i :: 0 <= i < |items| ==> Unique(ValueAt(n, i))
    case Map(es) => UniqueKeys(es) && forall i :: 0 <= i < |es| ==> Unique(ValueAt(n, i))
    case _ => true
  }

  /** `[k] + p` for every path `p`. */
  function Prefix(k: Key, ps: seq<Path>): (r: seq<Path>)
    ensures |r| == |ps|
    ensures forall j :: 0 <= j < |ps| ==> r[j] == [k] + ps[j]
  {
    seq(|ps|, j requires 0 <= j < |ps| => [k] + ps[j])
  }

  /** What the loop of `traverse` finds at the i-th item: the item itself
      when it matches, then the matches inside it. */
  function Item(n: Node, key: Key, value: Node, i: nat): seq<Path>
    requires i < Size(n)
    decreases Height(n), Size(n) - i, 0
  {
    var k := KeyAt(n, i);
    var v := ValueAt(n, i);
    var here := if key == k && MergeDict.PyEq(value, v) then [[k]] else [];
    var below := if Container(v) then Prefix(k, Walk(v, key, value, 0)) else [];
    here + below
  }

  /** The loop of `traverse` from the i-th item on. */
  function Walk(n: Node, key: Key, value: Node, i: nat): seq<Path>
    requires i <= Size(n)
    decreases Height(n), Size(n) - i, 1
  {
    if i == Size(n) then [] else Item(n, key, value, i) + Walk(n, key, value, i + 1)
  }

  /** `traverse(tree, key, value)`: anything but a list or a mapping has no
      `items()`. */
  function Traverse(tree: Node, key: Key, value: Node): (r: Result<seq<Path>>)
    ensures r.Fail? <==> !Container(tree)
  {
    if Container(tree) then Ok(Walk(tree, key, value, 0)) else Fail("AttributeError")
  }

  // ---------------------------------------------------------------------
  // Following a path

  /** One subscript: an in-range position of a list or a key of a mapping. */
  function Step(n: Node, k: Key): Option<Node> {
    match n
    case Seq(items) => if k.Index? && 0 <= k.index < |items| then Some(items[k.index]) else None
    case Map(es) => if k.Name? then Lookup(es, k.name) else None
    case _ => None
  }

  /** The value a path leads to from the root, if it leads anywhere. */
  function Follow(n: Node, p: Path): Option<Node>
    decreases |p|
  {
    if |p| == 0 then Some(n)
    else
      match Step(n, p[0])
      case None => None
      case Some(v) => Follow(v, p[1..])
  }

  /** `p` leads to an entry keyed `key` that equals `value`. */
  predicate Hit(n: Node, key: Key, value: Node, p: Path) {
    |p| > 0 && p[|p| - 1] == key && Follow(n, p).Some? && MergeDict.PyEq(value, Follow(n, p).value)
  }

  /** The path starts at the j-th item or a later one. */
  predicate HeadFrom(n: Node, i: nat, p: Path) {
    |p| > 0 && exists j :: i <= j < Size(n) && p[0] == KeyAt(n, j)
  }

  /** The i-th key leads to the i-th value. */
  lemma StepAt(n: Node, i: nat)
    requires Unique(n) && i < Size(n)
    ensures Step(n, KeyAt(n, i)) == Some(ValueAt(n, i))
    ensures Unique(ValueAt(n, i))
  {
    if n.Map? {
      var es := n.entries;
      var r := Lookup(es, es[i].key);
      var j :| 0 <= j < |es| && es[j] == Entry(es[i].key, r.value);
      assert j == i;
    }
  }

  /** A subscript that leads somewhere is one of the iteration's keys. */
  lemma StepKey(n: Node, k: Key)
    requires Step(n, k).Some?
    ensures Container(n) && exists j :: 0 <= j < Size(n) && k == KeyAt(n, j)
  {
    if n.Map? {
      var es := n.entries;
      var j :| 0 <= j < |es| && es[j] == Entry(k.name, Step(n, k).value);
      assert k == KeyAt(n, j);
    } else {
      assert k == KeyAt(n, k.index);
    }
  }

  lemma PrefixMember(k: Key, ps: seq<Path>, p: Path)
    ensures p in Prefix(k, ps) <==> |p| > 0 && p[0] == k && p[1..] in ps
  {
    if |p| > 0 && p[0] == k && p[1..] in ps {
      var j :| 0 <= j < |ps| && ps[j] == p[1..];
      assert Prefix(k, ps)[j] == p;
    }
  }

  /** A path through the i-th item hits exactly when its tail hits inside
      the i-th value. */
  lemma HitThrough(n: Node, key: Key, value: Node, i: nat, p: Path)
    requires Unique(n) && i < Size(n) && |p| >= 2 && p[0] == KeyAt(n, i)
    ensures Hit(n, key, value, p) <==> Hit(ValueAt(n, i), key, value, p[1..])
  {
    StepAt(n, i);
    assert p[1..][|p[1..]| - 1] == p[|p| - 1];
  }

  /** What `traverse` finds at the i-th item are exactly the hits through
      that item. */
  lemma ItemExact(n: Node, key: Key, value: Node, i: nat, p: Path)
    requires Unique(n) && i < Size(n) && |p| > 0 && p[0] == KeyAt(n, i)
    ensures p in Item(n, key, value, i) <==> Hit(n, key, value, p)
    decreases Height(n), Size(n) - i, 1
  {
    if |p| == 1 {
      ItemShallow(n, key, value, i, p);
    } else {
      ItemDeep(n, key, value, i, p);
    }
  }

  /** The one-key path of the i-th item is found when the item matches. */
  lemma ItemShallow(n: Node, key: Key, value: Node, i: nat, p: Path)
    requires Unique(n) && i < Size(n) && |p| == 1 && p[0] == KeyAt(n, i)
    ensures p in Item(n, key, value, i) <==> Hit(n, key, value, p)
  {
    var k := KeyAt(n, i);
    var v := ValueAt(n, i);
    var inner := if Container(v) then Walk(v, key, value, 0) else [];
    assert p == [k];
    assert Follow(n, p) == Some(v) by {
      StepAt(n, i);
      assert Follow(n, p) == Follow(v, p[1..]);
    }
    assert p !in (if Container(v) then Prefix(k, inner) else []) by {
      PrefixMember(k, inner, p);
      WalkNonEmpty(v, key, value, 0);
    }
  }

  /** A longer path through the i-th item is found when its tail is found
      inside the item's value. */
  lemma {:induction false} ItemDeep(n: Node, key: Key, value: Node, i: nat, p: Path)
    requires Unique(n) && i < Size(n) && |p| > 1 && p[0] == KeyAt(n, i)
    ensures p in Item(n, key, value, i) <==> Hit(n, key, value, p)
    decreases Height(n), Size(n) - i, 0
  {
    var k := KeyAt(n, i);
    var v := ValueAt(n, i);
    var inner := if Container(v) then Walk(v, key, value, 0) else [];
    assert p in Item(n, key, value, i) <==> Container(v) && p[1..] in inner by {
      PrefixMember(k, inner, p);
    }
    HitThrough(n, key, value, i, p);
    StepAt(n, i);
    if Container(v) {
      WalkExact(v, key, value, 0, p[1..]);
    }
    if Hit(v, key, value, p[1..]) {
      StepKey(v, p[1..][0]);
    }
  }

  /** The paths `traverse` finds from the i-th item on are exactly the hits
      that start at that item or a later one. */
  lemma {:induction false} WalkExact(n: Node, key: Key, value: Node, i: nat, p: Path)
    requires Unique(n) && i <= Size(n)
    ensures p in Walk(n, key, value, i) <==> Hit(n, key, value, p) && HeadFrom(n, i, p)
    decreases Height(n), Size(n) - i, 2
  {
    if i < Size(n) {
      var k := KeyAt(n, i);
      var item := Item(n, key, value, i);
      var rest := Walk(n, key, value, i + 1);
      assert p in Walk(n, key, value, i) <==> p in item || p in rest;
      assert p in rest <==> Hit(n, key, value, p) && HeadFrom(n, i + 1, p) by {
        WalkExact(n, key, value, i + 1, p);
      }
      assert p in item <==> Hit(n, key, value, p) && |p| > 0 && p[0] == k by {
        if |p| > 0 && p[0] == k {
          ItemExact(n, key, value, i, p);
        } else if p in item {
          ItemHead(n, key, value, i, p);
        }
      }
      assert HeadFrom(n, i, p) <==> |p| > 0 && (p[0] == k || HeadFrom(n, i + 1, p));
    }
  }

  /** Everything found at the i-th item starts with its key. */
  lemma ItemHead(n: Node, key: Key, value: Node, i: nat, p: Path)
    requires i < Size(n) && p in Item(n, key, value, i)
    ensures |p| > 0 && p[0] == KeyAt(n, i)
  {
    var v := ValueAt(n, i);
    if Container(v) {
      PrefixMember(KeyAt(n, i), Walk(v, key, value, 0), p);
    }
  }

  /** `traverse` lists exactly the paths from the root to an entry keyed
      `key` whose value equals `value`. */
  lemma TraverseExact(tree: Node, key: Key, value: Node, p: Path)
    requires Unique(tree) && Container(tree)
    ensures p in Traverse(tree, key, value).value <==> Hit(tree, key, value, p)
  {
    WalkExact(tree, key, value, 0, p);
    if Hit(tree, key, value, p) {
      StepKey(tree, p[0]);
    }
  }

  // ---------------------------------------------------------------------
  // Order

  /** The item each found path starts at. */
  function Origins(n: Node, key: Key, value: Node, i: nat): (r: seq<nat>)
    requires i <= Size(n)
    ensures |r| == |Walk(n, key, value, i)|
    decreases Height(n), Size(n) - i
  {
    if i == Size(n) then []
    else
      var k := KeyAt(n, i);
      var v := ValueAt(n, i);
      var here := if key == k && MergeDict.PyEq(value, v) then [i] else [];
      var below := if Container(v) then seq(|Walk(v, key, value, 0)|, _ => i) else [];
      here + below + Origins(n, key, value, i + 1)
  }

  /** Each found path starts with the key of its origin, an item at or
      after the i-th. */
  predicate StartsAt(n: Node, w: seq<Path>, o: seq<nat>, i: nat) {
    |o| == |w| && forall a :: 0 <= a < |w| ==> i <= o[a] < Size(n) && |w[a]| > 0 && w[a][0] == KeyAt(n, o[a])
  }

  /** Origins never decrease, and a path after another of the same origin
      goes deeper than that item. */
  predicate Ordered(w: seq<Path>, o: seq<nat>) {
    |o| == |w| && forall a, b :: 0 <= a < b < |w| ==> o[a] <= o[b] && (o[a] == o[b] ==> |w[b]| > 1)
  }

  /** Paths come item by item in iteration order, each starting with its
      item's key (a list position for a list), and within one item the
      match at the item itself comes before the matches inside it. */
  lemma {:induction false} WalkOrder(n: Node, key: Key, value: Node, i: nat)
    requires i <= Size(n)
    ensures StartsAt(n, Walk(n, key, value, i), Origins(n, key, value, i), i)
    ensures Ordered(Walk(n, key, value, i), Origins(n, key, value, i))
    decreases Height(n), Size(n) - i
  {
    if i < Size(n) {
      var k := KeyAt(n, i);
      var v := ValueAt(n, i);
      var here := if key == k && MergeDict.PyEq(value, v) then [[k]] else [];
      var below := if Container(v) then Prefix(k, Walk(v, key, value, 0)) else [];
      var rest := Walk(n, key, value, i + 1);
      assert Item(n, key, value, i) == here + below;
      var oh := if key == k && MergeDict.PyEq(value, v) then [i] else [];
      var ob := if Container(v) then seq(|Walk(v, key, value, 0)|, _ => i) else [];
      var orest := Origins(n, key, value, i + 1);
      assert Walk(n, key, value, i) == here + below + rest;
      assert Origins(n, key, value, i) == oh + ob + orest;
      assert forall a :: 0 <= a < |below| ==> |below[a]| > 1 && below[a][0] == k && ob[a] == i by {
        if Container(v) {
          WalkNonEmpty(v, key, value, 0);
        }
      }
      WalkOrder(n, key, value, i + 1);
      OrderJoin(n, here, below, rest, oh, ob, orest, k, i);
    }
  }

  /** Every path `traverse` finds has at least one key. */
  lemma {:induction false} WalkNonEmpty(n: Node, key: Key, value: Node, i: nat)
    requires i <= Size(n)
    ensures forall p :: p in Walk(n, key, value, i) ==> |p| > 0
    decreases Size(n) - i
  {
    if i < Size(n) {
      WalkNonEmpty(n, key, value, i + 1);
    }
  }

  /** The orders of one item's segment and of the later items combine. */
  lemma OrderJoin(n: Node, here: seq<Path>, below: seq<Path>, rest: seq<Path>,
                  oh: seq<nat>, ob: seq<nat>, orest: seq<nat>, k: Key, i: nat)
    requires i < Size(n) && k == KeyAt(n, i)
    requires |oh| == |here| <= 1 && |ob| == |below|
    requires forall a :: 0 <= a < |here| ==> here[a] == [k] && oh[a] == i
    requires forall a :: 0 <= a < |below| ==> |below[a]| > 1 && below[a][0] == k && ob[a] == i
    requires StartsAt(n, rest, orest, i + 1) && Ordered(rest, orest)
    ensures StartsAt(n, here + below + rest, oh + ob + orest, i)
    ensures Ordered(here + below + rest, oh + ob + orest)
  {
    var w := here + below + rest;
    var o := oh + ob + orest;
    var m := |here| + |below|;
    assert forall a :: 0 <= a < m ==> o[a] == i && |w[a]| > 0 && w[a][0] == k;
    assert forall a :: m <= a < |w| ==> o[a] == orest[a - m] && w[a] == rest[a - m];
  }
}

=== FILE: sjson_merge.dfy ===
/** `sjsonmap` of ModImporter/modimporter.py: the recursive merge of an SJSON
    patch tree into a base tree, with the reserved markers `_sequence`,
    `_append`, `_replace` and `_delete`.

    The merge is written once, parametrised by the points where the copies
    of it differ. ModImporter's copy returns the base when base and patch
    are scalars of the same type; the evidently intended behaviour returns
    the patch. `Merge` is the corrected merge; `MergeAsWritten` is
    ModImporter's code as it stands; `MergeSggmi` is the copy in SGGMI.py,
    which raises on same-type scalars and in the default list branch. */
module SjsonMerge {
  import opened Wrappers
  import opened PyStr
  import PyInt
  import opened Nodes

  const SequenceKey: string := "_sequence"
  const AppendMark: string := "_append"
  const ReplaceMark: string := "_replace"
  const DeleteMark: string := "_delete"

  function Marker(s: string): Node {
    Scalar(Str(s))
  }

  /** The first item of a list equals the marker string. */
  predicate HeadIs(ps: seq<Node>, m: string) {
    |ps| > 0 && ps[0] == Marker(m)
  }

  /** A mapping whose `_sequence` value is truthy: it stands for a list. */
  predicate Sequenced(p: Node) {
    p.Map? && Truthy(Get(p.entries, SequenceKey))
  }

  function Gap(n: nat): (r: seq<Node>)
    ensures |r| == n && forall i :: 0 <= i < n ==> r[i] == DNE
  {
    seq(n, _ => DNE)
  }

  /** `S[n] = v` after padding `S` with DNE up to index `n`; a negative `n`
      counts from the end, and one below `-len(S)` raises IndexError. */
  function Place(slots: seq<Node>, n: int, v: Node): Result<seq<Node>> {
    if n >= |slots| then Ok(slots + Gap(n - |slots|) + [v])
    else if n >= 0 then Ok(slots[n := v])
    else if n >= -|slots| then Ok(slots[|slots| + n := v])
    else Fail("IndexError")
  }

  /** The list a `_sequence` mapping folds into: entries are visited in
      order, keys `int()` rejects are skipped. */
  function Sparse(es: seq<Entry>): Result<seq<Node>>
    decreases |es|
  {
    if |es| == 0 then Ok([])
    else
      var s :- Sparse(es[..|es| - 1]);
      var e := es[|es| - 1];
      match PyInt.ParseInt(e.key)
      case None => Ok(s)
      case Some(n) => Place(s, n, e.value)
  }

  /** The folded list holds entry values and DNE only, so a bound on the
      entries' depth bounds its items. */
  lemma {:induction false} SparseBound(es: seq<Entry>, h: nat)
    requires forall i :: 0 <= i < |es| ==> Height(es[i].value) <= h
    requires Sparse(es).Ok?
    ensures forall i :: 0 <= i < |Sparse(es).value| ==> Height(Sparse(es).value[i]) <= h
    decreases |es|
  {
    if |es| > 0 {
      var init := es[..|es| - 1];
      var e := es[|es| - 1];
      assert forall i :: 0 <= i < |init| ==> init[i] == es[i];
      SparseBound(init, h);
      var s := Sparse(init).value;
      match PyInt.ParseInt(e.key)
      case None =>
      case Some(n) =>
        PlaceBound(s, n, e.value, h);
    }
  }

  lemma PlaceBound(slots: seq<Node>, n: int, v: Node, h: nat)
    requires forall i :: 0 <= i < |slots| ==> Height(slots[i]) <= h
    requires Height(v) <= h
    requires Place(slots, n, v).Ok?
    ensures forall i :: 0 <= i < |Place(slots, n, v).value| ==> Height(Place(slots, n, v).value[i]) <= h
  {
  }

  /** The `_sequence` fold of the patch, done before anything else. */
  function Fold(patch: Node): (r: Result<Node>)
    ensures r.Ok? ==> Height(r.value) <= Height(patch)
    ensures !Sequenced(patch) ==> r == Ok(patch)
    ensures Sequenced(patch) && r.Ok? ==> r.value.Seq?
  {
    if Sequenced(patch) then
      var s :- Sparse(patch.entries);
      SparseBound(patch.entries, MaxEntryHeight(patch.entries));
      MaxHeightBound(s, MaxEntryHeight(patch.entries));
      Ok(Seq(s))
    else Ok(patch)
  }

  /** What a merge of two scalars of the same type does: keep the base,
      take the patch, or raise (the copies that fall through to `.items()`). */
  datatype LeafRule = KeepBase | TakePatch | Raise

  /** The copies of the merge differ in their scalar rule and in whether
      the default list branch works (`extend`) or raises AttributeError
      (`expand`, which lists do not have). */
  datatype Copy = Copy(leaf: LeafRule, mergesLists: bool)

  /** ModImporter/modimporter.py as written. */
  const ModImporterCopy := Copy(KeepBase, true)
  /** SGGMI.py as written. */
  const SggmiCopy := Copy(Raise, false)
  /** The evidently intended merge. */
  const IntendedCopy := Copy(TakePatch, true)

  function MergeBy(c: Copy, base: Node, patch: Node): Result<Node>
    decreases Height(patch), 2
  {
    if patch.DNE? then Ok(base)
    else
      var p :- Fold(patch);
      MergeFolded(c, base, p)
  }

  /** The merge once the patch is folded: a patch of another type replaces
      the base, markers are obeyed, containers are merged item by item. */
  function MergeFolded(c: Copy, base: Node, p: Node): Result<Node>
    decreases Height(p), 1
  {
    if !SameType(base, p) then Ok(p)
    else
      match p
      case Seq(ps) =>
        if HeadIs(ps, AppendMark) then Ok(Seq(base.items + ps[1..]))
        else if HeadIs(ps, DeleteMark) then Ok(DNE)
        else if HeadIs(ps, ReplaceMark) then Ok(Seq(ps[1..]))
        else if !c.mergesLists then Fail("AttributeError")
        else
          var items :- MergeItems(c, base.items, ps);
          Ok(Seq(items))
      case Map(pes) =>
        if Truthy(Get(pes, DeleteMark)) then Ok(DNE)
        else if Truthy(Get(pes, ReplaceMark)) then Ok(Map(Remove(pes, ReplaceMark)))
        else
          var es :- MergeEntries(c, base.entries, pes);
          Ok(Map(es))
      case _ =>
        match c.leaf
        case KeepBase => Ok(base)
        case TakePatch => Ok(p)
        case Raise => Fail("AttributeError")
  }

  /** A patch that needs no folding goes straight to the folded merge. */
  lemma Unfolded(c: Copy, base: Node, patch: Node)
    requires !patch.DNE? && !Sequenced(patch)
    ensures MergeBy(c, base, patch) == MergeFolded(c, base, patch)
  {
  }

  /** The list branch: the base padded with DNE to the patch's length, then
      each position merged in turn. */
  function MergeItems(c: Copy, bs: seq<Node>, ps: seq<Node>): Result<seq<Node>>
    decreases Height(Seq(ps)), 0, |ps|
  {
    if |ps| == 0 then Ok(bs)
    else
      var m :- MergeBy(c, At(bs, 0), ps[0]);
      assert Height(Seq(ps[1..])) <= Height(Seq(ps));
      var rest :- MergeItems(c, if |bs| > 0 then bs[1..] else [], ps[1..]);
      Ok([m] + rest)
  }

  /** The mapping branch: each patch key in turn, merged with the base's
      value under that key. */
  function MergeEntries(c: Copy, bes: seq<Entry>, pes: seq<Entry>): Result<seq<Entry>>
    decreases Height(Map(pes)), 0, |pes|
  {
    if |pes| == 0 then Ok(bes)
    else
      var m :- MergeBy(c, Get(bes, pes[0].key), pes[0].value);
      assert Height(Map(pes[1..])) <= Height(Map(pes));
      MergeEntries(c, Put(bes, pes[0].key, m), pes[1..])
  }

  /** `safeget(items, k)`. */
  function At(items: seq<Node>, k: int): Node {
    if 0 <= k < |items| then items[k] else DNE
  }

  /** The merge, with the patch's scalar winning over a base scalar of the
      same type. */
  function Merge(base: Node, patch: Node): Result<Node> {
    MergeBy(IntendedCopy, base, patch)
  }

  /** The merge as ModImporter/modimporter.py writes it. */
  function MergeAsWritten(base: Node, patch: Node): Result<Node> {
    MergeBy(ModImporterCopy, base, patch)
  }

  /** The merge as SGGMI.py writes it. */
  function MergeSggmi(base: Node, patch: Node): Result<Node> {
    MergeBy(SggmiCopy, base, patch)
  }

  // ---------------------------------------------------------------------
  // Precedence

  /** An absent patch leaves the base as it is, and a patch that is not a
      `_sequence` mapping and differs in type from the base replaces it
      wholesale. */
  lemma MergeAbsentOrMismatch(c: Copy, base: Node, patch: Node)
    ensures patch.DNE? ==> MergeBy(c, base, patch) == Ok(base)
    ensures !patch.DNE? && !Sequenced(patch) && !SameType(base, patch) ==> MergeBy(c, base, patch) == Ok(patch)
  {
  }

  /** Merging into an absent value yields the folded patch. */
  lemma MergeIntoAbsent(c: Copy, patch: Node)
    requires !patch.DNE?
    ensures MergeBy(c, DNE, patch) == Fold(patch)
  {
    if Fold(patch).Ok? {
      assert !SameType(DNE, Fold(patch).value);
    }
  }

  /** The markers at the head of a list patch, in the order they are
      tested: `_append` keeps the base and adds the rest of the patch after
      it, `_delete` removes the value, `_replace` puts the rest of the patch
      in its place. */
  lemma MergeListMarkers(c: Copy, bs: seq<Node>, ps: seq<Node>)
    ensures HeadIs(ps, AppendMark) ==>
      MergeBy(c, Seq(bs), Seq(ps)) == Ok(Seq(bs + ps[1..]))
      && MergeBy(c, Seq(bs), Seq(ps)).value.items[..|bs|] == bs
    ensures HeadIs(ps, DeleteMark) ==> MergeBy(c, Seq(bs), Seq(ps)) == Ok(DNE)
    ensures HeadIs(ps, ReplaceMark) ==> MergeBy(c, Seq(bs), Seq(ps)) == Ok(Seq(ps[1..]))
  {
    if HeadIs(ps, AppendMark) {
      assert (bs + ps[1..])[..|bs|] == bs;
    }
  }

  /** On a mapping patch `_delete` is tested before `_replace`, and a
      replacing patch loses its `_replace` key and is not merged. */
  lemma MergeMapMarkers(c: Copy, bes: seq<Entry>, pes: seq<Entry>)
    requires !Sequenced(Map(pes))
    ensures Truthy(Get(pes, DeleteMark)) ==> MergeBy(c, Map(bes), Map(pes)) == Ok(DNE)
    ensures !Truthy(Get(pes, DeleteMark)) && Truthy(Get(pes, ReplaceMark)) ==>
      && MergeBy(c, Map(bes), Map(pes)) == Ok(Map(Remove(pes, ReplaceMark)))
      && Lookup(MergeBy(c, Map(bes), Map(pes)).value.entries, ReplaceMark) == None
  {
    Unfolded(c, Map(bes), Map(pes));
    if !Truthy(Get(pes, DeleteMark)) && Truthy(Get(pes, ReplaceMark)) {
      var kept := Remove(pes, ReplaceMark);
      assert MergeFolded(c, Map(bes), Map(pes)) == Ok(Map(kept));
      assert Lookup(kept, ReplaceMark) == None by {
        RemoveSpec(pes, ReplaceMark);
      }
    }
  }

  /** Two scalars of the same type: ModImporter's copy keeps the base, the
      copy in SGGMI.py raises, the corrected merge takes the patch. */
  lemma MergeScalars(base: Atom, patch: Atom)
    requires SameType(Scalar(base), Scalar(patch))
    ensures MergeAsWritten(Scalar(base), Scalar(patch)) == Ok(Scalar(base))
    ensures MergeSggmi(Scalar(base), Scalar(patch)).Fail?
    ensures Merge(Scalar(base), Scalar(patch)) == Ok(Scalar(patch))
  {
    Unfolded(ModImporterCopy, Scalar(base), Scalar(patch));
    Unfolded(SggmiCopy, Scalar(base), Scalar(patch));
    Unfolded(IntendedCopy, Scalar(base), Scalar(patch));
  }

  /** Wherever the copy in SGGMI.py gets through, every copy computes the
      same tree: it never reaches a same-type scalar pair or the default
      list branch, the only places where the copies differ. */
  lemma {:induction false} SggmiAgrees(c: Copy, base: Node, patch: Node)
    requires MergeSggmi(base, patch).Ok?
    ensures MergeBy(c, base, patch) == MergeSggmi(base, patch)
    decreases Height(patch), 2
  {
    if !patch.DNE? {
      var p := Fold(patch).value;
      assert MergeBy(c, base, patch) == MergeFolded(c, base, p);
      assert MergeSggmi(base, patch) == MergeFolded(SggmiCopy, base, p);
      FoldedAgrees(c, base, p);
    }
  }

  lemma {:induction false} FoldedAgrees(c: Copy, base: Node, p: Node)
    requires MergeFolded(SggmiCopy, base, p).Ok?
    ensures MergeFolded(c, base, p) == MergeFolded(SggmiCopy, base, p)
    decreases Height(p), 1
  {
    if SameType(base, p) && p.Map? && !Truthy(Get(p.entries, DeleteMark)) && !Truthy(Get(p.entries, ReplaceMark)) {
      EntriesAgree(c, base.entries, p.entries);
    }
  }

  lemma {:induction false} EntriesAgree(c: Copy, bes: seq<Entry>, pes: seq<Entry>)
    requires MergeEntries(SggmiCopy, bes, pes).Ok?
    ensures MergeEntries(c, bes, pes) == MergeEntries(SggmiCopy, bes, pes)
    decreases Height(Map(pes)), 0, |pes|
  {
    if |pes| > 0 {
      assert Height(pes[0].value) < Height(Map(pes));
      SggmiAgrees(c, Get(bes, pes[0].key), pes[0].value);
      var m := MergeBy(SggmiCopy, Get(bes, pes[0].key), pes[0].value).value;
      assert Height(Map(pes[1..])) <= Height(Map(pes));
      EntriesAgree(c, Put(bes, pes[0].key, m), pes[1..]);
    }
  }

  /** A mod that sets a string field to a new string: the code as written
      leaves the old value in place. */
  lemma AsWrittenIgnoresNewValue()
    ensures MergeAsWritten(Map([Entry("Name", Marker("Old"))]), Map([Entry("Name", Marker("New"))]))
      == Ok(Map([Entry("Name", Marker("Old"))]))
    ensures Merge(Map([Entry("Name", Marker("Old"))]), Map([Entry("Name", Marker("New"))]))
      == Ok(Map([Entry("Name", Marker("New"))]))
  {
    var old1 := [Entry("Name", Marker("Old"))];
    var new1 := [Entry("Name", Marker("New"))];
    assert !Sequenced(Map(new1));
    assert Get(new1, DeleteMark) == DNE;
    assert Get(new1, ReplaceMark) == DNE;
    assert Get(old1, "Name") == Marker("Old");
    assert MergeBy(ModImporterCopy, Marker("Old"), Marker("New")) == Ok(Marker("Old"));
    assert MergeBy(IntendedCopy, Marker("Old"), Marker("New")) == Ok(Marker("New"));
    assert Put(old1, "Name", Marker("Old")) == old1;
    assert Put(old1, "Name", Marker("New")) == new1;
    assert new1[1..] == [];
    assert MergeEntries(ModImporterCopy, old1, new1) == MergeEntries(ModImporterCopy, old1, []);
    assert MergeEntries(IntendedCopy, old1, new1) == MergeEntries(IntendedCopy, new1, []);
  }

  /** Under the corrected merge, a present scalar patch always wins. */
  lemma MergeScalarWins(base: Node, patch: Atom)
    ensures Merge(base, Scalar(patch)) == Ok(Scalar(patch))
  {
    Unfolded(IntendedCopy, base, Scalar(patch));
  }

  // ---------------------------------------------------------------------
  // The default list merge, position by position

  /** Without a marker, the merged list is as long as the longer of the two;
      each patched position holds the merge of the base item (DNE past its
      end) with the patch item, and the positions past the patch keep the
      base items. It fails exactly when one of the item merges fails. */
  lemma {:induction false} MergeItemsPointwise(c: Copy, bs: seq<Node>, ps: seq<Node>)
    ensures MergeItems(c, bs, ps).Ok? <==> forall k :: 0 <= k < |ps| ==> MergeBy(c, At(bs, k), ps[k]).Ok?
    ensures MergeItems(c, bs, ps).Ok? ==>
      var items := MergeItems(c, bs, ps).value;
      && |items| == (if |bs| < |ps| then |ps| else |bs|)
      && (forall k :: 0 <= k < |ps| ==> Ok(items[k]) == MergeBy(c, At(bs, k), ps[k]))
      && (forall k :: |ps| <= k < |bs| ==> items[k] == bs[k])
    decreases |ps|
  {
    if |ps| > 0 {
      var tail := if |bs| > 0 then bs[1..] else [];
      MergeItemsPointwise(c, tail, ps[1..]);
      assert forall k :: 1 <= k < |ps| ==> At(bs, k) == At(tail, k - 1) && ps[k] == ps[1..][k - 1];
      if MergeItems(c, bs, ps).Ok? {
        var rest := MergeItems(c, tail, ps[1..]).value;
        assert MergeItems(c, bs, ps).value == [MergeBy(c, At(bs, 0), ps[0]).value] + rest;
      } else if MergeBy(c, At(bs, 0), ps[0]).Ok? {
        var k :| 0 <= k < |ps[1..]| && MergeBy(c, At(tail, k), ps[1..][k]).Fail?;
        assert MergeBy(c, At(bs, k + 1), ps[k + 1]).Fail?;
      }
    }
  }

  // ---------------------------------------------------------------------
  // The default mapping merge, key by key

  /** Without a marker, a key of the patch holds the merge of the base's
      value under it (DNE when absent) with the patch's value; every other
      key keeps its base value; base keys keep their place and new keys
      follow them. */
  lemma {:induction false} MergeEntriesPointwise(c: Copy, bes: seq<Entry>, pes: seq<Entry>)
    requires UniqueKeys(pes)
    requires MergeEntries(c, bes, pes).Ok?
    ensures var es := MergeEntries(c, bes, pes).value;
      && (forall k :: k !in Keys(pes) ==> Lookup(es, k) == Lookup(bes, k))
      && (forall i :: 0 <= i < |pes| ==>
            Lookup(es, pes[i].key).Some?
            && MergeBy(c, Get(bes, pes[i].key), pes[i].value) == Ok(Lookup(es, pes[i].key).value))
      && Keys(bes) <= Keys(es)
    decreases |pes|
  {
    if |pes| > 0 {
      var k0 := pes[0].key;
      var m0 := MergeBy(c, Get(bes, k0), pes[0].value).value;
      var bes' := Put(bes, k0, m0);
      var es := MergeEntries(c, bes', pes[1..]).value;
      assert MergeEntries(c, bes, pes).value == es;
      UniqueTail(pes);
      assert forall k :: k !in Keys(pes) ==> Lookup(es, k) == Lookup(bes, k) by {
        MergeEntriesPointwise(c, bes', pes[1..]);
        KeysCons(pes[0], pes[1..]);
      }
      forall i | 0 <= i < |pes|
        ensures Lookup(es, pes[i].key).Some?
        ensures MergeBy(c, Get(bes, pes[i].key), pes[i].value) == Ok(Lookup(es, pes[i].key).value)
      {
        MergeEntriesPointwise(c, bes', pes[1..]);
        KeysCons(pes[0], pes[1..]);
        if i == 0 {
          assert k0 !in Keys(pes[1..]);
        } else {
          assert pes[i] == pes[1..][i - 1];
          assert pes[i].key != k0;
        }
      }
      assert Keys(bes) <= Keys(es) by {
        MergeEntriesPointwise(c, bes', pes[1..]);
        PutKeys(bes, k0, m0);
        PrefixTrans(Keys(bes), Keys(bes'), Keys(es));
      }
    }
  }

  // ---------------------------------------------------------------------
  // The `_sequence` fold, against a reference reading

  /** A key `int()` accepts, with the number it denotes. */
  function KeyIndex(k: string): Option<int> {
    PyInt.ParseInt(k)
  }

  /** No key denotes a negative index. */
  predicate NoNegativeKeys(es: seq<Entry>) {
    forall i :: 0 <= i < |es| ==> KeyIndex(es[i].key).None? || KeyIndex(es[i].key).value >= 0
  }

  /** One more than the largest index a key denotes; 0 when none does. */
  function Extent(es: seq<Entry>): nat
    requires NoNegativeKeys(es)
    decreases |es|
  {
    if |es| == 0 then 0
    else
      var e := es[|es| - 1];
      var n := Extent(es[..|es| - 1]);
      match KeyIndex(e.key)
      case None => n
      case Some(m) => if m + 1 > n then m + 1 else n
  }

  /** The value of the last entry whose key denotes `i`; DNE when none does. */
  function Slot(es: seq<Entry>, i: nat): Node
    decreases |es|
  {
    if |es| == 0 then DNE
    else if KeyIndex(es[|es| - 1].key) == Some(i) then es[|es| - 1].value
    else Slot(es[..|es| - 1], i)
  }

  lemma {:induction false} SlotBeyondExtent(es: seq<Entry>, i: nat)
    requires NoNegativeKeys(es) && i >= Extent(es)
    ensures Slot(es, i) == DNE
    decreases |es|
  {
    if |es| > 0 {
      SlotBeyondExtent(es[..|es| - 1], i);
    }
  }

  /** With no negative key, the fold cannot fail, is `Extent` long, and
      each position holds the last value given for it, DNE in the gaps. */
  lemma {:induction false} SparseSlots(es: seq<Entry>)
    requires NoNegativeKeys(es)
    ensures Sparse(es).Ok?
    ensures |Sparse(es).value| == Extent(es)
    ensures forall i :: 0 <= i < Extent(es) ==> Sparse(es).value[i] == Slot(es, i)
    decreases |es|
  {
    if |es| > 0 {
      var init := es[..|es| - 1];
      var e := es[|es| - 1];
      assert NoNegativeKeys(init) by {
        forall i | 0 <= i < |init|
          ensures KeyIndex(init[i].key).None? || KeyIndex(init[i].key).value >= 0
        {
          assert init[i] == es[i];
        }
      }
      SparseSlots(init);
      var s := Sparse(init).value;
      match KeyIndex(e.key)
      case None =>
      case Some(m) =>
        assert m >= 0 by {
          assert KeyIndex(es[|es| - 1].key).None? || KeyIndex(es[|es| - 1].key).value >= 0;
        }
        assert Sparse(es) == Place(s, m, e.value);
        assert Extent(es) == if m + 1 > |s| then m + 1 else |s|;
        PlaceSlots(s, m, e.value);
        forall i | 0 <= i < Extent(es)
          ensures Sparse(es).value[i] == Slot(es, i)
        {
          if i != m {
            assert Slot(es, i) == Slot(init, i);
            if i >= |s| {
              SlotBeyondExtent(init, i);
            }
          }
        }
    }
  }

  /** Placing at a non-negative index. */
  lemma PlaceSlots(s: seq<Node>, m: nat, v: Node)
    ensures Place(s, m, v).Ok?
    ensures |Place(s, m, v).value| == if m < |s| then |s| else m + 1
    ensures forall i :: 0 <= i < |Place(s, m, v).value| ==>
      Place(s, m, v).value[i] == if i == m then v else if i < |s| then s[i] else DNE
  {
  }

  /** When the first key `int()` accepts denotes a negative index, the fold
      raises IndexError. */
  lemma {:induction false} SparseNegativeFirst(es: seq<Entry>, j: nat, n: int)
    requires j < |es| && KeyIndex(es[j].key) == Some(n) && n < 0
    requires forall i :: 0 <= i < j ==> KeyIndex(es[i].key).None?
    ensures Sparse(es).Fail?
    decreases |es|
  {
    var init := es[..|es| - 1];
    if j == |es| - 1 {
      assert forall i :: 0 <= i < |init| ==> init[i] == es[i];
      SparseSkips(init);
      NegativeAfterNothing(es, n);
    } else {
      assert init[j] == es[j];
      assert forall i :: 0 <= i < j ==> init[i] == es[i];
      SparseNegativeFirst(init, j, n);
    }
  }

  lemma NegativeAfterNothing(pre: seq<Entry>, n: int)
    requires |pre| > 0 && Sparse(pre[..|pre| - 1]) == Ok([])
    requires KeyIndex(pre[|pre| - 1].key) == Some(n) && n < 0
    ensures Sparse(pre).Fail?
  {
    var e := pre[|pre| - 1];
    assert Place([], n, e.value).Fail?;
    assert Sparse(pre) == Place([], n, e.value);
  }

  lemma {:induction false} SparseSkips(es: seq<Entry>)
    requires forall i :: 0 <= i < |es| ==> KeyIndex(es[i].key).None?
    ensures Sparse(es) == Ok([])
    decreases |es|
  {
    if |es| > 0 {
      SparseSkips(es[..|es| - 1]);
    }
  }
}

=== FILE: sort_mods.dfy ===
/** `sortmods` / `sort_mods`: a target's queue ordered by priority before
    its edits are made. Python's sort is stable, so commands of equal
    priority keep their queue order; the numbering copies then set every
    command's id to its new position.

    ModImporter/modimporter.py sorts into a fresh deque bound to
    `codes[base]`, while the edit loop goes on with the deque it was handed:
    the edits are made in queue order, not priority order
    (`AppliedAsWritten`). The evidently intended order is the sorted one
    (`Applied`). */
module SortMods {
  import opened Wrappers
  import opened Scheduler

  predicate SortedByEp(q: seq<Command>) {
    forall i, j :: 0 <= i < j < |q| ==> q[i].ep <= q[j].ep
  }

  /** `c` placed before the first command of a sorted queue whose priority
      is not lower. */
  function Insert(c: Command, q: seq<Command>): (r: seq<Command>)
    ensures |r| == |q| + 1
    ensures multiset(r) == multiset(q) + multiset{c}
    decreases |q|
  {
    if |q| == 0 || c.ep <= q[0].ep then [c] + q
    else
      assert q == [q[0]] + q[1..];
      [q[0]] + Insert(c, q[1..])
  }

  lemma {:induction false} InsertSorted(c: Command, q: seq<Command>)
    requires SortedByEp(q)
    ensures SortedByEp(Insert(c, q))
    decreases |q|
  {
    if |q| > 0 && c.ep > q[0].ep {
      var rest := Insert(c, q[1..]);
      assert SortedByEp(rest) by {
        assert SortedByEp(q[1..]) by {
          assert forall k :: 0 <= k < |q[1..]| ==> q[1..][k] == q[k + 1];
        }
        InsertSorted(c, q[1..]);
      }
      assert forall k :: 0 <= k < |q[1..]| ==> q[0].ep <= q[1..][k].ep by {
        assert forall k :: 0 <= k < |q[1..]| ==> q[1..][k] == q[k + 1];
      }
      InsertBounded(q[0].ep, c, q[1..]);
      SortedCons(q[0], rest);
    } else if |q| > 0 {
      SortedCons(c, q);
    }
  }

  /** A bound below every priority stays below after an insertion. */
  lemma {:induction false} InsertBounded(v: int, c: Command, q: seq<Command>)
    requires v <= c.ep && forall k :: 0 <= k < |q| ==> v <= q[k].ep
    ensures forall k :: 0 <= k < |Insert(c, q)| ==> v <= Insert(c, q)[k].ep
    decreases |q|
  {
    if |q| > 0 && c.ep > q[0].ep {
      assert forall k :: 0 <= k < |q[1..]| ==> q[1..][k] == q[k + 1];
      InsertBounded(v, c, q[1..]);
    }
  }

  /** A command no later than any of a sorted queue can lead it. */
  lemma SortedCons(x: Command, q: seq<Command>)
    requires SortedByEp(q) && forall k :: 0 <= k < |q| ==> x.ep <= q[k].ep
    ensures SortedByEp([x] + q)
  {
    var r := [x] + q;
    forall i, j | 0 <= i < j < |r|
      ensures r[i].ep <= r[j].ep
    {
      assert r[j] == q[j - 1];
      if i > 0 {
        assert r[i] == q[i - 1];
      }
    }
  }

  /** Python's stable sort on the priority, as an insertion sort. */
  function Sort(q: seq<Command>): (r: seq<Command>)
    ensures |r| == |q|
    ensures multiset(r) == multiset(q)
    decreases |q|
  {
    if |q| == 0 then []
    else
      assert q == [q[0]] + q[1..];
      Insert(q[0], Sort(q[1..]))
  }

  lemma {:induction false} SortSorted(q: seq<Command>)
    ensures SortedByEp(Sort(q))
    decreases |q|
  {
    if |q| > 0 {
      SortSorted(q[1..]);
      InsertSorted(q[0], Sort(q[1..]));
    }
  }

  /** The commands of one priority, in order. */
  function WithEp(q: seq<Command>, v: int): (r: seq<Command>)
    ensures forall x :: x in r <==> x in q && x.ep == v
    decreases |q|
  {
    if |q| == 0 then []
    else if q[0].ep == v then [q[0]] + WithEp(q[1..], v)
    else WithEp(q[1..], v)
  }

  /** Inserting into a sorted queue puts `c` ahead of every command of its
      own priority and leaves the others' order alone. */
  lemma {:induction false} InsertStable(c: Command, q: seq<Command>, v: int)
    requires SortedByEp(q)
    ensures WithEp(Insert(c, q), v) == WithEp([c] + q, v)
    decreases |q|
  {
    assert ([c] + q)[1..] == q;
    if |q| > 0 && c.ep > q[0].ep {
      InsertStable(c, q[1..], v);
      var rest := Insert(c, q[1..]);
      assert ([q[0]] + rest)[1..] == rest;
      assert ([c] + q[1..])[1..] == q[1..];
      if q[0].ep == v {
        assert c.ep != v;
        assert WithEp([c] + q, v) == WithEp(q, v);
        assert q == [q[0]] + q[1..];
        assert WithEp(q, v) == [q[0]] + WithEp(q[1..], v);
      }
    }
  }

  /** The sort keeps the order of the commands of every priority, so equal
      priorities keep their queue order. */
  lemma {:induction false} SortStable(q: seq<Command>, v: int)
    ensures WithEp(Sort(q), v) == WithEp(q, v)
    decreases |q|
  {
    if |q| > 0 {
      SortStable(q[1..], v);
      SortSorted(q[1..]);
      InsertStable(q[0], Sort(q[1..]), v);
      assert ([q[0]] + Sort(q[1..]))[1..] == Sort(q[1..]);
      assert q == [q[0]] + q[1..];
    }
  }

  /** `for i in range(len(mods)): mods[i].id = i`. */
  function Renumber(q: seq<Command>): (r: seq<Command>)
    ensures |r| == |q|
    ensures forall i :: 0 <= i < |q| ==> r[i] == q[i].(id := Some(i))
  {
    seq(|q|, i requires 0 <= i < |q| => q[i].(id := Some(i)))
  }

  /** The numbering copies' `sortmods`. */
  function SortMods(q: seq<Command>): seq<Command> {
    Renumber(Sort(q))
  }

  /** After `sortmods` the queue is ordered by priority, holds the same
      commands apart from their ids, keeps equal priorities in queue order,
      and every id is the command's position. */
  lemma SortModsSpec(q: seq<Command>, v: int)
    ensures SortedByEp(SortMods(q))
    ensures Numbered(SortMods(q))
    ensures |SortMods(q)| == |q|
    ensures forall i :: 0 <= i < |q| ==> SortMods(q)[i] == Sort(q)[i].(id := Some(i))
    ensures multiset(Sort(q)) == multiset(q)
    ensures WithEp(Sort(q), v) == WithEp(q, v)
  {
    SortSorted(q);
    SortStable(q, v);
  }

  // ---------------------------------------------------------------------
  // The edit loop of ModImporter/modimporter.py

  /** What the loop `for base, mods in codes.items(): sortmods(base, mods);
      makeedit(base, mods)` does with one queue: the order the edits are
      made in, and what `codes[base]` holds afterwards. */
  datatype Run = Run(applied: seq<Command>, stored: seq<Command>)

  /** As written: the sorted deque is stored, the unsorted one is applied. */
  function AppliedAsWritten(q: seq<Command>): (r: Run)
    ensures multiset(r.applied) == multiset(r.stored)
  {
    Run(q, Sort(q))
  }

  /** As intended: the edits follow the priorities. */
  function Applied(q: seq<Command>): (r: Run)
    ensures SortedByEp(r.applied)
    ensures multiset(r.applied) == multiset(q)
    ensures r.applied == r.stored
  {
    SortSorted(q);
    Run(Sort(q), Sort(q))
  }

  /** A queue holding a priority-200 command ahead of a priority-100 one:
      as written, the 200 edit is made first. */
  lemma AsWrittenIgnoresPriority(a: seq<string>, b: seq<string>, key: string)
    ensures var q := [Command(a, Lua, key, 200, None), Command(b, Lua, key, 100, None)];
      && AppliedAsWritten(q).applied[0].ep == 200
      && !SortedByEp(AppliedAsWritten(q).applied)
      && Applied(q).applied[0].ep == 100
  {
    var q := [Command(a, Lua, key, 200, None), Command(b, Lua, key, 100, None)];
    assert q[1..] == [q[1]];
    assert q[1..][1..] == [];
    assert Sort(q) == [q[1], q[0]];
  }
}

=== FILE: tokens.dfy ===
/** The directive tokeniser (`tokenise`, `modfile_tokenise`) and the older
    single-colon comment strip of modimporter.py.

    A logical line is stripped and cut at `"`; the odd-numbered groups are
    quoted runs and become one token each, the even-numbered ones are cut at
    the delimiters. Empty tokens are dropped. ModImporter/modimporter.py,
    SGGMI.py and SGGMI/SGGMI.py treat space and `,` alike; modimporter.py
    cuts at space only. SGGMI/sggmi/temp/sggmi_file_mod_control.py never
    defines its delimiter, so its copy raises NameError on every line; the
    model does not follow it there. */
module Tokens {
  import opened PyStr
  import Lexer

  /** Which characters delimit tokens outside quotes. */
  datatype Dialect = SpaceOrComma | SpaceOnly

  const Quote: char := Lexer.Quote
  const Comma: char := ','
  const Space: char := ' '

  /** The tokens one group yields before empty ones are dropped. */
  function Pieces(d: Dialect, group: string, quoted: bool): (r: seq<string>)
    ensures |r| >= 1
  {
    if quoted then [group]
    else match d
      case SpaceOrComma => Split(ReplaceChar(group, Space, Comma), [Comma])
      case SpaceOnly => Split(group, [Space])
  }

  /** The non-empty strings of `xs`, in order. */
  function NonEmpty(xs: seq<string>): (r: seq<string>)
    ensures |r| <= |xs|
    ensures forall i :: 0 <= i < |r| ==> |r[i]| > 0
    ensures forall t :: t in r ==> t in xs
    ensures (forall i :: 0 <= i < |xs| ==> |xs[i]| > 0) ==> r == xs
    decreases |xs|
  {
    if |xs| == 0 then []
    else
      var rest := NonEmpty(xs[1..]);
      assert forall t :: t in rest ==> t in xs by {
        forall t | t in rest
          ensures t in xs
        {
          var i :| 0 <= i < |xs[1..]| && xs[1..][i] == t;
          assert xs[i + 1] == t;
        }
      }
      if xs[0] == "" then rest else [xs[0]] + rest
  }

  /** The tokens of groups that alternate between unquoted and quoted. */
  function Collect(d: Dialect, groups: seq<string>, quoted: bool): (r: seq<string>)
    ensures forall i :: 0 <= i < |r| ==> |r[i]| > 0
    decreases |groups|
  {
    if |groups| == 0 then []
    else NonEmpty(Pieces(d, groups[0], quoted)) + Collect(d, groups[1..], !quoted)
  }

  /** `tokenise(line)`: total, and no token is empty. */
  function Tokenise(d: Dialect, line: string): (r: seq<string>)
    ensures forall i :: 0 <= i < |r| ==> |r[i]| > 0
  {
    Collect(d, Split(Strip(line), [Quote]), false)
  }

  /** A line with no quote after stripping is one unquoted group. */
  lemma TokeniseOneGroup(d: Dialect, line: string)
    requires Quote !in Strip(line)
    ensures Tokenise(d, line) == NonEmpty(Pieces(d, Strip(line), false))
  {
    SplitCharFree(Strip(line), Quote);
    assert Collect(d, [Strip(line)], false) == NonEmpty(Pieces(d, Strip(line), false)) + Collect(d, [], true);
  }

  /** The unquoted pieces hold no space, nor, where commas delimit, a comma. */
  lemma UnquotedPiece(d: Dialect, s: string, i: nat)
    requires i < |Pieces(d, s, false)|
    ensures Space !in Pieces(d, s, false)[i]
    ensures d == SpaceOrComma ==> Comma !in Pieces(d, s, false)[i]
  {
    match d
    case SpaceOrComma =>
      var u := ReplaceChar(s, Space, Comma);
      SplitPiecesFree(u, Comma, i);
      forall c | c in Pieces(d, s, false)[i]
        ensures c in u
      {
        SplitPieceChar(u, [Comma], i, c);
      }
      assert Space !in u;
    case SpaceOnly =>
      SplitPiecesFree(s, Space, i);
  }

  /** Outside quotes, no token holds a space, nor, where commas delimit, a
      comma. */
  lemma UnquotedTokens(d: Dialect, line: string)
    requires Quote !in line
    ensures forall t :: t in Tokenise(d, line) ==> Space !in t
    ensures d == SpaceOrComma ==> forall t :: t in Tokenise(d, line) ==> Comma !in t
  {
    var s := Strip(line);
    StripChars(line);
    assert Quote !in s;
    TokeniseOneGroup(d, line);
    var ps := Pieces(d, s, false);
    forall t | t in Tokenise(d, line)
      ensures Space !in t && (d == SpaceOrComma ==> Comma !in t)
    {
      var i :| 0 <= i < |ps| && ps[i] == t;
      UnquotedPiece(d, s, i);
    }
  }

  /** A piece of a one-character split does not hold the separator. */
  lemma SplitPiecesFree(s: string, c: char, i: nat)
    requires i < |Split(s, [c])|
    ensures c !in Split(s, [c])[i]
  {
    PyStr.SplitPiecesFree(s, [c], i);
    ContainsChar(Split(s, [c])[i], c);
  }

  /** A word the dialect writes unquoted: non-empty, no whitespace, no quote,
      and no comma where commas delimit. */
  predicate Word(d: Dialect, t: string) {
    && |t| > 0
    && (forall i :: 0 <= i < |t| ==> !IsSpace(t[i]) && t[i] != Quote)
    && (d == SpaceOrComma ==> Comma !in t)
  }

  /** A character in neither the parts nor the separator is not in the
      join. */
  lemma {:induction false} JoinFree(parts: seq<string>, sep: string, c: char)
    requires c !in sep
    requires forall i :: 0 <= i < |parts| ==> c !in parts[i]
    ensures c !in Join(parts, sep)
    decreases |parts|
  {
    if |parts| > 1 {
      JoinFree(parts[1..], sep, c);
    }
  }

  /** A word holds no whitespace and no quote. */
  lemma WordFree(d: Dialect, t: string, c: char)
    requires Word(d, t) && (IsSpace(c) || c == Quote)
    ensures c !in t
  {
    forall k | 0 <= k < |t|
      ensures t[k] != c
    {
    }
  }

  /** A join of non-empty parts starts with the first part's first character
      and ends with the last part's last character. */
  lemma {:induction false} JoinEnds(parts: seq<string>, sep: string)
    requires |parts| > 0 && forall i :: 0 <= i < |parts| ==> |parts[i]| > 0
    ensures |Join(parts, sep)| > 0
    ensures Join(parts, sep)[0] == parts[0][0]
    ensures Join(parts, sep)[|Join(parts, sep)| - 1] == parts[|parts| - 1][|parts[|parts| - 1]| - 1]
    decreases |parts|
  {
    if |parts| > 1 {
      JoinEnds(parts[1..], sep);
    }
  }

  /** Replacing a character that no part holds by another turns one join
      into the other. */
  lemma {:induction false} ReplaceJoin(parts: seq<string>, a: char, b: char)
    requires forall i :: 0 <= i < |parts| ==> a !in parts[i]
    ensures ReplaceChar(Join(parts, [a]), a, b) == Join(parts, [b])
    decreases |parts|
  {
    if |parts| == 1 {
      assert ReplaceChar(parts[0], a, b) == parts[0];
    } else if |parts| > 1 {
      ReplaceJoin(parts[1..], a, b);
      var x, y := parts[0], Join(parts[1..], [a]);
      ReplaceAppend(x + [a], y, a, b);
      ReplaceAppend(x, [a], a, b);
      assert ReplaceChar(x, a, b) == x;
      assert ReplaceChar([a], a, b) == [b];
    }
  }

  lemma ReplaceAppend(x: string, y: string, a: char, b: char)
    ensures ReplaceChar(x + y, a, b) == ReplaceChar(x, a, b) + ReplaceChar(y, a, b)
  {
  }

  /** Unquoted words joined by single spaces tokenise back into the words. */
  lemma TokeniseWords(d: Dialect, ts: seq<string>)
    requires forall i :: 0 <= i < |ts| ==> Word(d, ts[i])
    ensures Tokenise(d, Join(ts, [Space])) == ts
  {
    if |ts| == 0 {
      TokeniseOneGroup(d, "");
      EmptyGroup(d);
    } else {
      var line := Join(ts, [Space]);
      WordsStripped(d, ts);
      TokeniseOneGroup(d, line);
      WordsPieces(d, ts);
    }
  }

  /** A join of words needs no stripping and holds no quote. */
  lemma WordsStripped(d: Dialect, ts: seq<string>)
    requires |ts| > 0
    requires forall i :: 0 <= i < |ts| ==> Word(d, ts[i])
    ensures Strip(Join(ts, [Space])) == Join(ts, [Space])
    ensures Quote !in Join(ts, [Space])
  {
    JoinEnds(ts, [Space]);
    forall i | 0 <= i < |ts|
      ensures Quote !in ts[i]
    {
      WordFree(d, ts[i], Quote);
    }
    JoinFree(ts, [Space], Quote);
  }

  /** Cutting a join of words at the delimiters gives the words back. */
  lemma WordsPieces(d: Dialect, ts: seq<string>)
    requires |ts| > 0
    requires forall i :: 0 <= i < |ts| ==> Word(d, ts[i])
    ensures Pieces(d, Join(ts, [Space]), false) == ts
  {
    forall i | 0 <= i < |ts|
      ensures Space !in ts[i]
    {
      WordFree(d, ts[i], Space);
    }
    match d
    case SpaceOrComma =>
      ReplaceJoin(ts, Space, Comma);
      forall i | 0 <= i < |ts|
        ensures Comma !in ts[i]
      {
        assert Word(d, ts[i]);
      }
      JoinSplit(ts, Comma);
    case SpaceOnly =>
      JoinSplit(ts, Space);
  }

  /** Each text wrapped in quotes, one after the other. */
  function Quoted(ts: seq<string>): string
    decreases |ts|
  {
    if |ts| == 0 then "" else [Quote] + ts[0] + [Quote] + Quoted(ts[1..])
  }

  /** The groups of `Quoted(ts)`: an empty unquoted group around each text. */
  function QuotedGroups(ts: seq<string>): seq<string>
    decreases |ts|
  {
    if |ts| == 0 then [""] else ["", ts[0]] + QuotedGroups(ts[1..])
  }

  lemma {:induction false} SplitQuoted(ts: seq<string>)
    requires forall i :: 0 <= i < |ts| ==> Quote !in ts[i]
    ensures Split(Quoted(ts), [Quote]) == QuotedGroups(ts)
    decreases |ts|
  {
    if |ts| == 0 {
      SplitFree("", [Quote]);
    } else {
      var g := QuotedGroups(ts[1..]);
      assert Split(Quoted(ts[1..]), [Quote]) == g by {
        assert forall i :: 0 <= i < |ts[1..]| ==> ts[1..][i] == ts[i + 1];
        SplitQuoted(ts[1..]);
      }
      SplitQuotedStep(ts);
      assert QuotedGroups(ts) == ["", ts[0]] + g;
    }
  }

  /** The first quoted text splits off as an empty group and itself. */
  lemma SplitQuotedStep(ts: seq<string>)
    requires |ts| > 0 && Quote !in ts[0]
    ensures Split(Quoted(ts), [Quote]) == ["", ts[0]] + Split(Quoted(ts[1..]), [Quote])
  {
    SplitWrapped(Quote, ts[0], Quoted(ts[1..]));
  }

  /** An empty unquoted group yields no token. */
  lemma EmptyGroup(d: Dialect)
    ensures NonEmpty(Pieces(d, "", false)) == []
  {
    assert ReplaceChar("", Space, Comma) == "";
    SplitFree("", [Comma]);
    SplitFree("", [Space]);
  }

  lemma {:induction false} CollectQuoted(d: Dialect, ts: seq<string>)
    requires forall i :: 0 <= i < |ts| ==> |ts[i]| > 0
    ensures Collect(d, QuotedGroups(ts), false) == ts
    decreases |ts|
  {
    EmptyGroup(d);
    if |ts| > 0 {
      var g := QuotedGroups(ts);
      assert g[1..][1..] == QuotedGroups(ts[1..]);
      CollectQuoted(d, ts[1..]);
      assert NonEmpty([ts[0]]) == [ts[0]];
      assert ts == [ts[0]] + ts[1..];
    } else {
      assert Collect(d, [""], false) == NonEmpty(Pieces(d, "", false)) + Collect(d, [], true);
    }
  }

  /** Each quoted run becomes exactly one token, whatever spaces or commas
      it holds. */
  lemma TokeniseQuoted(d: Dialect, ts: seq<string>)
    requires forall i :: 0 <= i < |ts| ==> |ts[i]| > 0 && Quote !in ts[i]
    ensures Tokenise(d, Quoted(ts)) == ts
  {
    QuotedStripped(ts);
    SplitQuoted(ts);
    CollectQuoted(d, ts);
  }

  lemma QuotedStripped(ts: seq<string>)
    ensures Strip(Quoted(ts)) == Quoted(ts)
  {
    if |ts| > 0 {
      assert Quoted(ts)[0] == Quote;
      QuotedLast(ts);
    }
  }

  lemma {:induction false} QuotedLast(ts: seq<string>)
    requires |ts| > 0
    ensures |Quoted(ts)| > 0 && Quoted(ts)[|Quoted(ts)| - 1] == Quote
    decreases |ts|
  {
    if |ts| > 1 {
      QuotedLast(ts[1..]);
    }
  }

  /** The even-numbered items: Python's `xs[::2]`. */
  function Evens(xs: seq<string>): (r: seq<string>)
    ensures |r| == (|xs| + 1) / 2
    ensures forall i :: 0 <= i < |r| ==> r[i] == xs[2 * i]
    decreases |xs|
  {
    if |xs| == 0 then [] else if |xs| == 1 then [xs[0]] else [xs[0]] + Evens(xs[2..])
  }

  /** modimporter.py's comment strip: the text between the first and second
      `:`, the third and fourth, and so on, is dropped with the colons. */
  function StripColons(line: string): (r: string)
  {
    Concat(Evens(Split(line, [':'])))
  }

  lemma {:induction false} ConcatFree(parts: seq<string>, c: char)
    requires forall i :: 0 <= i < |parts| ==> c !in parts[i]
    ensures c !in Concat(parts)
    decreases |parts|
  {
    if |parts| > 0 {
      ConcatFree(parts[1..], c);
    }
  }

  /** No colon survives the strip. */
  lemma StripColonsFree(line: string)
    ensures ':' !in StripColons(line)
  {
    var ps := Split(line, [':']);
    var es := Evens(ps);
    forall i | 0 <= i < |es|
      ensures ':' !in es[i]
    {
      SplitPiecesFree(line, ':', 2 * i);
    }
    ConcatFree(es, ':');
  }

  /** A line without colons is left alone. */
  lemma StripColonsPlain(line: string)
    requires ':' !in line
    ensures StripColons(line) == line
  {
    SplitCharFree(line, ':');
    assert Evens([line]) == [line];
    assert Concat([line]) == line + Concat([]);
  }

  /** The text up to the first colon is kept, the text up to the second is
      dropped, and the strip goes on after that. */
  lemma StripColonsPair(a: string, b: string, c: string)
    requires ':' !in a && ':' !in b
    ensures StripColons(a + ":" + b + ":" + c) == a + StripColons(c)
  {
    var rest := b + ":" + c;
    assert a + ":" + b + ":" + c == a + [':'] + rest;
    SplitCharCons(a, ':', rest);
    SplitCharCons(b, ':', c);
    var ps := Split(a + ":" + b + ":" + c, [':']);
    assert ps == [a, b] + Split(c, [':']);
    assert ps[2..] == Split(c, [':']);
  }
}

=== FILE: wrappers.dfy ===
/** Option and Result, the failure-compatible datatypes the rest of the model
    uses. A Python exception that escapes one of the modelled functions is a
    `Fail` carrying the exception's class name. */
module Wrappers {

  datatype Option<+T> = None | Some(value: T) {

    function GetOr(default: T): T {
      match this
      case Some(v) => v
      case None => default
    }
  }

  datatype Result<+T> = Ok(value: T) | Fail(error: string) {

    predicate IsFailure() {
      Fail?
    }

    function PropagateFailure<U>(): Result<U>
      requires Fail?
    {
      Fail(error)
    }

    function Extract(): T
      requires Ok?
    {
      value
    }
  }
}

=== FILE: xml_merge.dfy ===
/** `xmlmap(indata, mapdata)` of modimporter.py, repeated as `xml_map` in
    SGGMI.py and sggmi/sggmi_xml.py: merging a patch document into a game's
    XML file. The model follows modimporter.py; sggmi/sggmi_xml.py tests
    against a `DNE` it never defines, so its copy raises NameError there.

    The children of a patch element are grouped by tag, the tags taken in
    the order they first appear. Within a tag, the i-th patch child is
    paired with the i-th base child of that tag. An unpaired patch child is
    appended. A paired patch child whose `_delete` attribute is set removes
    its partner. One whose `_replace` attribute is set gives its partner
    its own text, tail and attributes (without `_replace`) and leaves the
    partner's children alone. Any other paired child overwrites its
    partner's text and tail, merges its attributes into the partner's, and
    merges its own children into the partner's the same way. An attribute
    counts as set when present and not one of "0", "false" or "False".

    The code mutates the base tree in place. Here the state of the loop is
    `Work`: one slot per original base child (None once removed) and the
    list of appended children. This is faithful because the code's writes
    only touch base children of the tag being processed, each at most once,
    and every `findall` on the base sees exactly the original children of
    that tag. */
module XmlMerge {
  import opened Wrappers
  import opened Nodes
  import PyStr

  /** An attribute mapping: a Python dict from names to strings, so its
      names are unique. */
  type Attrib = es: seq<Entry> | UniqueKeys(es) witness []

  datatype Element = Element(tag: string, attrib: Attrib, text: Option<string>, tail: Option<string>, children: seq<Element>)

  const DeleteMark: string := "_delete"
  const ReplaceMark: string := "_replace"

  /** The attribute values that leave a marker unset. */
  const Unset: set<Node> := {Scalar(Str("0")), Scalar(Str("false")), Scalar(Str("False"))}

  /** `me.get(mark, None) not in {None, '0', 'false', 'False'}`. */
  predicate Flag(attrib: Attrib, mark: string) {
    Lookup(attrib, mark).Some? && Lookup(attrib, mark).value !in Unset
  }

  /** The nesting depth of an element, bounding the merge's recursion. */
  function Depth(e: Element): nat
    decreases e
  {
    1 + MaxDepth(e.children)
  }

  function MaxDepth(es: seq<Element>): (r: nat)
    ensures forall i :: 0 <= i < |es| ==> Depth(es[i]) <= r
    decreases es
  {
    if |es| == 0 then 0
    else
      var h := Depth(es[0]);
      var t := MaxDepth(es[1..]);
      assert forall i :: 1 <= i < |es| ==> es[i] == es[1..][i - 1];
      if h < t then t else h
  }

  lemma {:induction false} MaxDepthBound(es: seq<Element>, h: nat)
    requires forall i :: 0 <= i < |es| ==> Depth(es[i]) <= h
    ensures MaxDepth(es) <= h
    decreases |es|
  {
    if |es| > 0 {
      MaxDepthBound(es[1..], h);
    }
  }

  // ---------------------------------------------------------------------
  // Finding children by tag

  /** The positions of the children with tag `t`, in document order: what
      `findall(t)` returns, as positions. */
  function Positions(xs: seq<Element>, t: string): (r: seq<nat>)
    ensures forall k :: 0 <= k < |r| ==> r[k] < |xs| && xs[r[k]].tag == t
    ensures forall k, l :: 0 <= k < l < |r| ==> r[k] < r[l]
    ensures forall i :: 0 <= i < |xs| && xs[i].tag == t ==> i in r
    decreases |xs|
  {
    if |xs| == 0 then []
    else
      var init := Positions(xs[..|xs| - 1], t);
      if xs[|xs| - 1].tag == t then init + [|xs| - 1] else init
  }

  /** `findall(t)`: the children with tag `t`, in document order. */
  function FindAll(xs: seq<Element>, t: string): (r: seq<Element>)
    ensures |r| == |Positions(xs, t)|
    ensures forall k :: 0 <= k < |r| ==> r[k] == xs[Positions(xs, t)[k]] && r[k].tag == t
  {
    var pos := Positions(xs, t);
    seq(|pos|, k requires 0 <= k < |pos| => xs[pos[k]])
  }

  /** How many earlier children share the tag of the child at `j`. */
  function Rank(xs: seq<Element>, j: nat): nat
    requires j < |xs|
  {
    |Positions(xs[..j], xs[j].tag)|
  }

  /** The positions within a prefix are a prefix of the positions. */
  lemma {:induction false} PositionsPrefix(xs: seq<Element>, m: nat, t: string)
    requires m <= |xs|
    ensures Positions(xs[..m], t) <= Positions(xs, t)
    decreases |xs|
  {
    if m < |xs| {
      var init := xs[..|xs| - 1];
      assert init[..m] == xs[..m];
      PositionsPrefix(init, m, t);
      assert Positions(init, t) <= Positions(xs, t);
    } else {
      assert xs[..m] == xs;
    }
  }

  /** A child is the `Rank`-th of the children with its tag. */
  lemma PositionsRank(xs: seq<Element>, j: nat)
    requires j < |xs|
    ensures Rank(xs, j) < |Positions(xs, xs[j].tag)|
    ensures Positions(xs, xs[j].tag)[Rank(xs, j)] == j
  {
    var t := xs[j].tag;
    var pre := xs[..j + 1];
    assert pre[..|pre| - 1] == xs[..j];
    assert Positions(pre, t) == Positions(xs[..j], t) + [j];
    PositionsPrefix(xs, j + 1, t);
  }

  /** And the `k`-th child with a tag has rank `k`. */
  lemma RankOfPosition(xs: seq<Element>, t: string, k: nat)
    requires k < |Positions(xs, t)|
    ensures Rank(xs, Positions(xs, t)[k]) == k
  {
    var q := Positions(xs, t)[k];
    PositionsRank(xs, q);
  }

  /** The tags of the children, each once, in order of first appearance:
      the keys of the code's `mtags`. */
  function Tags(ps: seq<Element>): (r: seq<string>)
    ensures forall k, l :: 0 <= k < l < |r| ==> r[k] != r[l]
    ensures forall t :: t in r <==> exists i :: 0 <= i < |ps| && ps[i].tag == t
    decreases |ps|
  {
    if |ps| == 0 then []
    else
      var init := Tags(ps[..|ps| - 1]);
      assert forall i :: 0 <= i < |ps| - 1 ==> ps[..|ps| - 1][i] == ps[i];
      var t := ps[|ps| - 1].tag;
      if t in init then init else init + [t]
  }

  // ---------------------------------------------------------------------
  // Attributes

  /** `xml_map` on two attribute dicts: each patch attribute is written
      over the base, in the patch's order. */
  function MergeAttrib(base: Attrib, patch: Attrib): (r: Attrib)
    ensures Keys(base) <= Keys(r)
    decreases |patch|
  {
    if |patch| == 0 then base
    else
      UniqueTail(patch);
      PutKeys(base, patch[0].key, patch[0].value);
      var next: Attrib := Put(base, patch[0].key, patch[0].value);
      var r := MergeAttrib(next, patch[1..]);
      PrefixTrans(Keys(base), Keys(next), Keys(r));
      r
  }

  /** Patch attributes win; the base's other attributes stay. */
  lemma {:induction false} MergeAttribLookup(base: Attrib, patch: Attrib, k: string)
    ensures Lookup(MergeAttrib(base, patch), k) == if k in Keys(patch) then Lookup(patch, k) else Lookup(base, k)
    decreases |patch|
  {
    if |patch| > 0 {
      var k0 := patch[0].key;
      UniqueTail(patch);
      PutKeys(base, k0, patch[0].value);
      var next: Attrib := Put(base, k0, patch[0].value);
      MergeAttribLookup(next, patch[1..], k);
      assert Keys(patch) == [k0] + Keys(patch[1..]);
    }
  }

  // ---------------------------------------------------------------------
  // The merge

  /** The loop's state: a slot per original base child, None once removed,
      and the patch children appended so far. */
  datatype Work = Work(slots: seq<Option<Element>>, appended: seq<Element>)

  /** What becomes of the base child `ie` paired with the patch child `me`:
      None when it is removed. */
  function Step(ie: Element, me: Element): (r: Option<Element>)
    ensures r.None? <==> Flag(me.attrib, DeleteMark)
    ensures r.Some? ==> r.value.tag == ie.tag && r.value.text == me.text && r.value.tail == me.tail
    ensures r.Some? && Flag(me.attrib, ReplaceMark) ==>
      && r.value.children == ie.children
      && (forall k :: Lookup(r.value.attrib, k) == if k == ReplaceMark then None else Lookup(me.attrib, k))
    ensures r.Some? && !Flag(me.attrib, ReplaceMark) ==>
      forall k :: Lookup(r.value.attrib, k) == if k in Keys(me.attrib) then Lookup(me.attrib, k) else Lookup(ie.attrib, k)
    decreases Depth(me), 5
  {
    forall k ensures Lookup(MergeAttrib(ie.attrib, me.attrib), k) == if k in Keys(me.attrib) then Lookup(me.attrib, k) else Lookup(ie.attrib, k) {
      MergeAttribLookup(ie.attrib, me.attrib, k);
    }
    RemoveSpec(me.attrib, ReplaceMark);
    if Flag(me.attrib, DeleteMark) then None
    else if Flag(me.attrib, ReplaceMark) then
      Some(Element(ie.tag, Remove(me.attrib, ReplaceMark), me.text, me.tail, ie.children))
    else
      Some(MergeElement(Element(ie.tag, MergeAttrib(ie.attrib, me.attrib), me.text, me.tail, ie.children), me))
  }

  /** `xml_map` on two elements: only the children are merged; the base
      element's own tag, attributes, text and tail stay. */
  function MergeElement(base: Element, patch: Element): (r: Element)
    ensures r.tag == base.tag && r.attrib == base.attrib && r.text == base.text && r.tail == base.tail
    decreases Depth(patch), 4
  {
    Element(base.tag, base.attrib, base.text, base.tail, MergeChildren(base.children, patch.children))
  }

  /** Every original child in its slot. */
  function Lift(bs: seq<Element>): (r: seq<Option<Element>>)
    ensures |r| == |bs| && forall j :: 0 <= j < |bs| ==> r[j] == Some(bs[j])
  {
    seq(|bs|, j requires 0 <= j < |bs| => Some(bs[j]))
  }

  /** The children left in their slots, in order. */
  function Survivors(slots: seq<Option<Element>>): (r: seq<Element>)
    ensures |r| <= |slots|
    decreases |slots|
  {
    if |slots| == 0 then []
    else (if slots[0].Some? then [slots[0].value] else []) + Survivors(slots[1..])
  }

  function MergeChildren(bs: seq<Element>, ps: seq<Element>): seq<Element>
    decreases 1 + MaxDepth(ps), 3
  {
    var w := ProcessTags(Work(Lift(bs), []), bs, ps, Tags(ps));
    Survivors(w.slots) + w.appended
  }

  /** The loop over the patch's tags. */
  function ProcessTags(w: Work, bs: seq<Element>, ps: seq<Element>, tags: seq<string>): (r: Work)
    requires |w.slots| == |bs|
    ensures |r.slots| == |bs|
    decreases 1 + MaxDepth(ps), 2, |tags|
  {
    if |tags| == 0 then w
    else ProcessTags(ProcessTag(w, bs, ps, tags[0]), bs, ps, tags[1..])
  }

  /** One tag: pair the patch's children of that tag with the base's. */
  function ProcessTag(w: Work, bs: seq<Element>, ps: seq<Element>, t: string): (r: Work)
    requires |w.slots| == |bs|
    ensures |r.slots| == |bs|
    decreases 1 + MaxDepth(ps), 1
  {
    var mes := FindAll(ps, t);
    MaxDepthBound(mes, MaxDepth(ps));
    ProcessMes(w, bs, mes, Positions(bs, t), 0)
  }

  /** The loop over the patch children `mes` of one tag, from the `i`-th;
      `ies` are the positions of the base children of that tag. */
  function ProcessMes(w: Work, bs: seq<Element>, mes: seq<Element>, ies: seq<nat>, i: nat): (r: Work)
    requires |w.slots| == |bs|
    requires forall k :: 0 <= k < |ies| ==> ies[k] < |bs|
    ensures |r.slots| == |bs|
    decreases 1 + MaxDepth(mes), 0, |mes| - i
  {
    if i >= |mes| then w
    else ProcessMes(Visit(w, bs, mes[i], ies, i), bs, mes, ies, i + 1)
  }

  /** One patch child `me`, the `i`-th of its tag: appended when the base
      has no `i`-th child of that tag, paired with it otherwise. */
  function Visit(w: Work, bs: seq<Element>, me: Element, ies: seq<nat>, i: nat): (r: Work)
    requires |w.slots| == |bs|
    requires forall k :: 0 <= k < |ies| ==> ies[k] < |bs|
    ensures |r.slots| == |bs|
    decreases Depth(me), 6
  {
    if i < |ies| then w.(slots := w.slots[ies[i] := Step(bs[ies[i]], me)])
    else w.(appended := w.appended + [me])
  }

  // ---------------------------------------------------------------------
  // What the loop computes

  /** The patch child paired with the base child at `j`: the one with the
      same tag and the same rank among the children of that tag. */
  function Partner(bs: seq<Element>, ps: seq<Element>, j: nat): (r: Option<Element>)
    requires j < |bs|
    ensures r.Some? <==> Rank(bs, j) < |Positions(ps, bs[j].tag)|
    ensures r.Some? ==>
      var q := Positions(ps, bs[j].tag)[Rank(bs, j)];
      r.value == ps[q] && ps[q].tag == bs[j].tag && Rank(ps, q) == Rank(bs, j)
  {
    var mes := FindAll(ps, bs[j].tag);
    var k := Rank(bs, j);
    if k < |mes| then RankOfPosition(ps, bs[j].tag, k); Some(mes[k]) else None
  }

  /** What becomes of the base child at `j`: kept as it is when unpaired,
      otherwise the outcome of its pairing. */
  function Outcome(bs: seq<Element>, ps: seq<Element>, j: nat): Option<Element>
    requires j < |bs|
  {
    match Partner(bs, ps, j)
    case None => Some(bs[j])
    case Some(me) => Step(bs[j], me)
  }

  function Outcomes(bs: seq<Element>, ps: seq<Element>): (r: seq<Option<Element>>)
    ensures |r| == |bs| && forall j :: 0 <= j < |bs| ==> r[j] == Outcome(bs, ps, j)
  {
    seq(|bs|, j requires 0 <= j < |bs| => Outcome(bs, ps, j))
  }

  /** The elements from position `n` on; none when there are fewer. */
  function Beyond<T>(xs: seq<T>, n: nat): seq<T> {
    if n < |xs| then xs[n..] else []
  }

  /** Where a member of `Beyond(xs, n)` sits in `xs`. */
  lemma BeyondIndex<T>(xs: seq<T>, n: nat, x: T) returns (k: nat)
    requires x in Beyond(xs, n)
    ensures n <= k < |xs| && xs[k] == x
  {
    var i :| 0 <= i < |xs[n..]| && xs[n..][i] == x;
    k := n + i;
  }

  /** Membership in a concatenation. */
  lemma InConcat<T>(a: seq<T>, b: seq<T>, x: T)
    ensures x in a + b <==> x in a || x in b
  {
    if x in a + b {
      var i :| 0 <= i < |a + b| && (a + b)[i] == x;
      if i >= |a| {
        assert b[i - |a|] == x;
      }
    }
  }

  /** The unpaired patch children, tag by tag: those past the number of base
      children of their tag. */
  function Extras(bs: seq<Element>, ps: seq<Element>, tags: seq<string>): seq<Element>
    decreases |tags|
  {
    if |tags| == 0 then []
    else Unpaired(bs, ps, tags[0]) + Extras(bs, ps, tags[1..])
  }

  /** The patch children of tag `t` past the base's children of that tag. */
  function Unpaired(bs: seq<Element>, ps: seq<Element>, t: string): seq<Element> {
    Beyond(FindAll(ps, t), |Positions(bs, t)|)
  }

  /** The merged children: the base's children in their order, each kept,
      changed or removed by its partner, followed by the unpaired patch
      children. */
  lemma MergeChildrenShape(bs: seq<Element>, ps: seq<Element>)
    ensures MergeChildren(bs, ps) == Survivors(Outcomes(bs, ps)) + Extras(bs, ps, Tags(ps))
  {
    var w0 := Work(Lift(bs), []);
    var w := ProcessTags(w0, bs, ps, Tags(ps));
    assert MergeChildren(bs, ps) == Survivors(w.slots) + w.appended;
    assert w.appended == Extras(bs, ps, Tags(ps)) by {
      ProcessTagsAppended(w0, bs, ps, Tags(ps));
      assert w0.appended + Extras(bs, ps, Tags(ps)) == Extras(bs, ps, Tags(ps));
    }
    assert w.slots == Outcomes(bs, ps) by {
      forall j | 0 <= j < |bs|
        ensures w.slots[j] == Outcome(bs, ps, j)
      {
        ProcessTagsSlot(w0, bs, ps, Tags(ps), j);
        if bs[j].tag !in Tags(ps) {
          NoPartner(bs, ps, j);
        }
      }
    }
  }

  /** A base child whose tag the patch does not use has no partner. */
  lemma NoPartner(bs: seq<Element>, ps: seq<Element>, j: nat)
    requires j < |bs| && bs[j].tag !in Tags(ps)
    ensures Partner(bs, ps, j).None?
  {
  }

  /** The slot of the base child at `j` after the loop over `mes`: the
      outcome of the pairing with the `k`-th patch child when `ies[k]` is
      `j`, and untouched when no remaining `ies[k]` is. */
  lemma {:induction false} ProcessMesSlot(w: Work, bs: seq<Element>, mes: seq<Element>, ies: seq<nat>, i: nat, j: nat)
    requires |w.slots| == |bs| && j < |bs|
    requires forall k :: 0 <= k < |ies| ==> ies[k] < |bs|
    requires forall k, l :: 0 <= k < l < |ies| ==> ies[k] < ies[l]
    ensures forall k :: i <= k < |mes| && k < |ies| && ies[k] == j ==>
      ProcessMes(w, bs, mes, ies, i).slots[j] == Step(bs[j], mes[k])
    ensures (forall k :: i <= k < |mes| && k < |ies| ==> ies[k] != j) ==>
      ProcessMes(w, bs, mes, ies, i).slots[j] == w.slots[j]
    decreases |mes| - i
  {
    if i < |mes| {
      var w' := Visit(w, bs, mes[i], ies, i);
      assert ProcessMes(w, bs, mes, ies, i) == ProcessMes(w', bs, mes, ies, i + 1);
      ProcessMesSlot(w', bs, mes, ies, i + 1, j);
      if i < |ies| && ies[i] == j {
        assert w'.slots[j] == Step(bs[j], mes[i]);
        assert forall k :: i + 1 <= k < |ies| ==> ies[k] != j;
      } else {
        assert w'.slots[j] == w.slots[j];
      }
    }
  }

  /** After one tag, a base child of another tag is untouched, and one of
      that tag holds the outcome of its pairing, if it has a partner. */
  lemma ProcessTagSlot(w: Work, bs: seq<Element>, ps: seq<Element>, t: string, j: nat)
    requires |w.slots| == |bs| && j < |bs|
    ensures bs[j].tag != t ==> ProcessTag(w, bs, ps, t).slots[j] == w.slots[j]
    ensures bs[j].tag == t && Partner(bs, ps, j).None? ==> ProcessTag(w, bs, ps, t).slots[j] == w.slots[j]
    ensures bs[j].tag == t && Partner(bs, ps, j).Some? ==>
      ProcessTag(w, bs, ps, t).slots[j] == Step(bs[j], Partner(bs, ps, j).value)
  {
    var mes := FindAll(ps, t);
    var ies := Positions(bs, t);
    MaxDepthBound(mes, MaxDepth(ps));
    assert ProcessTag(w, bs, ps, t) == ProcessMes(w, bs, mes, ies, 0);
    ProcessMesSlot(w, bs, mes, ies, 0, j);
    if bs[j].tag == t {
      PositionsRank(bs, j);
      var r := Rank(bs, j);
      assert ies[r] == j;
      assert forall k :: 0 <= k < |ies| && ies[k] == j ==> k == r;
    }
  }

  /** After a run of distinct tags, a base child whose tag is not among them
      is untouched, and one whose tag is, and which was untouched before,
      holds its outcome. */
  lemma {:induction false} ProcessTagsSlot(w: Work, bs: seq<Element>, ps: seq<Element>, tags: seq<string>, j: nat)
    requires |w.slots| == |bs| && j < |bs|
    requires forall k, l :: 0 <= k < l < |tags| ==> tags[k] != tags[l]
    ensures bs[j].tag !in tags ==> ProcessTags(w, bs, ps, tags).slots[j] == w.slots[j]
    ensures bs[j].tag in tags && w.slots[j] == Some(bs[j]) ==>
      ProcessTags(w, bs, ps, tags).slots[j] == Outcome(bs, ps, j)
    decreases |tags|
  {
    if |tags| > 0 {
      var w' := ProcessTag(w, bs, ps, tags[0]);
      assert ProcessTags(w, bs, ps, tags) == ProcessTags(w', bs, ps, tags[1..]);
      DistinctTail(tags);
      ProcessTagSlot(w, bs, ps, tags[0], j);
      ProcessTagsSlot(w', bs, ps, tags[1..], j);
      assert bs[j].tag in tags <==> bs[j].tag == tags[0] || bs[j].tag in tags[1..] by {
        assert tags == [tags[0]] + tags[1..];
      }
    }
  }

  /** The rest of a run of distinct tags is distinct and lacks its head. */
  lemma DistinctTail(tags: seq<string>)
    requires |tags| > 0
    requires forall k, l :: 0 <= k < l < |tags| ==> tags[k] != tags[l]
    ensures forall k, l :: 0 <= k < l < |tags[1..]| ==> tags[1..][k] != tags[1..][l]
    ensures tags[0] !in tags[1..]
  {
    assert forall k :: 0 <= k < |tags[1..]| ==> tags[1..][k] == tags[k + 1];
  }

  /** The loop over `mes` appends the patch children past the base's
      children of their tag, in order. */
  lemma {:induction false} ProcessMesAppended(w: Work, bs: seq<Element>, mes: seq<Element>, ies: seq<nat>, i: nat)
    requires |w.slots| == |bs| && i <= |mes|
    requires forall k :: 0 <= k < |ies| ==> ies[k] < |bs|
    ensures ProcessMes(w, bs, mes, ies, i).appended == w.appended + Beyond(mes, if i < |ies| then |ies| else i)
    decreases |mes| - i
  {
    if i < |mes| {
      var w' := Visit(w, bs, mes[i], ies, i);
      ProcessMesAppended(w', bs, mes, ies, i + 1);
      if i >= |ies| {
        assert mes[i..] == [mes[i]] + mes[i + 1..];
      }
    } else {
      assert w.appended + [] == w.appended;
    }
  }

  lemma ProcessTagAppended(w: Work, bs: seq<Element>, ps: seq<Element>, t: string)
    requires |w.slots| == |bs|
    ensures ProcessTag(w, bs, ps, t).appended == w.appended + Unpaired(bs, ps, t)
  {
    var mes := FindAll(ps, t);
    MaxDepthBound(mes, MaxDepth(ps));
    ProcessMesAppended(w, bs, mes, Positions(bs, t), 0);
  }

  lemma {:induction false} ProcessTagsAppended(w: Work, bs: seq<Element>, ps: seq<Element>, tags: seq<string>)
    requires |w.slots| == |bs|
    ensures ProcessTags(w, bs, ps, tags).appended == w.appended + Extras(bs, ps, tags)
    decreases |tags|
  {
    if |tags| > 0 {
      var w' := ProcessTag(w, bs, ps, tags[0]);
      ProcessTagAppended(w, bs, ps, tags[0]);
      ProcessTagsAppended(w', bs, ps, tags[1..]);
      var b := Unpaired(bs, ps, tags[0]);
      var e := Extras(bs, ps, tags[1..]);
      assert ProcessTags(w, bs, ps, tags) == ProcessTags(w', bs, ps, tags[1..]);
      PyStr.Assoc(w.appended, b, e);
    } else {
      assert w.appended + [] == w.appended;
    }
  }

  /** A patch child is appended exactly when its rank among the patch
      children of its tag reaches the number of base children of that tag. */
  lemma ExtrasMember(bs: seq<Element>, ps: seq<Element>, x: Element)
    ensures x in Extras(bs, ps, Tags(ps)) <==>
      exists q :: 0 <= q < |ps| && ps[q] == x && Rank(ps, q) >= |Positions(bs, ps[q].tag)|
  {
    if x in Extras(bs, ps, Tags(ps)) {
      var t, k := ExtrasWitness(bs, ps, Tags(ps), x);
      var q := Positions(ps, t)[k];
      RankOfPosition(ps, t, k);
      assert ps[q] == x && Rank(ps, q) >= |Positions(bs, ps[q].tag)|;
    }
    if exists q :: 0 <= q < |ps| && ps[q] == x && Rank(ps, q) >= |Positions(bs, ps[q].tag)| {
      var q :| 0 <= q < |ps| && ps[q] == x && Rank(ps, q) >= |Positions(bs, ps[q].tag)|;
      var t := ps[q].tag;
      PositionsRank(ps, q);
      assert FindAll(ps, t)[Rank(ps, q)] == x;
      ExtrasContains(bs, ps, Tags(ps), t, Rank(ps, q));
    }
  }

  /** Where an appended child comes from. */
  lemma {:induction false} ExtrasWitness(bs: seq<Element>, ps: seq<Element>, tags: seq<string>, x: Element)
      returns (t: string, k: nat)
    requires x in Extras(bs, ps, tags)
    ensures |Positions(bs, t)| <= k < |Positions(ps, t)| && FindAll(ps, t)[k] == x
    decreases |tags|
  {
    var b := Unpaired(bs, ps, tags[0]);
    InConcat(b, Extras(bs, ps, tags[1..]), x);
    if x in b {
      t := tags[0];
      k := BeyondIndex(FindAll(ps, t), |Positions(bs, t)|, x);
    } else {
      t, k := ExtrasWitness(bs, ps, tags[1..], x);
    }
  }

  lemma {:induction false} ExtrasContains(bs: seq<Element>, ps: seq<Element>, tags: seq<string>, t: string, k: nat)
    requires t in tags && |Positions(bs, t)| <= k < |Positions(ps, t)|
    ensures FindAll(ps, t)[k] in Extras(bs, ps, tags)
    decreases |tags|
  {
    if tags[0] == t {
      var c := |Positions(bs, t)|;
      assert FindAll(ps, t)[k] == Unpaired(bs, ps, t)[k - c];
    } else {
      ExtrasContains(bs, ps, tags[1..], t, k);
    }
  }

  /** All children kept, in their slots. */
  lemma {:induction false} SurvivorsLift(bs: seq<Element>)
    ensures Survivors(Lift(bs)) == bs
    decreases |bs|
  {
    if |bs| > 0 {
      assert Lift(bs)[1..] == Lift(bs[1..]);
      SurvivorsLift(bs[1..]);
    }
  }

  /** A patch element without children leaves the base element as it is. */
  lemma MergeElementChildless(base: Element, patch: Element)
    requires |patch.children| == 0
    ensures MergeElement(base, patch) == base
  {
    assert Tags(patch.children) == [];
    SurvivorsLift(base.children);
  }

  // ---------------------------------------------------------------------
  // Documents and lookups

  /** What `readxml` yields: a parsed tree, or DNE when parsing failed. */
  datatype Doc = Unparsed | Tree(root: Element)

  /** `xmlmap` on two documents: an unparsed patch keeps the base; a parsed
      patch over an unparsed base replaces it (the types differ); two trees
      merge their roots' children, the base root's own attributes, text and
      tail staying. */
  function MergeDoc(base: Doc, patch: Doc): (r: Doc)
    ensures patch.Unparsed? ==> r == base
    ensures patch.Tree? && base.Unparsed? ==> r == patch
    ensures base.Tree? && patch.Tree? ==>
      r.Tree? && r.root.tag == base.root.tag && r.root.attrib == base.root.attrib
      && r.root.text == base.root.text && r.root.tail == base.root.tail
  {
    match (base, patch)
    case (_, Unparsed) => base
    case (Unparsed, _) => patch
    case (Tree(b), Tree(p)) => Tree(MergeElement(b, p))
  }

  /** `mergexml(infile, mapfile)` after reading: an empty patch path reads
      nothing and keeps the base; `patch` is what reading the patch file
      gives. */
  function MergeXml(base: Doc, mapfile: string, patch: Doc): (r: Doc)
    ensures |mapfile| == 0 ==> r == base
    ensures |mapfile| > 0 && patch.Unparsed? ==> r == base
  {
    MergeDoc(base, if |mapfile| > 0 then patch else Unparsed)
  }

  /** The values the XML `get` is applied to. */
  datatype XmlValue = Children(items: seq<Element>) | Document(root: Element) | Elem(e: Element) | Other

  /** What `get` finds: a child, an attribute value, or DNE. */
  datatype Got = Child(child: Element) | AttrValue(value: Node) | Missing

  /** The XML branches of `safeget(data, key)` in modimporter.py, where
      `DNE = ()`: an in-range index of a list; an attribute of an element;
      DNE otherwise. On a tree whose root has children the code names an
      unbound variable and raises NameError; a root without children is
      falsy and falls through to DNE. The `get` of sggmi/sggmi_xml.py has
      the same branches but never defines `DNE`, so there every branch
      but the in-range index raises NameError. */
  function XmlGet(data: XmlValue, key: Key): (r: Result<Got>)
    ensures r.Fail? <==> data.Document? && |data.root.children| > 0
    ensures data.Children? ==>
      r == Ok(if key.Index? && 0 <= key.index < |data.items| then Child(data.items[key.index]) else Missing)
    ensures data.Elem? ==> r.Ok? && (r.value.AttrValue? <==> key.Name? && key.name in Keys(data.e.attrib))
    ensures data.Elem? && r.value.AttrValue? ==> Lookup(data.e.attrib, key.name) == Some(r.value.value)
    ensures data.Other? || (data.Document? && |data.root.children| == 0) ==> r == Ok(Missing)
  {
    match data
    case Children(items) =>
      if key.Index? && 0 <= key.index < |items| then Ok(Child(items[key.index])) else Ok(Missing)
    case Document(root) =>
      if |root.children| > 0 then Fail("NameError") else Ok(Missing)
    case Elem(e) =>
      if key.Name? then
        match Lookup(e.attrib, key.name)
        case Some(v) => Ok(AttrValue(v))
        case None => Ok(Missing)
      else Ok(Missing)
    case Other => Ok(Missing)
  }

  /** The merge's tests agree with `safeget`: a marker is set when
      `safeget` finds it with a value other than "0", "false" and "False",
      and the `i`-th patch child of a tag is appended when `safeget` finds
      no `i`-th base child of that tag. */
  lemma FlagIsGet(me: Element, mark: string)
    ensures Flag(me.attrib, mark) <==>
      var g := XmlGet(Elem(me), Name(mark));
      g.Ok? && g.value.AttrValue? && g.value.value !in Unset
  {
  }

  lemma VisitIsGet(w: Work, bs: seq<Element>, me: Element, t: string, i: nat)
    requires |w.slots| == |bs|
    ensures XmlGet(Children(FindAll(bs, t)), Index(i)) == Ok(Missing) <==>
      Visit(w, bs, me, Positions(bs, t), i) == w.(appended := w.appended + [me])
  {
    if i < |Positions(bs, t)| {
      var j := Positions(bs, t)[i];
      var v := Visit(w, bs, me, Positions(bs, t), i);
      assert v.slots == w.slots[j := Step(bs[j], me)];
      assert |v.appended| == |w.appended|;
    }
  }
}
